=== FILE: README.md ===
# Searchtool consultant directory: a verified model of its rating and list logic

Searchtool is a consultant directory. An Express/Mongoose server stores
consultants, and each consultant has reviews. A React front end lists, filters,
shows and adds consultants. This project models in Dafny the parts of it that
compute something. Each source file has its own module:

- `ReviewScoring` and `ConsultantModel` (`models/Consultant.js`):
  - the weighted score of one review. It uses the structured answers first,
    then the cached overall rating, then the legacy rating, else 0;
  - `recomputeRatings` on a consultant document, which is a class with fields;
  - the `associations` setter.
- `StripUndefined`, `SearchIndex` and `ConsultantRoutes` (`routes/consultants.js`):
  - `stripUndefinedDeep` over JSON-like trees, which have `undefined` and
    unassigned array slots;
  - `buildSearch`;
  - the experience add/edit/delete handlers;
  - the add-review aggregate, and whether the save that follows accepts
    the review the detail page posts.
- `ConsultantDetails` (`ConsultantDetails.js`):
  - `arr`, `csvShow`/`csvParse`, `emails`/`phones` and `fmtMonth`;
  - the client's own review score, `computeReviewOverall`.
- `ConsultantsList` (`ConsultantsList.js`):
  - the dropdown options;
  - the five-part row filter;
  - the sort of the filtered rows, done in place on an array;
  - the URL parameters that mirror the page state.
  - The page's `toArr`, `getEmails` and `getPhones` are the same expressions
    as the detail page's `arr`, `emails` and `phones`. The two pages share one
    definition (`ConsultantDetails.AsList`, `.Emails`, `.Phones`).
- `AddConsultantForm` (`AddConsultant.js`):
  - the expertise picker transitions;
  - the experience list edits;
  - the submitted payload.
- `AssociationsBox` (`components/AssociationsBox.js`): the associations
  editor's add, remove, cancel and save steps and its changed-list test,
  tied to the server's associations setter.
- `AuthGate` (`middleware/auth.js`): the bearer-token gate's
  401 / 403 / next decision.

Helper modules:

- `Wrappers`: Option and Result.
- `JsNumbers`: JavaScript numbers and `Number()` on decimal strings.
- `JsonValues`: JSON-like values.
- `Text`: trim, lower-case, split, join and substring.
- `Lists`: filter, first-occurrence de-duplication and code-point sorting.

Scores are exact `real`s. `Math.round(x * 10) / 10` is `RoundTenth`, that is
floor(10x + 1/2) / 10.

## Model

| member | source | states |
|---|---|---|
| ReviewScoring.ComputeWeightedReviewScore | Searchtool/server/models/Consultant.js:41-68 | The loop over REVIEW_WEIGHTS returns exactly ReviewScore: no review gives 0; a positive counted weight gives sum/totalW; then overallRating > 0, then rating > 0, else 0 |
| ReviewScoring.ReviewScore | Searchtool/server/models/Consultant.js:41-68 | A review's score is never negative |
| ReviewScoring.SumsNonNegative | Searchtool/server/models/Consultant.js:46-54 | The running sum and the running total weight are never negative |
| ReviewScoring.WeightTotalPositiveIff | Searchtool/server/models/Consultant.js:48-55 | totalW > 0 exactly when some weighted key holds a number > 0 |
| ReviewScoring.CountedAnswersDecide | Searchtool/server/models/Consultant.js:48-54 | Two answer maps that agree on the weighted keys holding numbers > 0 give the same sum and total |
| ReviewScoring.UncountedAnswersIgnored | Searchtool/server/models/Consultant.js:48-54 | Absent, non-numeric, zero and negative answers, and keys outside the table, do not change the score |
| ReviewScoring.StructuredAnswersTakePriority | Searchtool/server/models/Consultant.js:45-57 | With a counted answer the score is the weighted mean over the counted keys, whatever overallRating and rating hold |
| ReviewScoring.FallbackChain | Searchtool/server/models/Consultant.js:60-67 | Without a counted answer the score is overallRating if > 0, else rating if > 0, else 0 |
| ReviewScoring.ExcessIdentity | Searchtool/server/models/Consultant.js:48-54 | The weighted excess of the answers over c equals sum - c * totalW |
| ReviewScoring.ExcessAboveLow | Searchtool/server/models/Consultant.js:48-54 | Counted answers all >= lo give a non-negative excess over lo |
| ReviewScoring.ExcessBelowHigh | Searchtool/server/models/Consultant.js:48-54 | Counted answers all <= hi give a non-positive excess over hi |
| ReviewScoring.WeightedSumBounds | Searchtool/server/models/Consultant.js:48-54 | Counted answers in [lo, hi] give lo * totalW <= sum <= hi * totalW |
| ReviewScoring.DivideBounds | Searchtool/server/models/Consultant.js:55-56 | Dividing by a positive total keeps the bounds |
| ReviewScoring.StructuredScoreWithin | Searchtool/server/models/Consultant.js:48-56 | Counted answers in [lo, hi] give a score in [lo, hi]: 1-5 answers give a 1-5 score |
| ReviewScoring.ScoreWithinScale | Searchtool/server/models/Consultant.js:76-95 | A review within the schema's min/max bounds scores in [0, 5] |
| ReviewScoring.PartialRubricScoresOnScale | Searchtool/server/models/Consultant.js:45-57 | Two answers of 5 score 5: the mean is re-normalised over the answered keys |
| ConsultantModel.ConsultantDoc.constructor | Searchtool/server/models/Consultant.js:119-138 | A new document has empty lists, no reviews, ratingAvg 0 and ratingCount 0 |
| ConsultantModel.ConsultantDoc.RecomputeRatings | Searchtool/server/models/Consultant.js:143-158 | Sets ratingCount to the number of reviews and ratingAvg to AverageRating (0 with no reviews), changes nothing else, and returns the stored ratingAvg |
| ConsultantModel.RoundTenthNearest | Searchtool/server/models/Consultant.js:156 | The rounded value is a multiple of 0.1 within (x - 0.05, x + 0.05] |
| ConsultantModel.RoundTenthUnique | Searchtool/server/models/Consultant.js:156 | It is the only such multiple: ties round up |
| ConsultantModel.RoundTenthWithinScale | Searchtool/server/models/Consultant.js:156 | Rounding keeps a value in [0, 5] |
| ConsultantModel.TotalScoreAppend | Searchtool/server/models/Consultant.js:152-155 | The reduce total of a concatenation is the sum of the totals |
| ConsultantModel.TotalScorePermutation | Searchtool/server/models/Consultant.js:152-155 | The total does not depend on the order of the reviews |
| ConsultantModel.AverageRatingOrderIndependent | Searchtool/server/models/Consultant.js:143-158 | ratingAvg does not depend on the order of the reviews |
| ConsultantModel.TotalScoreWithinScale | Searchtool/server/models/Consultant.js:152-155 | Schema-valid reviews give a total in [0, 5n] |
| ConsultantModel.AverageRatingWithinScale | Searchtool/server/models/Consultant.js:137-157 | Schema-valid reviews give a ratingAvg in [0, 5], as the ratingAvg field's min/max require |
| ConsultantModel.AverageRatingNearMean | Searchtool/server/models/Consultant.js:152-156 | With n > 0 reviews ratingAvg is within 0.05 of the mean score |
| ConsultantModel.AverageRatingExample | Searchtool/server/models/Consultant.js:156 | Overall ratings 3.33 and 4.66 average to 4.0 |
| ConsultantModel.SetAssociations | Searchtool/server/models/Consultant.js:123-132 | A non-array gives []; otherwise the result is duplicate-free, holds exactly the trimmed non-empty inputs, each of them trimmed, and lists them in the order of their first occurrence among the trimmed inputs |
| ConsultantModel.SetAssociationsIdempotent | Searchtool/server/models/Consultant.js:123-132 | Setting the stored list again leaves it unchanged |
| JsonValues.Place | Searchtool/server/routes/consultants.js:19-23 | `out[k] = x` overwrites slot k, keeps the other slots, and extends the array with unassigned slots up to k |
| StripUndefined.Strip | Searchtool/server/routes/consultants.js:12-27 | Null and non-objects come back unchanged; arrays stay arrays and objects stay objects |
| StripUndefined.Slot | Searchtool/server/routes/consultants.js:16-24 | One entry assigns nothing exactly when it is undefined, an unassigned slot, or an object that is empty after stripping; an array is always assigned; otherwise its stripped copy is assigned |
| StripUndefined.StripItems | Searchtool/server/routes/consultants.js:14-25 | In the stripped array, slot i holds what entry i assigns or is a hole; it is no longer than the input and ends at the last assigned slot |
| StripUndefined.StripMembersKeeps | Searchtool/server/routes/consultants.js:15-24 | The stripped object keeps exactly the members that assign something, with their stripped values |
| StripUndefined.StripUndefinedDeep | Searchtool/server/routes/consultants.js:12-27 | The key-by-key loop returns exactly Strip(obj) |
| StripUndefined.StripEntry | Searchtool/server/routes/consultants.js:16-24 | The loop body for one value computes Slot |
| StripUndefined.StripLeavesNoUndefined | Searchtool/server/routes/consultants.js:12-27 | No member or slot holds undefined at any depth; unassigned array slots remain |
| StripUndefined.SlotStable | Searchtool/server/routes/consultants.js:17-21 | An entry that assigns something assigns its own stripped copy again |
| StripUndefined.StripMembersFixed | Searchtool/server/routes/consultants.js:15-25 | Members that are already stripped are kept as they are |
| StripUndefined.StripIdempotent | Searchtool/server/routes/consultants.js:12-27 | Stripping twice equals stripping once |
| SearchIndex.Parts | Searchtool/server/routes/consultants.js:30-38 | The parts are the non-empty candidates (name, expertise, tags, sectors, qualifications, project title/client/funders, experience role/org/location/highlights) in their order, each as often as it occurs among them |
| SearchIndex.Keywords | Searchtool/server/routes/consultants.js:40 | The keywords are duplicate-free, are exactly the lower-cased parts, and come in the order of their first occurrence among them |
| SearchIndex.KeywordsAreLoweredParts | Searchtool/server/routes/consultants.js:30-40 | A keyword is exactly the lower-case form of some non-empty candidate |
| SearchIndex.PartInText | Searchtool/server/routes/consultants.js:38-39 | Every non-empty part, lower-cased, occurs in search.text |
| SearchIndex.KeywordsInText | Searchtool/server/routes/consultants.js:39-40 | Every keyword is a substring of search.text |
| SearchIndex.BuildSearch | Searchtool/server/routes/consultants.js:41-43 | Sets search.text and search.keywords and keeps every other key of doc.search |
| ConsultantRoutes.HighlightsOf | Searchtool/server/routes/consultants.js:212 | An array is kept, a non-empty string h becomes [h], an empty one gives [] |
| ConsultantRoutes.AddExperience | Searchtool/server/routes/consultants.js:206-214 | Appends exactly one entry and leaves the search fields rebuilt |
| ConsultantRoutes.SpliceStart | Searchtool/server/routes/consultants.js:243 | The start splice uses lies in [0, length] |
| ConsultantRoutes.DeleteExperienceAsWritten | Searchtool/server/routes/consultants.js:241-243 | The guard's verdict is exactly the "Bad index" error. Past the guard, an empty list stays empty; otherwise exactly one entry goes, at the truncated index for a number and at 0 for NaN, and the others keep their order |
| ConsultantRoutes.EditExperienceAsWritten | Searchtool/server/routes/consultants.js:226-228 | The guard's verdict is exactly the "Bad index" error. Past the guard, a whole index k replaces only entry k with the overlay; any other index leaves the list unchanged |
| ConsultantRoutes.ToNumberOfWord | Searchtool/server/routes/consultants.js:241 | Number("abc") is NaN |
| ConsultantRoutes.NaNIndexDeletesFirstEntry | Searchtool/server/routes/consultants.js:241-243 | As written, a NaN index passes the guard and deletes entry 0 |
| ConsultantRoutes.Overlay | Searchtool/server/routes/consultants.js:228 | Each field the body gives replaces the stored one; the other fields are kept |
| ConsultantRoutes.NaNIndexEditsNothing | Searchtool/server/routes/consultants.js:226-228 | As written, a NaN index is answered as a success and leaves the list unchanged |
| ConsultantRoutes.ParseIndex | Searchtool/server/routes/consultants.js:226-227 | An index is accepted exactly when Number(idx) is a whole number in [0, length) |
| ConsultantRoutes.DeleteExperienceAt | Searchtool/server/routes/consultants.js:241-243 | A bad index gives "Bad index"; otherwise exactly entry k is removed and the others keep their order |
| ConsultantRoutes.EditExperienceAt | Searchtool/server/routes/consultants.js:226-228 | A bad index gives "Bad index"; otherwise only entry k changes, to the overlay of the body on it |
| ConsultantRoutes.DeleteAgreesOnWholeIndex | Searchtool/server/routes/consultants.js:241-243 | On a whole index in range, the delete handler as written and the corrected one give the same list |
| ConsultantRoutes.DeleteAsWrittenDiffersOnlyOffIntegers | Searchtool/server/routes/consultants.js:241-243 | The delete handler as written and the corrected one differ only on an index that is NaN or a fraction |
| ConsultantRoutes.EditAsWrittenDiffersOnlyOffIntegers | Searchtool/server/routes/consultants.js:226-228 | The edit handler as written and the corrected one differ only on an index that is NaN or a fraction |
| ConsultantRoutes.DeleteExperience | Searchtool/server/routes/consultants.js:236-248 | With the corrected index check, on the document: a bad index changes nothing; otherwise the list becomes DeleteExperienceAt's and the search fields are rebuilt |
| ConsultantRoutes.EditExperience | Searchtool/server/routes/consultants.js:221-233 | With the corrected index check, on the document: a bad index changes nothing; otherwise the list becomes EditExperienceAt's and the search fields are rebuilt |
| ConsultantRoutes.AddReview | Searchtool/server/routes/consultants.js:257-262 | Appends exactly one review, sets ratingCount to the new length and ratingAvg to the rounded mean of `rating \|\| 0` |
| ConsultantRoutes.AddReviewIgnoresWeightedScores | Searchtool/server/routes/consultants.js:261-262 | A structured 5 followed by a posted 5 gives 2.5 here, where recomputeRatings gives 5.0 |
| ConsultantRoutes.LegacyTotalMatches | Searchtool/server/routes/consultants.js:261 | When every review carries only a 1-5 rating, the legacy sum equals the weighted-score total |
| ConsultantRoutes.LegacyAverageMatchesRecompute | Searchtool/server/routes/consultants.js:261-262 | In that case the route's ratingAvg equals recomputeRatings' |
| JsonValues.Field | Searchtool/server/routes/consultants.js:253 | Reading a key no member has gives undefined; any other value read is the value of a member with that key |
| JsonValues.FieldSkip | Searchtool/server/routes/consultants.js:253 | Members with other keys do not change what a key reads |
| ConsultantRoutes.NumberOf | Searchtool/server/routes/consultants.js:257 | `Number(v)`: a missing member gives NaN, a JSON number itself, a string its parsed value |
| ConsultantRoutes.CastEntry | Searchtool/server/models/Consultant.js:76 | The schema's Number cast leaves a field absent exactly for undefined and a number exactly when Number(v) is finite |
| ConsultantRoutes.SavedWithinSchema | Searchtool/server/models/Consultant.js:70-98 | A review the save accepts is within the schema's min/max bounds |
| ConsultantRoutes.AddReviewAsWritten | Searchtool/server/routes/consultants.js:251-266 | The save succeeds exactly when the body's rating is a finite number in [1, 5]; then the list grows by the posted review alone, which is within the schema |
| ConsultantRoutes.DetailPageReviewBody | Searchtool/server/searchtool-frontend/src/ConsultantDetails.js:303-308 | The posted body carries the answers object and no rating |
| ConsultantRoutes.DetailPageReviewRefused | Searchtool/server/searchtool-frontend/src/ConsultantDetails.js:303-308 | As written, every review the detail page posts fails the save |
| ConsultantRoutes.QuestionIds | Searchtool/server/models/Consultant.js:84-92 | Every question of the weight table has a stored answer path |
| ConsultantRoutes.AnswersOf | Searchtool/server/models/Consultant.js:84-92 | One entry per question id, each the cast of the body's answer; other keys are dropped |
| ConsultantRoutes.BodyReview | Searchtool/server/routes/consultants.js:253-257 | The review keeps the body's answers, and its legacy rating is absent exactly when the body has none |
| ConsultantRoutes.AddReviewCorrected | Searchtool/server/routes/consultants.js:251-266 | Stores exactly when the body's review saves; then the list grows by that review alone, which is within the schema |
| ConsultantRoutes.DetailPageReviewStored | Searchtool/server/searchtool-frontend/src/ConsultantDetails.js:303-308 | Corrected, a detail-page review with every answer in 1-5 is stored and its weighted score lies in [1, 5] |
| JsNumbers.ToNumberDigits | Searchtool/server/routes/consultants.js:241 | Number() of a string of decimal digits is its value |
| ConsultantDetails.AsList | Searchtool/server/searchtool-frontend/src/ConsultantDetails.js:10 | An array gives its truthy elements in their order, each as often as it occurs; a non-empty string gives a one-element list; an empty one gives [] |
| ConsultantDetails.TrimmedPieces | Searchtool/server/searchtool-frontend/src/AddConsultant.js:131-134 | The result is the trimmed pieces between the separators with the blank ones dropped, in order and as often as each occurs; every piece is non-empty, trimmed and separator-free; "" gives [] |
| ConsultantDetails.TrimmedPiecesOfJoin | Searchtool/server/searchtool-frontend/src/AddConsultant.js:131-134 | Pieces without the separator, joined by it, split back into those pieces, trimmed, blanks dropped |
| ConsultantDetails.CsvParse | Searchtool/server/searchtool-frontend/src/ConsultantDetails.js:12-16 | The result is the trimmed comma pieces with the blank ones dropped, in order and as often as each occurs; every piece is non-empty, trimmed and comma-free; a missing value gives [] |
| ConsultantDetails.CsvShow | Searchtool/server/searchtool-frontend/src/ConsultantDetails.js:11 | Every element shows in the text, and the text is empty exactly when there is no element |
| ConsultantDetails.CsvRoundTrip | Searchtool/server/searchtool-frontend/src/ConsultantDetails.js:11-16 | csvParse(csvShow(xs)) == xs for non-empty, trimmed, comma-free strings |
| ConsultantDetails.CsvParseStable | Searchtool/server/searchtool-frontend/src/ConsultantDetails.js:11-16 | Showing and re-parsing a parsed field gives the same list |
| ConsultantDetails.PreferContacts | Searchtool/server/searchtool-frontend/src/ConsultantDetails.js:17-24 | A non-empty contacts list wins; the result is empty exactly when both sources are |
| ConsultantDetails.Emails | Searchtool/server/searchtool-frontend/src/ConsultantDetails.js:17-20 | The contacts' emails when there are any, else the flat emails field |
| ConsultantDetails.Phones | Searchtool/server/searchtool-frontend/src/ConsultantsList.js:14-15 | The contacts' phones when there are any, else the flat phones field (the detail page's `phones` is the same expression) |
| ConsultantDetails.MonthOf | Searchtool/server/searchtool-frontend/src/ConsultantDetails.js:46 | An index into the twelve names is below 12 |
| ConsultantDetails.MonthOfWhole | Searchtool/server/searchtool-frontend/src/ConsultantDetails.js:33-46 | Month 1-12 gives its short name; 0 or more than 12 gives undefined |
| ConsultantDetails.FmtMonth | Searchtool/server/searchtool-frontend/src/ConsultantDetails.js:27-48 | Empty input gives "" |
| ConsultantDetails.FmtMonthOfDate | Searchtool/server/searchtool-frontend/src/ConsultantDetails.js:27-48 | "YYYY-MM..." with MM in 01-12 gives "<Mon> YYYY" |
| ConsultantDetails.FmtMonthOfBadMonth | Searchtool/server/searchtool-frontend/src/ConsultantDetails.js:46-47 | MM of 00 or above 12 gives "undefined YYYY" |
| ConsultantDetails.QuestionsMatchWeights | Searchtool/server/searchtool-frontend/src/ConsultantDetails.js:53-89 | The seven questions are the server's seven keys in the same order, with percents 100 times the server's fractions |
| ConsultantDetails.ComputeReviewOverall | Searchtool/server/searchtool-frontend/src/ConsultantDetails.js:91-118 | The forEach loop returns exactly the client score: overallRating > 0 first, then the percent-weighted mean over every numeric answer, then rating > 0, else 0 |
| ConsultantDetails.ClientSumsScaled | Searchtool/server/searchtool-frontend/src/ConsultantDetails.js:99-108 | When every numeric answer is > 0, the client's sums are 100 times the server's |
| ConsultantDetails.ClientMatchesServer | Searchtool/server/searchtool-frontend/src/ConsultantDetails.js:91-118 | Without an overallRating > 0 and with only positive numeric answers, the client and server scores agree |
| ConsultantDetails.OverallRatingFirstOnClient | Searchtool/server/searchtool-frontend/src/ConsultantDetails.js:94-96 | An answer of 1 with overallRating 4 scores 4 on the client and 1 on the server |
| ConsultantDetails.ZeroAnswerCountsOnClient | Searchtool/server/searchtool-frontend/src/ConsultantDetails.js:104-107 | An answer of 0 with rating 4 scores 0 on the client and 4 on the server |
| ConsultantDetails.ClientWeightGrows | Searchtool/server/searchtool-frontend/src/ConsultantDetails.js:99-108 | The client's running weight never decreases along the questions |
| ConsultantDetails.ClientSumZero | Searchtool/server/searchtool-frontend/src/ConsultantDetails.js:104-106 | All-zero answers give a zero sum |
| ConsultantsList.Flatten | Searchtool/server/searchtool-frontend/src/ConsultantsList.js:66 | The flatMap holds exactly the values toArr gives for some row |
| ConsultantsList.OptionsOf | Searchtool/server/searchtool-frontend/src/ConsultantsList.js:65-73 | 'All' first, then the distinct non-empty values in strictly sorted order, exactly those of the rows |
| ConsultantsList.Filtered | Searchtool/server/searchtool-frontend/src/ConsultantsList.js:76-111 | The kept rows are exactly those passing all five tests, in their original relative order and as often as they occur |
| ConsultantsList.DefaultsShowEveryRow | Searchtool/server/searchtool-frontend/src/ConsultantsList.js:80-110 | Empty queries and 'All' everywhere keep every row with ratingAvg >= 0 |
| ConsultantsList.DefaultsPass | Searchtool/server/searchtool-frontend/src/ConsultantsList.js:81-109 | Such a row passes every test |
| ConsultantsList.NameQueryTrimmed | Searchtool/server/searchtool-frontend/src/ConsultantsList.js:77-87 | A leading space in the name query does not change the result |
| ConsultantsList.UnreadableMinimumHidesAll | Searchtool/server/searchtool-frontend/src/ConsultantsList.js:107-109 | A rating minimum that Number() reads as NaN hides every row |
| ConsultantsList.RatingTest | Searchtool/server/searchtool-frontend/src/ConsultantsList.js:107-109 | A row that passes the other four tests passes exactly when ratingAvg >= the minimum |
| ConsultantsList.ParseSortOf | Searchtool/server/searchtool-frontend/src/ConsultantsList.js:116-117 | "field-dir" splits into the field and a descending flag set exactly by "desc" |
| ConsultantsList.InsertAt | Searchtool/server/searchtool-frontend/src/ConsultantsList.js:118-131 | Inserting entry i into the ordered prefix keeps the rows as a permutation and orders the first i+1; with no recognised field nothing moves |
| ConsultantsList.SortInPlace | Searchtool/server/searchtool-frontend/src/ConsultantsList.js:118-131 | The array ends ordered by the comparator and holds the same rows; an unrecognised field leaves it unchanged |
| ConsultantsList.SortRows | Searchtool/server/searchtool-frontend/src/ConsultantsList.js:114-133 | sorted is a permutation of filtered, in order by name, update time or rating, rising or falling; an unknown field keeps the order |
| ConsultantsList.KeyNamesDistinct | Searchtool/server/searchtool-frontend/src/ConsultantsList.js:138-144 | The seven parameter names are distinct |
| ConsultantsList.SetIfChanged | Searchtool/server/searchtool-frontend/src/ConsultantsList.js:138-144 | A parameter is appended only when its value differs from the default; the others are untouched |
| ConsultantsList.SyncParams | Searchtool/server/searchtool-frontend/src/ConsultantsList.js:136-148 | The parameters encode the state, each only where it differs from its default; the default state gives no parameters |
| ConsultantsList.ReloadRestoresState | Searchtool/server/searchtool-frontend/src/ConsultantsList.js:29-35 | Reading the written parameters back restores the state (with empty values read back as their defaults) |
| AddConsultantForm.AddTemp | Searchtool/server/searchtool-frontend/src/AddConsultant.js:77-81 | A blank or present value changes nothing; otherwise the trimmed value is appended once at the end; duplicate-freedom is kept |
| AddConsultantForm.RemoveTemp | Searchtool/server/searchtool-frontend/src/AddConsultant.js:82-84 | Removes every occurrence of the value and keeps every copy of the others, in order |
| AddConsultantForm.RemoveUndoesAdd | Searchtool/server/searchtool-frontend/src/AddConsultant.js:77-84 | Removing a newly added value restores the selection |
| AddConsultantForm.AddTempIdempotent | Searchtool/server/searchtool-frontend/src/AddConsultant.js:77-81 | Adding the same value twice is adding it once |
| AddConsultantForm.AddFree | Searchtool/server/searchtool-frontend/src/AddConsultant.js:92-105 | No pieces: nothing changes. Otherwise the selection is duplicate-free, gains exactly the pieces and lists every value in the order of its first occurrence in the old selection followed by the pieces; the options are sorted, distinct, and gain exactly the pieces; the box is cleared |
| AddConsultantForm.AddFreeKeepsSelection | Searchtool/server/searchtool-frontend/src/AddConsultant.js:99 | The existing selection stays as a prefix, in its order |
| AddConsultantForm.OpenPicker | Searchtool/server/searchtool-frontend/src/AddConsultant.js:70-73 | Opening reloads the selection from form.expertise |
| AddConsultantForm.ClosePicker | Searchtool/server/searchtool-frontend/src/AddConsultant.js:74 | Closing changes nothing but the open flag |
| AddConsultantForm.SavePicker | Searchtool/server/searchtool-frontend/src/AddConsultant.js:85-88 | Saving copies the selection into form.expertise, closes the picker and changes nothing else |
| AddConsultantForm.CloseDiscardsEdits | Searchtool/server/searchtool-frontend/src/AddConsultant.js:70-74 | Closing and reopening shows the confirmed list again |
| AddConsultantForm.SaveThenReopen | Searchtool/server/searchtool-frontend/src/AddConsultant.js:70-88 | Saving and reopening shows the saved selection |
| AddConsultantForm.TrimmedValues | Searchtool/server/searchtool-frontend/src/AddConsultant.js:136 | The non-empty trims of the inputs, in input order and as often as each occurs |
| AddConsultantForm.FetchedOptions | Searchtool/server/searchtool-frontend/src/AddConsultant.js:48-55 | The options are trimmed, non-empty, distinct, sorted, and exactly the trims of the rows' expertise values |
| AddConsultantForm.WithField | Searchtool/server/searchtool-frontend/src/AddConsultant.js:112 | `{ ...e, [k]: v }` changes field k only |
| AddConsultantForm.UpdateExperience | Searchtool/server/searchtool-frontend/src/AddConsultant.js:111-113 | Only entry i changes, and only in field k |
| AddConsultantForm.AddExperience | Searchtool/server/searchtool-frontend/src/AddConsultant.js:114-118 | Appends one blank entry and keeps the others |
| Lists.RemoveIndex | Searchtool/server/searchtool-frontend/src/AddConsultant.js:119-120 | Removes exactly entry i and keeps the others in order; any other i changes nothing |
| AddConsultantForm.RunKeepsOneEntry | Searchtool/server/searchtool-frontend/src/AddConsultant.js:335-339 | Through the controls offered, a list of at least one entry never drops below one |
| AddConsultantForm.SessionKeepsOneEntry | Searchtool/server/searchtool-frontend/src/AddConsultant.js:24-26 | Starting from the single blank entry, any session keeps at least one entry |
| AddConsultantForm.Present | Searchtool/server/searchtool-frontend/src/AddConsultant.js:139-141 | `e.x \|\| undefined`: an empty field is left out |
| AddConsultantForm.HighlightLines | Searchtool/server/searchtool-frontend/src/AddConsultant.js:144-146 | The lines are the trimmed non-blank pieces between newlines, in order and as often as each occurs (the guard for empty text gives the same []); each is non-empty, trimmed and newline-free |
| AddConsultantForm.ExperienceOut | Searchtool/server/searchtool-frontend/src/AddConsultant.js:138-147 | Each entry's text fields are present only when non-empty, and its highlights are the split lines |
| AddConsultantForm.BuildPayload | Searchtool/server/searchtool-frontend/src/AddConsultant.js:128-148 | The name is trimmed; emails, phones, qualifications and tags are the trimmed non-blank comma pieces of their fields; expertise is the trimmed non-blank values; one payload entry per experience entry, in order |
| AddConsultantForm.PayloadListsRoundTrip | Searchtool/server/searchtool-frontend/src/AddConsultant.js:131-134 | The submitted tags and emails show and re-parse to themselves on the detail page |
| AuthGate.Status | Searchtool/server/middleware/auth.js:9-19 | A missing or invalid token is answered 401, and only those; a Forbidden outcome is answered 403; Next sends no status |
| Lists.Dedup | Searchtool/server/searchtool-frontend/src/components/AssociationsBox.js:28 | `Array.from(new Set(xs))` is duplicate-free, holds exactly the values of xs, and lists them in the order of their first occurrence |
| Lists.DedupSnoc | Searchtool/server/searchtool-frontend/src/components/AssociationsBox.js:28 | Adding one value keeps the de-duplicated list and appends the value only when it is new |
| AssociationsBox.HasChanges | Searchtool/server/searchtool-frontend/src/components/AssociationsBox.js:20-23 | There are no changes exactly when the edited list equals the given one element by element |
| AssociationsBox.Resync | Searchtool/server/searchtool-frontend/src/components/AssociationsBox.js:18 | A new given list replaces the edited one, which then shows no changes |
| AssociationsBox.Add | Searchtool/server/searchtool-frontend/src/components/AssociationsBox.js:25-30 | A blank entry changes nothing; otherwise the list is duplicate-free, holds the trimmed entry exactly once and otherwise the old values, in first-occurrence order, and the box is cleared |
| AssociationsBox.AddToDistinct | Searchtool/server/searchtool-frontend/src/components/AssociationsBox.js:28 | On a duplicate-free list a new entry is appended at the end and a present one leaves the list as it was |
| AssociationsBox.RemoveAt | Searchtool/server/searchtool-frontend/src/components/AssociationsBox.js:32-34 | Exactly entry i goes and the others keep their order; an i that is no index changes nothing |
| AssociationsBox.RemoveUndoesAdd | Searchtool/server/searchtool-frontend/src/components/AssociationsBox.js:25-34 | Removing the entry just added gives the list back |
| AssociationsBox.Cancel | Searchtool/server/searchtool-frontend/src/components/AssociationsBox.js:76 | The list goes back to the given one (no changes), editing ends and the error line clears |
| AssociationsBox.Saved | Searchtool/server/searchtool-frontend/src/components/AssociationsBox.js:45-47 | The list after a save is the reply if it is an array, else its associations if an array, else the list sent |
| AssociationsBox.ErrorText | Searchtool/server/searchtool-frontend/src/components/AssociationsBox.js:52 | The error line is the server's error text, else the exception message, else "Failed to save associations" |
| AssociationsBox.Save | Searchtool/server/searchtool-frontend/src/components/AssociationsBox.js:36-56 | Success sets the list from the reply, ends editing and leaves the error line clear; failure changes only the error line |
| AssociationsBox.StoredIffFixed | Searchtool/server/models/Consultant.js:123-132 | The associations setter returns a list unchanged exactly when it is duplicate-free with trimmed, non-empty values |
| AssociationsBox.AddKeepsStored | Searchtool/server/searchtool-frontend/src/components/AssociationsBox.js:25-30 | Adding to such a list gives such a list, which the setter keeps as sent |
| AssociationsBox.RemoveKeepsStored | Searchtool/server/searchtool-frontend/src/components/AssociationsBox.js:32-34 | Removing from such a list gives such a list, which the setter keeps as sent |
| AuthGate.BearerToken | Searchtool/server/middleware/auth.js:7-8 | The token is the header after a leading "Bearer "; any other header, or none, gives "" |
| AuthGate.BearerTokenOf | Searchtool/server/middleware/auth.js:7-8 | "Bearer " + t yields t |
| AuthGate.Authorize | Searchtool/server/middleware/auth.js:7-20 | An empty token gives 401 Missing token; a failed verify gives 401 Invalid token; a role outside a non-empty allowed list gives 403; next is called exactly otherwise; req.user is the verified payload whenever there is a token |
| AuthGate.NextHasAdmittedUser | Searchtool/server/middleware/auth.js:12-17 | When next is called, a user is set and its role is admitted |
| AuthGate.MoreRolesAdmitMore | Searchtool/server/middleware/auth.js:14-16 | Widening a non-empty allowed list never turns next into a refusal |
| AuthGate.PrefixIsCaseSensitive | Searchtool/server/middleware/auth.js:8 | "bearer " in lower case gives Missing token |

## Left out

- Persistence is not modelled: Mongoose queries, `save`, indexes and timestamps. The schema's min/max validators appear as preconditions (`WithinSchema`), and for the add-review route as the save's verdict (`ReviewSaves`).
- HTTP plumbing is not modelled: Express routing, the 404 branches, error statuses other than the ones above, and the `can` permission lookup before each handler.
- Uploads are not modelled: multer storage, random and `Date.now` file names, and the photo/CV handlers with the `media.cv` clean-up.
- The login/register flow and bcrypt are not modelled.
- `jwt.verify` is a function parameter (`verify`): signature checking is outside the model.
- React rendering, effects, axios calls and `localStorage` are not modelled. The client state is modelled as values passed from one step to the next.
- Numbers are exact reals. Floating-point rounding, the two infinities in arithmetic and `toFixed` display are not modelled.
- ConsultantModel.RoundTenth: rounds the exact mean, floor(10x + 1/2) / 10. Where the exact value is a tie that floating-point arithmetic places just below, the model is 0.1 higher than the source. For example, answers 1, 1, 1, 1, 2, 2, 2 weigh in at exactly 1.35, which the model rounds to 1.4; the double-precision sum can round to 1.3.
- ConsultantRoutes.Overlay: the stored entry is treated as a plain record of its six fields. The source spreads a Mongoose subdocument, whose own properties are Mongoose internals rather than those fields.
- AssociationsBox.HasChanges: compares the two lists directly. The source compares their `JSON.stringify` texts, which for lists of strings differ exactly when the lists do; JSON string escaping is not modelled.
- AssociationsBox: the `saving` flag, the disabled states of the buttons, the `onSaved` callback and the read-only rendering are not modelled. The `initial || []` default is taken as given: `initial` is a list of strings. The reply's elements are taken to be strings.
- The associations PUT endpoint is not among the server routes, so the reply is a parameter of `AssociationsBox.Save`.
- `Number()` on strings reads white-space-padded decimals with an optional sign, "Infinity", and the blank string (0). Exponents and hexadecimal, binary or octal literals are read as NaN.
- String case mapping is ASCII only. Strings are sequences of code points, not UTF-16 units.
- ConsultantsList.SortRows: `localeCompare` on names and `Date` parsing of updatedAt/createdAt are not modelled. Each row carries the rank of its name in collation order and its update time as numbers, and the sort compares those. The sort is an insertion sort; the JavaScript engine's algorithm is not modelled, and stability is not stated.
- AddConsultantForm.AddFree and AddConsultantForm.FetchedOptions sort by code point where the source uses `localeCompare`.
- `monthToISO` and the `new Date(...)` fields of the payload and the add-experience route are not modelled. Dates stay as the text the form holds.
- The `String(s || "")` conversion of non-string list elements is not modelled. Lists hold strings, and "" stands for a null or undefined element.
- The submitted experience entry's `start`/`end` being `null` rather than omitted is modelled as None, the same as an omitted text field.
- ConsultantRoutes.AddReview: models the in-memory update the route makes before `doc.save()`. A rating that is not a finite number (None) makes that save fail, and the route then answers 400 and stores nothing; `AddReviewAsWritten` models that outcome.
- The review the add-review route builds holds only its `rating`. The user id and name, the comment and the creation time are not modelled.
- The detail page posts `answers`, `projectName`, `projectDate` and `note` with a review, and no rating. The route reads only `rating` (see Findings). The project fields are not modelled: they are plain strings and do not enter any score. `AddReviewIgnoresWeightedScores` shows what a mix of structured and legacy reviews does to ratingAvg.
- ConsultantRoutes.NumberOf: gives NaN for an array or object body value, where `Number` reads a one-element or empty array as a number.
- BuildSearch sets `doc.search`, but the schema has no `search` path. Under Mongoose's default strict mode that property is neither saved nor returned, and no route reads it. The model keeps `search` as a field of the document to state what buildSearch computes.
- The front end calls a delete-review endpoint that the route file does not define. There is nothing to model.
- Edits replace an experience entry field by field (`Overlay`). Extra keys in the request body are not modelled.
- On a stored document, buildSearch sees no `sectors` or `projects` (the schema has neither), so `DocSource` passes empty lists for them.
- `routes/users.js`, `routes/permissions.js`, `models/Permission.js`, `server.js`, `dbConnect.js` and the other React pages are outside the model.

## Findings

| source | as written | input that shows it | evidently intended | confidence | as-written member | corrected member |
|---|---|---|---|---|---|---|
| Searchtool/server/routes/consultants.js:241-243 | `Number(req.params.idx)` is NaN for a non-numeric index. `NaN < 0` and `NaN >= length` are both false, so the guard lets it through, and `splice(NaN, 1)` removes entry 0. | DELETE /:id/experience/abc on a consultant with at least one entry | reject any index that is not a whole number in [0, length) with "Bad index" | not executed | ConsultantRoutes.NaNIndexDeletesFirstEntry | ConsultantRoutes.DeleteExperienceAt |
| Searchtool/server/routes/consultants.js:251-266 | The route reads only `rating` and stores `Number(rating)`. The detail page (ConsultantDetails.js:303-308) posts `answers` and the project fields and no rating, so the stored rating is `Number(undefined)`, NaN. Mongoose's Number cast refuses NaN, the save fails and the route answers 400. | any review submitted from the detail page | store the posted answers, with the legacy rating only when one is sent | plausible, not executed | ConsultantRoutes.DetailPageReviewRefused | ConsultantRoutes.DetailPageReviewStored |
| Searchtool/server/routes/consultants.js:226-228 | The same guard lets a NaN index through. `doc.experience[NaN] = …` sets a property named "NaN" on the array, and the handler reports success without editing any entry. | PUT /:id/experience/abc | answer "Bad index" | not executed | ConsultantRoutes.NaNIndexEditsNothing | ConsultantRoutes.EditExperienceAt |

=== FILE: add_consultant.dfy ===
/** The add-consultant form (AddConsultant.js): the expertise picker, the
    experience entries and the payload the form submits. Every handler is
    a function from the old state to the new one. */
module AddConsultantForm {
  import opened Wrappers
  import opened Text
  import opened Lists
  import opened ConsultantDetails
  import opened ConsultantsList

  /** The text fields of the form and the confirmed expertise list. */
  datatype Form = Form(
    name: string,
    emails: string,
    phones: string,
    qualifications: string,
    tags: string,
    expertise: seq<string>)

  /** The expertise picker: whether it is open, the selection being
      edited, the dropdown options and the free-text box. */
  datatype Picker = Picker(open: bool, temp: seq<string>, options: seq<string>, free: string)

  // ----- the picker -----

  /** addTempExpertise: the trimmed value is added at the end unless it is
      blank or already selected. */
  function AddTemp(temp: seq<string>, val: string): (r: seq<string>)
    ensures forall x :: x in r <==> x in temp || (Trim(val) != "" && x == Trim(val))
    ensures |r| >= |temp| && r[..|temp|] == temp
    ensures Distinct(temp) ==> Distinct(r)
    ensures Trim(val) == "" || Trim(val) in temp ==> r == temp
    ensures Trim(val) != "" && Trim(val) !in temp ==> r == temp + [Trim(val)]
  {
    var v := Trim(val);
    if v == "" then temp
    else if v in temp then temp
    else
      assert (temp + [v])[..|temp|] == temp;
      temp + [v]
  }

  /** removeTempExpertise: every occurrence of the value goes, the rest
      stay in order. */
  function RemoveTemp(temp: seq<string>, val: string): (r: seq<string>)
    ensures forall x :: x in r <==> x in temp && x != val
    ensures IsSubsequence(r, temp)
    ensures forall x :: multiset(r)[x] == if x != val then multiset(temp)[x] else 0
  {
    Filter(temp, (x: string) => x != val)
  }

  /** Removing what was just added gives back the selection. */
  lemma RemoveUndoesAdd(temp: seq<string>, val: string)
    requires Trim(val) != "" && Trim(val) !in temp
    ensures RemoveTemp(AddTemp(temp, val), Trim(val)) == temp
  {
    var v := Trim(val);
    FilterKeepsAll(temp, (x: string) => x != v);
    FilterAppendOne(temp, v, (x: string) => x != v);
  }

  lemma {:induction false} FilterAppendOne<T(!new)>(xs: seq<T>, y: T, keep: T -> bool)
    requires !keep(y)
    ensures Filter(xs + [y], keep) == Filter(xs, keep)
  {
    if xs == [] {
      assert [y][1..] == [];
    } else {
      assert (xs + [y])[1..] == xs[1..] + [y];
      FilterAppendOne(xs[1..], y, keep);
    }
  }

  /** Adding a value twice is adding it once. */
  lemma AddTempIdempotent(temp: seq<string>, val: string)
    ensures AddTemp(AddTemp(temp, val), val) == AddTemp(temp, val)
  {
  }

  /** addFreeExpertise: the trimmed, non-empty comma pieces join the
      selection (each value once, in the order of its first occurrence in
      the selection followed by the pieces) and the sorted options, and the
      box is cleared; with no piece nothing changes. */
  function AddFree(p: Picker): (r: Picker)
    ensures TrimmedPieces(p.free, ',') == [] ==> r == p
    ensures TrimmedPieces(p.free, ',') != [] ==> r.free == "" && r.open == p.open
    ensures TrimmedPieces(p.free, ',') != [] ==> Distinct(r.temp) && StrictlySorted(r.options)
    ensures TrimmedPieces(p.free, ',') != [] ==>
              (forall x :: x in r.temp <==> x in p.temp || x in TrimmedPieces(p.free, ',')) &&
              (forall x :: x in r.options <==> x in p.options || x in TrimmedPieces(p.free, ','))
    ensures TrimmedPieces(p.free, ',') != [] ==> InFirstOrder(r.temp, p.temp + TrimmedPieces(p.free, ','))
  {
    var extra := TrimmedPieces(p.free, ',');
    if extra == [] then p
    else Picker(p.open, Dedup(p.temp + extra), SortedSet(p.options + extra), "")
  }

  /** Values already in the selection keep their places when free text is added. */
  lemma AddFreeKeepsSelection(p: Picker)
    requires Distinct(p.temp) && TrimmedPieces(p.free, ',') != []
    ensures |AddFree(p).temp| >= |p.temp| && AddFree(p).temp[..|p.temp|] == p.temp
  {
    var extra := TrimmedPieces(p.free, ',');
    DedupPrefix(p.temp, extra);
  }

  lemma {:induction false} DedupPrefix(xs: seq<string>, ys: seq<string>)
    requires Distinct(xs)
    ensures |Dedup(xs + ys)| >= |xs| && Dedup(xs + ys)[..|xs|] == xs
    decreases |ys|
  {
    if ys == [] {
      assert xs + ys == xs;
      DedupOfDistinct(xs);
    } else {
      var init := ys[..|ys| - 1];
      var y := ys[|ys| - 1];
      assert xs + ys == (xs + init) + [y];
      DedupPrefix(xs, init);
      DedupSnoc(xs + init, y);
    }
  }

  /** openPicker: the selection restarts from the confirmed expertise. */
  function OpenPicker(f: Form, p: Picker): (r: Picker)
    ensures r.open && r.temp == f.expertise && r.options == p.options && r.free == p.free
  {
    p.(open := true, temp := f.expertise)
  }

  /** closePicker: the picker shuts and the form keeps its expertise. */
  function ClosePicker(p: Picker): (r: Picker)
    ensures !r.open && r.temp == p.temp && r.options == p.options && r.free == p.free
  {
    p.(open := false)
  }

  /** savePicker: the selection becomes the form's expertise. */
  function SavePicker(f: Form, p: Picker): (r: (Form, Picker))
    ensures r.0.expertise == p.temp && !r.1.open
    ensures r.0.(expertise := f.expertise) == f && r.1.(open := p.open) == p
  {
    (f.(expertise := p.temp), p.(open := false))
  }

  /** Closing without saving discards the picker's edits: reopening shows
      the confirmed list again. */
  lemma CloseDiscardsEdits(f: Form, p: Picker)
    ensures OpenPicker(f, ClosePicker(p)).temp == f.expertise
  {
  }

  /** Saving and reopening shows the selection that was saved. */
  lemma SaveThenReopen(f: Form, p: Picker)
    ensures var (f2, p2) := SavePicker(f, p); OpenPicker(f2, p2).temp == p.temp
  {
  }

  /** `.map(s => s.trim()).filter(Boolean)`: the trimmed values that are
      not blank, in order and with their repetitions. */
  function TrimmedValues(xs: seq<string>): (r: seq<string>)
    ensures forall x :: x in r <==> x != "" && exists y :: y in xs && x == Trim(y)
    ensures forall x :: x in r ==> IsTrimmed(x)
    ensures IsSubsequence(r, TrimAll(xs))
    ensures forall x :: multiset(r)[x] == if x != "" then multiset(TrimAll(xs))[x] else 0
  {
    var t := TrimAll(xs);
    var r := NonEmpty(t);
    forall x | x in r ensures exists y :: y in xs && x == Trim(y) {
      var k :| 0 <= k < |t| && t[k] == x;
      assert xs[k] in xs;
    }
    forall x | x != "" && exists y :: y in xs && x == Trim(y) ensures x in r {
      var y :| y in xs && x == Trim(y);
      var k :| 0 <= k < |xs| && xs[k] == y;
      assert t[k] == x;
    }
    r
  }

  /** The options fetched from the stored consultants: the trimmed,
      non-empty expertise values, each once, sorted. */
  function FetchedOptions(rows: seq<Row>): (r: seq<string>)
    ensures StrictlySorted(r) && Distinct(r)
    ensures forall x :: x in r ==> x != "" && IsTrimmed(x)
    ensures forall x :: x in r <==>
              x != "" && exists i, y :: 0 <= i < |rows| && y in AsList(rows[i].expertise) && x == Trim(y)
  {
    var values := Flatten(rows, (c: Row) => c.expertise);
    var r := SortedSet(TrimmedValues(values));
    StrictlySortedDistinct(r);
    r
  }

  // ----- the experience entries -----

  /** One experience entry as the form holds it: all text. */
  datatype ExperienceDraft = ExperienceDraft(
    role: string,
    org: string,
    location: string,
    start: string,
    end: string,
    highlights: string)

  const BlankExperience := ExperienceDraft("", "", "", "", "", "")

  datatype DraftField = Role | Org | Location | Start | End | Highlights

  function WithField(e: ExperienceDraft, k: DraftField, v: string): (r: ExperienceDraft)
    ensures k == Role ==> r == e.(role := v)
    ensures k == Org ==> r == e.(org := v)
    ensures k == Location ==> r == e.(location := v)
    ensures k == Start ==> r == e.(start := v)
    ensures k == End ==> r == e.(end := v)
    ensures k == Highlights ==> r == e.(highlights := v)
  {
    match k
    case Role => e.(role := v)
    case Org => e.(org := v)
    case Location => e.(location := v)
    case Start => e.(start := v)
    case End => e.(end := v)
    case Highlights => e.(highlights := v)
  }

  /** updateExperience: only field k of entry i changes. */
  function UpdateExperience(exp: seq<ExperienceDraft>, i: int, k: DraftField, v: string): (r: seq<ExperienceDraft>)
    ensures |r| == |exp|
    ensures forall j :: 0 <= j < |exp| ==> r[j] == if j == i then WithField(exp[j], k, v) else exp[j]
  {
    seq(|exp|, j requires 0 <= j < |exp| => if j == i then WithField(exp[j], k, v) else exp[j])
  }

  /** addExperience: one blank entry at the end. */
  function AddExperience(exp: seq<ExperienceDraft>): (r: seq<ExperienceDraft>)
    ensures |r| == |exp| + 1 && r[..|exp|] == exp && r[|exp|] == BlankExperience
  {
    exp + [BlankExperience]
  }

  /** What the user can do to the experience list. */
  datatype ExperienceAction =
    | Update(i: int, k: DraftField, v: string)
    | Add
    | Remove(i: int)

  /** A Remove button is drawn for each entry, and only while there is
      more than one. */
  predicate Offered(exp: seq<ExperienceDraft>, a: ExperienceAction) {
    match a
    case Remove(i) => |exp| > 1 && 0 <= i < |exp|
    case Update(i, _, _) => 0 <= i < |exp|
    case Add => true
  }

  function Apply(exp: seq<ExperienceDraft>, a: ExperienceAction): seq<ExperienceDraft> {
    match a
    case Update(i, k, v) => UpdateExperience(exp, i, k, v)
    case Add => AddExperience(exp)
    case Remove(i) => RemoveIndex(exp, i)
  }

  /** A session of clicks on the controls shown; a click where no control
      is drawn does nothing. */
  function Run(exp: seq<ExperienceDraft>, actions: seq<ExperienceAction>): seq<ExperienceDraft>
    decreases |actions|
  {
    if actions == [] then exp
    else
      var next := if Offered(exp, actions[0]) then Apply(exp, actions[0]) else exp;
      Run(next, actions[1..])
  }

  /** Through the controls the form offers, the experience list never
      drops below one entry. */
  lemma {:induction false} RunKeepsOneEntry(exp: seq<ExperienceDraft>, actions: seq<ExperienceAction>)
    requires |exp| >= 1
    ensures |Run(exp, actions)| >= 1
    decreases |actions|
  {
    if actions != [] {
      var next := if Offered(exp, actions[0]) then Apply(exp, actions[0]) else exp;
      RunKeepsOneEntry(next, actions[1..]);
    }
  }

  /** The form starts with one blank entry and always keeps at least one. */
  lemma SessionKeepsOneEntry(actions: seq<ExperienceAction>)
    ensures |Run([BlankExperience], actions)| >= 1
  {
    RunKeepsOneEntry([BlankExperience], actions);
  }

  // ----- the payload -----

  /** One experience entry of the payload: empty text fields are left out
      (None), a month is kept as the text typed (its conversion to a Date
      is not part of this model), highlights are the non-empty lines. */
  datatype ExperiencePayload = ExperiencePayload(
    role: Option<string>,
    org: Option<string>,
    location: Option<string>,
    start: Option<string>,
    end: Option<string>,
    highlights: seq<string>)

  datatype Payload = Payload(
    name: string,
    emails: seq<string>,
    phones: seq<string>,
    qualifications: seq<string>,
    tags: seq<string>,
    expertise: seq<string>,
    experience: seq<ExperiencePayload>)

  function Present(s: string): (r: Option<string>)
    ensures r.None? <==> s == ""
    ensures r.Some? ==> r.value == s
  {
    if s == "" then None else Some(s)
  }

  /** The highlights text: the trimmed non-empty lines; no text gives [],
      which is also what splitting the empty text gives. */
  function HighlightLines(h: string): (r: seq<string>)
    ensures r == TrimmedPieces(h, '\n')
    ensures forall x :: x in r ==> x != "" && IsTrimmed(x) && '\n' !in x
  {
    if h == "" then [] else TrimmedPieces(h, '\n')
  }

  function ExperienceOut(e: ExperienceDraft): (r: ExperiencePayload)
    ensures r.highlights == HighlightLines(e.highlights)
    ensures r.role == Present(e.role) && r.org == Present(e.org) && r.location == Present(e.location)
    ensures r.start == Present(e.start) && r.end == Present(e.end)
  {
    ExperiencePayload(Present(e.role), Present(e.org), Present(e.location),
                      Present(e.start), Present(e.end), HighlightLines(e.highlights))
  }

  /** The submitted payload: the list fields are the trimmed, non-empty
      comma pieces and the entries keep their order. */
  function BuildPayload(f: Form, exp: seq<ExperienceDraft>): (r: Payload)
    ensures r.name == Trim(f.name)
    ensures r.emails == TrimmedPieces(f.emails, ',') && r.phones == TrimmedPieces(f.phones, ',')
    ensures r.qualifications == TrimmedPieces(f.qualifications, ',') && r.tags == TrimmedPieces(f.tags, ',')
    ensures CsvSafe(r.emails) && CsvSafe(r.phones) && CsvSafe(r.qualifications) && CsvSafe(r.tags)
    ensures r.expertise == TrimmedValues(f.expertise)
    ensures |r.experience| == |exp| && forall i :: 0 <= i < |exp| ==> r.experience[i] == ExperienceOut(exp[i])
  {
    var entries := seq(|exp|, i requires 0 <= i < |exp| => ExperienceOut(exp[i]));
    Payload(Trim(f.name), TrimmedPieces(f.emails, ','), TrimmedPieces(f.phones, ','),
            TrimmedPieces(f.qualifications, ','), TrimmedPieces(f.tags, ','), TrimmedValues(f.expertise), entries)
  }

  /** A field filled in as "a, b" submits the list the detail page shows as
      "a, b" again. */
  lemma PayloadListsRoundTrip(f: Form, exp: seq<ExperienceDraft>)
    ensures var r := BuildPayload(f, exp);
            CsvParse(CsvShow(Many(r.tags))) == r.tags && CsvParse(CsvShow(Many(r.emails))) == r.emails
  {
    var r := BuildPayload(f, exp);
    CsvRoundTrip(r.tags);
    CsvRoundTrip(r.emails);
  }
}

=== FILE: associations_box.dfy ===
/** The associations editor of the consultant page
    (components/AssociationsBox.js): the list being edited, the text box
    for a new entry, the edit mode and the error line, and what each button
    does to them. The list the component was given, `initial`, is a
    parameter of the updates that read it. */
module AssociationsBox {
  import opened Wrappers
  import opened Text
  import opened Lists
  import opened ConsultantModel

  /** The component's state. The `saving` flag, which only disables the
      buttons while the request is out, is not part of it. */
  datatype Box = Box(editing: bool, items: seq<string>, newItem: string, err: string)

  /** hasChanges: the edited list differs from the one given. The source
      compares the two lists' JSON texts, which differ exactly when the
      lists of strings do. */
  function HasChanges(items: seq<string>, initial: seq<string>): (r: bool)
    ensures !r <==> items == initial
    ensures r <==> |items| != |initial| || exists i :: 0 <= i < |items| && items[i] != initial[i]
  {
    items != initial
  }

  /** The effect on a new `initial`: the list being edited starts over from it. */
  function Resync(b: Box, initial: seq<string>): (r: Box)
    ensures !HasChanges(r.items, initial)
    ensures r.editing == b.editing && r.newItem == b.newItem && r.err == b.err
  {
    b.(items := initial)
  }

  /** add: a blank entry changes nothing; otherwise the trimmed entry joins
      the list, every value kept once in the order of its first occurrence,
      and the text box is cleared. */
  function Add(b: Box): (r: Box)
    ensures Trim(b.newItem) == "" ==> r == b
    ensures Trim(b.newItem) != "" ==>
              var v := Trim(b.newItem);
              r.newItem == "" && r.editing == b.editing && r.err == b.err &&
              Distinct(r.items) && multiset(r.items)[v] == 1 &&
              (forall x :: x in r.items <==> x in b.items || x == v) &&
              InFirstOrder(r.items, b.items + [v])
  {
    var v := Trim(b.newItem);
    if v == "" then b
    else
      var items := Dedup(b.items + [v]);
      DistinctOnce(items, v);
      b.(items := items, newItem := "")
  }

  /** On a list without duplicates, a new value is appended and a value
      already there leaves the list as it was. */
  lemma AddToDistinct(b: Box)
    requires Distinct(b.items) && Trim(b.newItem) != ""
    ensures var v := Trim(b.newItem);
            Add(b).items == if v in b.items then b.items else b.items + [v]
  {
    var v := Trim(b.newItem);
    DedupSnoc(b.items, v);
    DedupOfDistinct(b.items);
  }

  /** removeAt: entry i leaves the list, the other entries keep their order;
      an i that is no index changes nothing. */
  function RemoveAt(b: Box, i: int): (r: Box)
    ensures 0 <= i < |b.items| ==>
              |r.items| == |b.items| - 1 &&
              (forall j :: 0 <= j < i ==> r.items[j] == b.items[j]) &&
              (forall j :: i <= j < |r.items| ==> r.items[j] == b.items[j + 1])
    ensures !(0 <= i < |b.items|) ==> r == b
    ensures r.editing == b.editing && r.newItem == b.newItem && r.err == b.err
  {
    b.(items := RemoveIndex(b.items, i))
  }

  /** Removing the entry just added to a list without duplicates gives the
      list back. */
  lemma RemoveUndoesAdd(b: Box)
    requires Distinct(b.items) && Trim(b.newItem) != "" && Trim(b.newItem) !in b.items
    ensures RemoveAt(Add(b), |b.items|).items == b.items
  {
    AddToDistinct(b);
    assert (b.items + [Trim(b.newItem)])[..|b.items|] == b.items;
  }

  /** Cancel: the list goes back to the one given, editing ends and the
      error line clears. */
  function Cancel(b: Box, initial: seq<string>): (r: Box)
    ensures !HasChanges(r.items, initial)
    ensures !r.editing && r.err == "" && r.newItem == b.newItem
  {
    Box(false, initial, b.newItem, "")
  }

  /** The body of the reply to the save request: an array, or anything
      else, whose `associations` member is an array (Some) or not (None). */
  datatype Reply = ArrayReply(list: seq<string>) | OtherReply(associations: Option<seq<string>>)

  /** The list kept after a save: the reply when it is an array, else its
      `associations` when that is an array, else the list that was sent. */
  function Saved(items: seq<string>, reply: Reply): (r: seq<string>)
    ensures reply.ArrayReply? ==> r == reply.list
    ensures reply.OtherReply? && reply.associations.Some? ==> r == reply.associations.value
    ensures reply == OtherReply(None) ==> r == items
  {
    match reply
    case ArrayReply(list) => list
    case OtherReply(Some(list)) => list
    case OtherReply(None) => items
  }

  /** A failed request: the server's `error` text and the exception's
      message, "" where absent. */
  datatype Failure = Failure(serverError: string, message: string)

  const DefaultError: string := "Failed to save associations"

  /** The error line after a failed save: the server's text, else the
      message, else a fixed text; never empty. */
  function ErrorText(e: Failure): (r: string)
    ensures r != ""
    ensures e.serverError != "" ==> r == e.serverError
    ensures e.serverError == "" && e.message != "" ==> r == e.message
    ensures e.serverError == "" && e.message == "" ==> r == DefaultError
  {
    if e.serverError != "" then e.serverError
    else if e.message != "" then e.message
    else DefaultError
  }

  /** save: on success the list becomes what the reply gives, editing ends
      and the error line is clear; on failure only the error line changes. */
  function Save(b: Box, outcome: Result<Reply, Failure>): (r: Box)
    ensures outcome.Ok? ==>
              r.items == Saved(b.items, outcome.value) && !r.editing && r.err == "" && r.newItem == b.newItem
    ensures outcome.Err? ==>
              r.items == b.items && r.editing == b.editing && r.newItem == b.newItem &&
              r.err == ErrorText(outcome.error)
  {
    match outcome
    case Ok(reply) => b.(items := Saved(b.items, reply), editing := false, err := "")
    case Err(e) => b.(err := ErrorText(e))
  }

  /** A list the schema's associations setter stores as it is: no
      duplicates, no blank and no untrimmed value. */
  predicate Stored(xs: seq<string>) {
    Distinct(xs) && forall x :: x in xs ==> x != "" && IsTrimmed(x)
  }

  /** The setter leaves a list unchanged exactly when it is Stored. */
  lemma StoredIffFixed(xs: seq<string>)
    ensures SetAssociations(Some(xs)) == xs <==> Stored(xs)
  {
    if Stored(xs) {
      assert TrimAll(xs) == xs;
      NonEmptyKeepsAll(xs);
      DedupOfDistinct(xs);
    }
  }

  /** Adding an entry to a Stored list gives a Stored list, which the
      setter keeps exactly as sent. */
  lemma AddKeepsStored(b: Box)
    requires Stored(b.items)
    ensures Stored(Add(b).items) && SetAssociations(Some(Add(b).items)) == Add(b).items
  {
    var r := Add(b).items;
    var v := Trim(b.newItem);
    forall x | x in r ensures x != "" && IsTrimmed(x) {
      assert x in b.items || (v != "" && x == v);
    }
    StoredIffFixed(r);
  }

  /** Removing an entry from a Stored list gives a Stored list, which the
      setter keeps exactly as sent. */
  lemma RemoveKeepsStored(b: Box, i: int)
    requires Stored(b.items)
    ensures Stored(RemoveAt(b, i).items) && SetAssociations(Some(RemoveAt(b, i).items)) == RemoveAt(b, i).items
  {
    if 0 <= i < |b.items| {
      RemoveIndexDistinct(b.items, i);
    }
    StoredIffFixed(RemoveAt(b, i).items);
  }
}

=== FILE: auth.dfy ===
/** The authorisation middleware (middleware/auth.js): the decision taken
    for a request from its Authorization header, the token check and the
    roles a route admits. */
module AuthGate {
  import opened Wrappers
  import opened Text

  /** The claims a valid token carries; a token without a role claim has
      role None. */
  datatype Claims = Claims(id: string, email: string, name: string, role: Option<string>)

  /** What the middleware does with the request. */
  datatype Outcome =
    | MissingToken   // 401 "Missing token"
    | InvalidToken   // 401 "Invalid token"
    | Forbidden      // 403 "Forbidden"
    | Next           // the route handler runs

  /** The outcome and what req.user was set to. */
  datatype Decision = Decision(outcome: Outcome, user: Option<Claims>)

  /** The HTTP status the middleware answers with; 0 stands for none, the
      request going on to the route handler. */
  function Status(o: Outcome): (r: int)
    ensures o == Next <==> r == 0
    ensures o == MissingToken || o == InvalidToken <==> r == 401
    ensures o == Forbidden <==> r == 403
  {
    match o
    case MissingToken => 401
    case InvalidToken => 401
    case Forbidden => 403
    case Next => 0
  }

  const BearerPrefix: string := "Bearer "

  /** The token: the header after a leading "Bearer " (case-sensitive);
      anything else, a missing header included, gives "". */
  function BearerToken(header: Option<string>): (r: string)
    ensures header.Some? && StartsWith(header.value, BearerPrefix) ==> header.value == BearerPrefix + r
    ensures header.None? || !StartsWith(header.value, BearerPrefix) ==> r == ""
  {
    var auth := if header.Some? then header.value else "";
    if StartsWith(auth, BearerPrefix) then
      assert auth == auth[..7] + auth[7..];
      auth[7..]
    else ""
  }

  /** Whatever follows "Bearer " is the token. */
  lemma BearerTokenOf(token: string)
    ensures BearerToken(Some(BearerPrefix + token)) == token
  {
    assert (BearerPrefix + token)[..7] == BearerPrefix;
  }

  /** A route's role check: an empty list admits every role; otherwise the
      role must be one of the list. */
  predicate Admits(allowed: seq<string>, role: Option<string>) {
    |allowed| == 0 || (role.Some? && role.value in allowed)
  }

  /** The middleware. verify is the token check with the server's secret:
      the claims of a valid token, None when the check throws. */
  function Authorize(header: Option<string>, verify: string -> Option<Claims>, allowed: seq<string>): (d: Decision)
    ensures d.outcome == MissingToken <==> BearerToken(header) == ""
    ensures d.outcome == InvalidToken <==> BearerToken(header) != "" && verify(BearerToken(header)).None?
    ensures d.outcome == Forbidden <==>
              BearerToken(header) != "" && verify(BearerToken(header)).Some? && !Admits(allowed, verify(BearerToken(header)).value.role)
    ensures d.outcome == Next <==>
              BearerToken(header) != "" && verify(BearerToken(header)).Some? && Admits(allowed, verify(BearerToken(header)).value.role)
    ensures d.user == if BearerToken(header) == "" then None else verify(BearerToken(header))
  {
    var token := BearerToken(header);
    if token == "" then Decision(MissingToken, None)
    else
      match verify(token)
      case None => Decision(InvalidToken, None)
      case Some(payload) =>
        if |allowed| > 0 && !(payload.role.Some? && payload.role.value in allowed) then Decision(Forbidden, Some(payload))
        else Decision(Next, Some(payload))
  }

  /** A request the handler runs carries claims whose role the route admits. */
  lemma NextHasAdmittedUser(header: Option<string>, verify: string -> Option<Claims>, allowed: seq<string>)
    requires Authorize(header, verify, allowed).outcome == Next
    ensures Authorize(header, verify, allowed).user.Some?
    ensures Admits(allowed, Authorize(header, verify, allowed).user.value.role)
  {
  }

  /** Widening a route's role list never turns an admitted request away. */
  lemma MoreRolesAdmitMore(header: Option<string>, verify: string -> Option<Claims>, allowed: seq<string>, wider: seq<string>)
    requires |allowed| > 0 && forall r :: r in allowed ==> r in wider
    requires Authorize(header, verify, allowed).outcome == Next
    ensures Authorize(header, verify, wider).outcome == Next
  {
  }

  /** A header without the "Bearer " prefix, such as a lower-case "bearer",
      is answered 401 "Missing token" whatever it holds. */
  lemma PrefixIsCaseSensitive(token: string, verify: string -> Option<Claims>, allowed: seq<string>)
    ensures Authorize(Some("bearer " + token), verify, allowed).outcome == MissingToken
  {
    assert !StartsWith("bearer " + token, BearerPrefix) by {
      assert ("bearer " + token)[0] != BearerPrefix[0];
    }
  }
}

=== FILE: consultant.dfy ===
/** The consultant document (models/Consultant.js): the fields the server
    changes in place, recomputeRatings and the associations setter. */
module ConsultantModel {
  import opened Wrappers
  import opened Text
  import opened Lists
  import opened JsonValues
  import opened ReviewScoring

  /** One entry of the experience list. "" stands for a missing text field;
      the dates are kept as the text they were given in. */
  datatype ExperienceItem = ExperienceItem(
    role: string,
    org: string,
    location: string,
    start: Option<string>,
    end: Option<string>,
    highlights: seq<string>)

  /** Math.round(x * 10) / 10: JavaScript rounds halves towards +infinity. */
  function RoundTenth(x: real): real {
    (x * 10.0 + 0.5).Floor as real / 10.0
  }

  /** A whole number of tenths. */
  predicate IsTenth(r: real) {
    (r * 10.0).Floor as real == r * 10.0
  }

  /** The rounded value is the whole number of tenths nearest to x, a
      value exactly half way going up. */
  lemma RoundTenthNearest(x: real)
    ensures IsTenth(RoundTenth(x))
    ensures x - 0.05 < RoundTenth(x) <= x + 0.05
  {
    var k := (x * 10.0 + 0.5).Floor;
    assert RoundTenth(x) * 10.0 == k as real;
  }

  /** ... and it is the only such value. */
  lemma RoundTenthUnique(x: real, r: real)
    requires IsTenth(r) && x - 0.05 < r <= x + 0.05
    ensures r == RoundTenth(x)
  {
    var k := (x * 10.0 + 0.5).Floor;
    var m := (r * 10.0).Floor;
    assert m as real == r * 10.0;
    assert k as real <= x * 10.0 + 0.5 < k as real + 1.0;
    assert x * 10.0 - 0.5 < m as real <= x * 10.0 + 0.5;
    assert m == k;
  }

  /** Rounding keeps a value in [0, 5] inside [0, 5]. */
  lemma RoundTenthWithinScale(x: real)
    requires 0.0 <= x <= 5.0
    ensures 0.0 <= RoundTenth(x) <= 5.0
  {
    assert (x * 10.0 + 0.5).Floor <= 50;
  }

  /** The reduce in recomputeRatings: the sum of the review scores, left to right. */
  function TotalScore(reviews: seq<Review>): real {
    if reviews == [] then 0.0
    else TotalScore(reviews[..|reviews| - 1]) + ReviewScore(Some(reviews[|reviews| - 1]))
  }

  /** The exact mean score, `total / n`. */
  function MeanScore(reviews: seq<Review>): real
    requires reviews != []
  {
    TotalScore(reviews) / |reviews| as real
  }

  /** The ratingAvg recomputeRatings stores: 0 without reviews, else the
      mean score rounded to one decimal. */
  function AverageRating(reviews: seq<Review>): real {
    if |reviews| == 0 then 0.0 else RoundTenth(MeanScore(reviews))
  }

  /** The fields of a consultant document that the server changes in place. */
  class ConsultantDoc {
    var name: string
    var expertise: seq<string>
    var tags: seq<string>
    var qualifications: seq<string>
    var experience: seq<ExperienceItem>
    var associations: seq<string>
    var reviews: seq<Review>
    var ratingAvg: real
    var ratingCount: int
    var search: map<string, Json>

    /** A new document: the schema defaults for every list and for the
        two rating fields. */
    constructor (name: string)
      ensures this.name == name
      ensures expertise == [] && tags == [] && qualifications == [] && experience == []
      ensures associations == [] && reviews == [] && search == map[]
      ensures ratingAvg == 0.0 && ratingCount == 0
    {
      this.name := name;
      expertise, tags, qualifications, experience := [], [], [], [];
      associations, reviews, search := [], [], map[];
      ratingAvg, ratingCount := 0.0, 0;
    }

    /** recomputeRatings: stores the number of reviews and their rounded
        mean score, and returns the stored average. */
    method RecomputeRatings() returns (avg: real)
      modifies this`ratingCount, this`ratingAvg
      ensures ratingCount == |reviews|
      ensures ratingAvg == AverageRating(reviews)
      ensures avg == ratingAvg
    {
      var rs := reviews;
      var n := |rs|;
      ratingCount := n;
      if n == 0 {
        ratingAvg := 0.0;
        return ratingAvg;
      }
      var total := 0.0;
      var i := 0;
      while i < n
        invariant 0 <= i <= n
        invariant total == TotalScore(rs[..i])
        invariant ratingCount == n
      {
        var s := ComputeWeightedReviewScore(Some(rs[i]));
        total := total + s;
        assert rs[..i + 1][..i] == rs[..i];
        i := i + 1;
      }
      assert rs[..n] == rs;
      ratingAvg := RoundTenth(total / n as real);
      return ratingAvg;
    }
  }

  lemma {:induction false} TotalScoreAppend(a: seq<Review>, b: seq<Review>)
    ensures TotalScore(a + b) == TotalScore(a) + TotalScore(b)
  {
    if b == [] {
      assert a + b == a;
    } else {
      var init := b[..|b| - 1];
      TotalScoreAppend(a, init);
      assert (a + b)[..|a + b| - 1] == a + init;
    }
  }

  /** The total does not depend on the order of the reviews. */
  lemma {:induction false} TotalScorePermutation(a: seq<Review>, b: seq<Review>)
    requires multiset(a) == multiset(b)
    ensures TotalScore(a) == TotalScore(b)
    decreases |a|
  {
    if a == [] {
      assert |b| == |multiset(b)| == 0;
    } else {
      var n := |a| - 1;
      var x := a[n];
      assert a == a[..n] + [x];
      assert x in multiset(b);
      var j :| 0 <= j < |b| && b[j] == x;
      var rest := b[..j] + b[j + 1..];
      assert b == b[..j] + [x] + b[j + 1..];
      assert multiset(b) == multiset(b[..j]) + multiset{x} + multiset(b[j + 1..]);
      assert multiset(a) == multiset(a[..n]) + multiset{x};
      assert multiset(rest) == multiset(b[..j]) + multiset(b[j + 1..]);
      assert multiset(rest) == multiset(b) - multiset{x};
      assert multiset(a[..n]) == multiset(a) - multiset{x};
      TotalScorePermutation(a[..n], rest);
      TotalScoreAppend(b[..j] + [x], b[j + 1..]);
      TotalScoreAppend(b[..j], [x]);
      TotalScoreAppend(b[..j], b[j + 1..]);
      assert TotalScore([x]) == ReviewScore(Some(x)) by {
        assert [x][..0] == [];
      }
    }
  }

  /** recomputeRatings gives the same average whatever order the reviews are in. */
  lemma AverageRatingOrderIndependent(a: seq<Review>, b: seq<Review>)
    requires multiset(a) == multiset(b)
    ensures AverageRating(a) == AverageRating(b)
  {
    assert |a| == |multiset(a)| == |multiset(b)| == |b|;
    TotalScorePermutation(a, b);
  }

  lemma {:induction false} TotalScoreWithinScale(reviews: seq<Review>)
    requires forall i :: 0 <= i < |reviews| ==> WithinSchema(reviews[i])
    ensures 0.0 <= TotalScore(reviews) <= 5.0 * |reviews| as real
  {
    if reviews != [] {
      var n := |reviews| - 1;
      TotalScoreWithinScale(reviews[..n]);
      ScoreWithinScale(reviews[n]);
    }
  }

  /** With every review inside the schema's ranges, the stored average lies
      in [0, 5], the range the schema allows for ratingAvg. */
  lemma AverageRatingWithinScale(reviews: seq<Review>)
    requires forall i :: 0 <= i < |reviews| ==> WithinSchema(reviews[i])
    ensures 0.0 <= AverageRating(reviews) <= 5.0
  {
    if reviews != [] {
      TotalScoreWithinScale(reviews);
      DivideBounds(TotalScore(reviews), |reviews| as real, 0.0, 5.0);
      RoundTenthWithinScale(MeanScore(reviews));
    }
  }

  /** The stored average is within 0.05 of the exact mean score. */
  lemma AverageRatingNearMean(reviews: seq<Review>)
    requires reviews != []
    ensures MeanScore(reviews) - 0.05 < AverageRating(reviews) <= MeanScore(reviews) + 0.05
  {
    RoundTenthNearest(MeanScore(reviews));
  }

  /** Two legacy reviews cached at 3.33 and 4.66 average to 4.0. */
  lemma AverageRatingExample()
    ensures AverageRating([Review(None, Number(3.33), Absent), Review(None, Number(4.66), Absent)]) == 4.0
  {
    var rs := [Review(None, Number(3.33), Absent), Review(None, Number(4.66), Absent)];
    assert rs[..1] == [rs[0]] && [rs[0]][..0] == [];
    assert TotalScore(rs) == 7.99;
    assert (7.99 / 2.0 * 10.0 + 0.5).Floor == 40;
  }

  /** The associations setter: a value that is not an array gives [];
      an array gives its trimmed values, blanks dropped, each value kept
      once at its first occurrence. */
  function SetAssociations(arr: Option<seq<string>>): (r: seq<string>)
    ensures arr.None? ==> r == []
    ensures Distinct(r)
    ensures forall x :: x in r <==> arr.Some? && x != "" && x in TrimAll(arr.value)
    ensures forall x :: x in r ==> IsTrimmed(x)
    ensures arr.Some? ==> InFirstOrder(r, TrimAll(arr.value))
  {
    match arr
    case None => []
    case Some(xs) =>
      var t := TrimAll(xs);
      var r := Dedup(NonEmpty(t));
      forall i, j | 0 <= i < j < |r| ensures FirstIndex(t, r[i]) < FirstIndex(t, r[j]) {
        NonEmptyFirstIndex(t, r[i], r[j]);
      }
      r
  }

  /** Setting the associations to what the setter produced changes nothing. */
  lemma SetAssociationsIdempotent(arr: Option<seq<string>>)
    ensures SetAssociations(Some(SetAssociations(arr))) == SetAssociations(arr)
  {
    var r := SetAssociations(arr);
    assert TrimAll(r) == r;
    NonEmptyKeepsAll(r);
    DedupOfDistinct(r);
  }
}

=== FILE: consultant_details.dfy ===
/** The helpers of the consultant detail page (ConsultantDetails.js): list
    and CSV normalisers, contact accessors, month formatting and the
    client's own copy of the review score. */
module ConsultantDetails {
  import opened Wrappers
  import opened Text
  import opened Lists
  import opened JsNumbers
  import opened ReviewScoring

  // ----- lists and CSV -----

  /** arr: an array gives its truthy elements, a truthy scalar a
      one-element list, anything falsy the empty list. */
  function AsList(v: StringOrList): (r: seq<string>)
    ensures forall x :: x in r ==> x != ""
    ensures v.Many? ==> forall x :: x in r <==> x in v.items && x != ""
    ensures v.Many? ==> IsSubsequence(r, v.items)
    ensures v.Many? ==> forall x :: multiset(r)[x] == if x != "" then multiset(v.items)[x] else 0
    ensures v.Single? ==> (r == [] <==> v.s == "") && (v.s != "" ==> r == [v.s])
  {
    match v
    case Many(xs) => NonEmpty(xs)
    case Single(s) => if s != "" then [s] else []
  }

  /** csvShow: the elements joined by ", ". Every element shows in the
      text, and the text is empty exactly when there is no element;
      CsvRoundTrip below is its inverse. */
  function CsvShow(v: StringOrList): (r: string)
    ensures forall x :: x in AsList(v) ==> Contains(r, x)
    ensures r == "" <==> AsList(v) == []
  {
    var xs := AsList(v);
    forall x | x in xs
      ensures Contains(Join(xs, ", "), x)
    {
      var i :| 0 <= i < |xs| && xs[i] == x;
      var before, after := JoinContainsElement(xs, ", ", i);
      ContainsInfix(before, x, after);
    }
    assert xs != [] ==> Join(xs, ", ") != "" by {
      if xs != [] {
        var before, after := JoinContainsElement(xs, ", ", 0);
      }
    }
    Join(xs, ", ")
  }

  /** split(sep).map(s => s.trim()).filter(Boolean): the pieces of s
      between the separators, trimmed, the blank ones dropped, the others
      kept in order and with their repetitions. */
  function TrimmedPieces(s: string, sep: char): (r: seq<string>)
    ensures IsSubsequence(r, TrimAll(Split(s, sep)))
    ensures forall x :: multiset(r)[x] == if x != "" then multiset(TrimAll(Split(s, sep)))[x] else 0
    ensures forall x :: x in r ==> x != "" && IsTrimmed(x) && sep !in x
    ensures s == "" ==> r == []
  {
    var pieces := Split(s, sep);
    TrimAllKeepsOut(pieces, sep);
    if s == "" then
      assert TrimAll(pieces) == [""] by { assert pieces == [""]; }
      NonEmpty(TrimAll(pieces))
    else NonEmpty(TrimAll(pieces))
  }

  /** Text typed as pieces joined by the separator splits back into those
      pieces, trimmed and without the blank ones. */
  lemma TrimmedPiecesOfJoin(ps: seq<string>, sep: char)
    requires forall p :: p in ps ==> sep !in p
    ensures TrimmedPieces(Join(ps, [sep]), sep) == NonEmpty(TrimAll(ps))
  {
    if ps != [] {
      SplitJoin(ps, sep);
    }
  }

  /** csvParse: the comma-separated pieces, trimmed, blanks dropped; a
      missing value ("") gives []. */
  function CsvParse(s: string): (r: seq<string>)
    ensures IsSubsequence(r, TrimAll(Split(s, ',')))
    ensures forall x :: multiset(r)[x] == if x != "" then multiset(TrimAll(Split(s, ',')))[x] else 0
    ensures forall x :: x in r ==> x != "" && IsTrimmed(x) && ',' !in x
    ensures s == "" ==> r == []
  {
    TrimmedPieces(s, ',')
  }

  /** The values csvParse produces and csvShow can carry: trimmed,
      non-empty and without a comma. */
  predicate CsvSafe(xs: seq<string>) {
    forall x :: x in xs ==> x != "" && IsTrimmed(x) && ',' !in x
  }

  /** ", " between the elements is "," between the elements with a space
      in front of every one but the first. */
  function SpaceLed(xs: seq<string>): (r: seq<string>)
    requires xs != []
    ensures |r| == |xs| && r[0] == xs[0]
    ensures forall i :: 0 < i < |xs| ==> r[i] == " " + xs[i]
  {
    [xs[0]] + seq(|xs| - 1, i requires 0 <= i < |xs| - 1 => " " + xs[i + 1])
  }

  lemma {:induction false} JoinCommaSpace(xs: seq<string>)
    requires xs != []
    ensures Join(xs, ", ") == Join(SpaceLed(xs), ",")
  {
    if |xs| > 1 {
      var tail := xs[1..];
      JoinCommaSpace(tail);
      var sl := SpaceLed(xs);
      assert sl[1..] == [" " + tail[0]] + SpaceLed(tail)[1..];
      if |tail| == 1 {
        assert Join(sl[1..], ",") == " " + tail[0];
      } else {
        assert Join(sl[1..], ",") == " " + tail[0] + "," + Join(SpaceLed(tail)[1..], ",");
        assert Join(SpaceLed(tail), ",") == tail[0] + "," + Join(SpaceLed(tail)[1..], ",");
      }
    }
  }

  lemma SpaceLedCommaFree(xs: seq<string>)
    requires xs != [] && CsvSafe(xs)
    ensures forall x :: x in SpaceLed(xs) ==> ',' !in x
  {
    var sl := SpaceLed(xs);
    forall x | x in sl ensures ',' !in x {
      var i :| 0 <= i < |sl| && sl[i] == x;
      assert xs[i] in xs;
    }
  }

  lemma TrimSpaceLed(xs: seq<string>)
    requires xs != [] && CsvSafe(xs)
    ensures TrimAll(SpaceLed(xs)) == xs
  {
    var sl := SpaceLed(xs);
    forall i | 0 <= i < |sl| ensures Trim(sl[i]) == xs[i] {
      assert xs[i] in xs;
      if i > 0 {
        TrimLeadingSpace(xs[i]);
      }
    }
  }

  /** Loading a field into the edit form and saving it back gives the same
      list: csvParse undoes csvShow on every list of csv-safe values. */
  lemma CsvRoundTrip(xs: seq<string>)
    requires CsvSafe(xs)
    ensures CsvParse(CsvShow(Many(xs))) == xs
  {
    NonEmptyKeepsAll(xs);
    if xs != [] {
      var sl := SpaceLed(xs);
      JoinCommaSpace(xs);
      SpaceLedCommaFree(xs);
      SplitJoin(sl, ',');
      assert Split(CsvShow(Many(xs)), ',') == sl;
      TrimSpaceLed(xs);
    }
  }

  /** What csvParse produces survives a csvShow/csvParse round trip. */
  lemma CsvParseStable(s: string)
    ensures CsvParse(CsvShow(Many(CsvParse(s)))) == CsvParse(s)
  {
    CsvRoundTrip(CsvParse(s));
  }

  // ----- contacts -----

  /** emails / phones: the values of the structured contact list when it
      has any, else the flat field, else []. */
  function PreferContacts(contactValues: seq<string>, flat: Option<seq<string>>): (r: seq<string>)
    ensures contactValues != [] ==> r == contactValues
    ensures r == [] <==> contactValues == [] && (flat.None? || flat.value == [])
  {
    if |contactValues| > 0 then contactValues
    else if flat.Some? then flat.value
    else []
  }

  /** The contact fields of a consultant as the pages receive them. */
  datatype ContactFields = ContactFields(
    contactEmails: seq<string>,
    emails: Option<seq<string>>,
    contactPhones: seq<string>,
    phones: Option<seq<string>>)

  function Emails(c: ContactFields): (r: seq<string>)
    ensures c.contactEmails != [] ==> r == c.contactEmails
    ensures c.contactEmails == [] && c.emails.Some? ==> r == c.emails.value
  {
    PreferContacts(c.contactEmails, c.emails)
  }

  function Phones(c: ContactFields): (r: seq<string>)
    ensures c.contactPhones != [] ==> r == c.contactPhones
    ensures c.contactPhones == [] && c.phones.Some? ==> r == c.phones.value
  {
    PreferContacts(c.contactPhones, c.phones)
  }

  // ----- months -----

  const ShortMonths: seq<string> :=
    ["Jan", "Feb", "Mar", "Apr", "May", "Jun", "Jul", "Aug", "Sep", "Oct", "Nov", "Dec"]

  /** `[…][n - 1]`: the index of a month name, when n is one of 1-12. */
  function MonthOf(n: JsNumber): (r: Option<nat>)
    ensures r.Some? ==> r.value < 12
  {
    match n
    case Finite(v) =>
      var k := v - 1.0;
      if 0.0 <= k < 12.0 && k.Floor as real == k then Some(k.Floor as nat) else None
    case _ => None
  }

  /** The short month name, or "undefined" for anything that is not a month. */
  function MonthName(n: JsNumber): string {
    match MonthOf(n)
    case Some(k) => ShortMonths[k]
    case None => "undefined"
  }

  /** The whole numbers 1-12 are the months; no other whole number is. */
  lemma MonthOfWhole(d: nat)
    ensures 1 <= d <= 12 ==> MonthOf(Finite(d as real)) == Some(d - 1) && MonthName(Finite(d as real)) == ShortMonths[d - 1]
    ensures d == 0 || d > 12 ==> MonthOf(Finite(d as real)) == None && MonthName(Finite(d as real)) == "undefined"
  {
    assert (d as real - 1.0).Floor == d - 1;
  }

  /** `s.slice(a, b)` for 0 <= a <= b. */
  function Slice(s: string, a: nat, b: nat): (r: string)
    requires a <= b
    ensures |r| <= b - a
  {
    var hi := if b < |s| then b else |s|;
    var lo := if a < hi then a else hi;
    s[lo..hi]
  }

  /** fmtMonth: "" for a missing date; otherwise the short month name and
      the year, where a month that is not 1-12 prints as "undefined". */
  function FmtMonth(d: string): (r: string)
    ensures d == "" ==> r == ""
  {
    if d == "" then ""
    else
      var y := Slice(d, 0, 4);
      var m := Slice(d, 5, 7);
      if y == "" || m == "" then ""
      else
        MonthName(ToNumber(m)) + " " + y
  }

  /** "YYYY-MM…" with MM in 01-12 prints as the month's short name and the year. */
  lemma FmtMonthOfDate(s: string)
    requires |s| >= 7 && AllDigits(s[5..7]) && 1 <= DigitsValue(s[5..7]) <= 12
    ensures FmtMonth(s) == ShortMonths[DigitsValue(s[5..7]) - 1] + " " + s[..4]
  {
    var m := s[5..7];
    assert Slice(s, 5, 7) == m;
    assert Slice(s, 0, 4) == s[..4];
    ToNumberDigits(m);
    MonthOfWhole(DigitsValue(m));
    assert MonthName(ToNumber(m)) == MonthName(Finite(DigitsValue(m) as real));
  }

  /** A two-digit month outside 01-12 prints as "undefined YYYY". */
  lemma FmtMonthOfBadMonth(s: string)
    requires |s| >= 7 && AllDigits(s[5..7]) && (DigitsValue(s[5..7]) == 0 || DigitsValue(s[5..7]) > 12)
    ensures FmtMonth(s) == "undefined " + s[..4]
  {
    var m := s[5..7];
    assert Slice(s, 5, 7) == m;
    assert Slice(s, 0, 4) == s[..4];
    ToNumberDigits(m);
    MonthOfWhole(DigitsValue(m));
    assert MonthName(ToNumber(m)) == MonthName(Finite(DigitsValue(m) as real));
    assert "undefined" + " " == "undefined ";
  }

  // ----- the client's review score -----

  /** REVIEW_QUESTIONS: the question ids with their percent weights. */
  const ReviewQuestions: seq<(string, int)> := [
    ("technical_expertise", 25),
    ("relevant_experience", 15),
    ("proposed_methodology", 15),
    ("communication_skills", 10),
    ("involvement_tasks", 15),
    ("timeliness", 10),
    ("cost_effectiveness", 10)
  ]

  /** `typeof v === "number" && w > 0`: any number counts, 0 and negatives too. */
  predicate ClientCounts(v: Entry, w: int) {
    v.Number? && w > 0
  }

  /** The running `sum` of the forEach over the questions. */
  function ClientSum(answers: map<string, Entry>, qs: seq<(string, int)>): real {
    if qs == [] then 0.0
    else
      var last := qs[|qs| - 1];
      var v := AnswerAt(answers, last.0);
      ClientSum(answers, qs[..|qs| - 1]) + (if ClientCounts(v, last.1) then v.x * last.1 as real else 0.0)
  }

  /** The running `totalW`. */
  function ClientWeight(answers: map<string, Entry>, qs: seq<(string, int)>): real {
    if qs == [] then 0.0
    else
      var last := qs[|qs| - 1];
      ClientWeight(answers, qs[..|qs| - 1]) + (if ClientCounts(AnswerAt(answers, last.0), last.1) then last.1 as real else 0.0)
  }

  /** computeReviewOverall: overallRating first, then the answers, then the
      legacy rating, else 0. */
  function ClientScore(review: Option<Review>): real {
    match review
    case None => 0.0
    case Some(rv) =>
      if IsPositive(rv.overallRating) then rv.overallRating.x
      else if rv.answers.Some? && ClientWeight(rv.answers.value, ReviewQuestions) > 0.0 then
        ClientSum(rv.answers.value, ReviewQuestions) / ClientWeight(rv.answers.value, ReviewQuestions)
      else if IsPositive(rv.rating) then rv.rating.x
      else 0.0
  }

  /** computeReviewOverall with its forEach loop. */
  method ComputeReviewOverall(review: Option<Review>) returns (score: real)
    ensures score == ClientScore(review)
  {
    if review.None? {
      return 0.0;
    }
    var rv := review.value;
    if rv.overallRating.Number? && rv.overallRating.x > 0.0 {
      return rv.overallRating.x;
    }
    if rv.answers.Some? {
      var answers := rv.answers.value;
      var sum, totalW := 0.0, 0.0;
      var i := 0;
      while i < |ReviewQuestions|
        invariant 0 <= i <= |ReviewQuestions|
        invariant sum == ClientSum(answers, ReviewQuestions[..i])
        invariant totalW == ClientWeight(answers, ReviewQuestions[..i])
      {
        var (id, weightPercent) := ReviewQuestions[i];
        var v := AnswerAt(answers, id);
        var w := weightPercent;
        if v.Number? && w > 0 {
          sum := sum + v.x * w as real;
          totalW := totalW + w as real;
        }
        assert ReviewQuestions[..i + 1][..i] == ReviewQuestions[..i];
        i := i + 1;
      }
      assert ReviewQuestions[..i] == ReviewQuestions;
      if totalW > 0.0 {
        return sum / totalW;
      }
    }
    if rv.rating.Number? && rv.rating.x > 0.0 {
      return rv.rating.x;
    }
    return 0.0;
  }

  /** The client's percent weights are the server's weights times 100, for
      the same questions in the same order. */
  lemma QuestionsMatchWeights()
    ensures |ReviewQuestions| == |ReviewWeights|
    ensures forall i :: 0 <= i < |ReviewQuestions| ==>
              ReviewQuestions[i].0 == ReviewWeights[i].0 && ReviewQuestions[i].1 > 0 &&
              ReviewQuestions[i].1 as real == 100.0 * ReviewWeights[i].1
  {
  }

  lemma ScaleTerm(v: real, w: real, p: real)
    requires p == 100.0 * w
    ensures v * p == 100.0 * (v * w)
  {
  }

  /** Without a number <= 0 among the answers, the client's sums are 100
      times the server's. */
  lemma {:induction false} ClientSumsScaled(answers: map<string, Entry>, n: nat)
    requires n <= |ReviewQuestions|
    requires forall key :: AnswerAt(answers, key).Number? ==> AnswerAt(answers, key).x > 0.0
    ensures ClientSum(answers, ReviewQuestions[..n]) == 100.0 * WeightedSum(answers, ReviewWeights[..n])
    ensures ClientWeight(answers, ReviewQuestions[..n]) == 100.0 * WeightTotal(answers, ReviewWeights[..n])
  {
    if n > 0 {
      QuestionsMatchWeights();
      ClientSumsScaled(answers, n - 1);
      assert ReviewQuestions[..n][..n - 1] == ReviewQuestions[..n - 1];
      assert ReviewWeights[..n][..n - 1] == ReviewWeights[..n - 1];
      var q, w := ReviewQuestions[n - 1], ReviewWeights[n - 1];
      var v := AnswerAt(answers, q.0);
      if v.Number? {
        ScaleTerm(v.x, w.1, q.1 as real);
      }
    }
  }

  lemma CancelHundred(s: real, t: real)
    requires t > 0.0
    ensures (100.0 * s) / (100.0 * t) == s / t
  {
    var q := s / t;
    assert q * t == s;
    assert q * (100.0 * t) == 100.0 * s;
  }

  /** When overallRating is not a number > 0 and no answer is a number
      <= 0, the page shows exactly the score the server computes. */
  lemma ClientMatchesServer(rv: Review)
    requires !IsPositive(rv.overallRating)
    requires rv.answers.Some? ==>
               forall key :: AnswerAt(rv.answers.value, key).Number? ==> AnswerAt(rv.answers.value, key).x > 0.0
    ensures ClientScore(Some(rv)) == ReviewScore(Some(rv))
  {
    if rv.answers.Some? {
      var a := rv.answers.value;
      ClientSumsScaled(a, |ReviewQuestions|);
      assert ReviewQuestions[..|ReviewQuestions|] == ReviewQuestions;
      assert ReviewWeights[..|ReviewWeights|] == ReviewWeights;
      var s, t := WeightedSum(a, ReviewWeights), WeightTotal(a, ReviewWeights);
      if t > 0.0 {
        CancelHundred(s, t);
      }
    }
  }

  /** The two orders differ: with a cached overallRating of 4 and one
      answer of 1, the page shows 4 and the server computes 1. */
  lemma OverallRatingFirstOnClient()
    ensures var rv := Review(Some(map["technical_expertise" := Number(1.0)]), Number(4.0), Absent);
            ClientScore(Some(rv)) == 4.0 && ReviewScore(Some(rv)) == 1.0
  {
    var answers := map["technical_expertise" := Number(1.0)];
    var rv := Review(Some(answers), Number(4.0), Absent);
    assert HasCountedAnswer(answers, ReviewWeights) by {
      assert IsPositive(AnswerAt(answers, ReviewWeights[0].0));
    }
    StructuredScoreWithin(rv, 1.0, 1.0);
  }

  /** The client counts an answer of 0; the server skips it and falls back
      to the legacy rating. */
  lemma ZeroAnswerCountsOnClient()
    ensures var rv := Review(Some(map["technical_expertise" := Number(0.0)]), Absent, Number(4.0));
            ClientScore(Some(rv)) == 0.0 && ReviewScore(Some(rv)) == 4.0
  {
    var answers := map["technical_expertise" := Number(0.0)];
    var rv := Review(Some(answers), Absent, Number(4.0));
    assert !HasCountedAnswer(answers, ReviewWeights);
    FallbackChain(rv);
    assert ClientWeight(answers, ReviewQuestions[..1]) == 25.0 by {
      assert ReviewQuestions[..1][..0] == [];
    }
    ClientWeightGrows(answers, 1, |ReviewQuestions|);
    assert ReviewQuestions[..|ReviewQuestions|] == ReviewQuestions;
    ClientSumZero(answers, |ReviewQuestions|);
  }

  lemma {:induction false} ClientWeightGrows(answers: map<string, Entry>, m: nat, n: nat)
    requires m <= n <= |ReviewQuestions|
    ensures ClientWeight(answers, ReviewQuestions[..m]) <= ClientWeight(answers, ReviewQuestions[..n])
    decreases n - m
  {
    if m < n {
      ClientWeightGrows(answers, m, n - 1);
      assert ReviewQuestions[..n][..n - 1] == ReviewQuestions[..n - 1];
    }
  }

  lemma {:induction false} ClientSumZero(answers: map<string, Entry>, n: nat)
    requires n <= |ReviewQuestions|
    requires forall key :: AnswerAt(answers, key).Number? ==> AnswerAt(answers, key).x == 0.0
    ensures ClientSum(answers, ReviewQuestions[..n]) == 0.0
  {
    if n > 0 {
      ClientSumZero(answers, n - 1);
      assert ReviewQuestions[..n][..n - 1] == ReviewQuestions[..n - 1];
    }
  }
}

=== FILE: consultant_routes.dfy ===
/** The experience and review handlers of routes/consultants.js, on a
    document that has been found and a caller that holds the permission. */
module ConsultantRoutes {
  import opened Wrappers
  import opened Text
  import opened Lists
  import opened JsNumbers
  import opened JsonValues
  import opened ReviewScoring
  import opened ConsultantModel
  import opened SearchIndex

  // ----- adding an experience entry -----

  /** `Array.isArray(h) ? h : (h ? [h] : [])`. */
  function HighlightsOf(h: StringOrList): (r: seq<string>)
    ensures h.Many? ==> r == h.items
    ensures h.Single? ==> r == (if h.s == "" then [] else [h.s])
  {
    match h
    case Many(xs) => xs
    case Single(s) => if s != "" then [s] else []
  }

  /** The entry POST /:id/experience pushes: the dates only when given. */
  function NewExperience(role: string, org: string, start: string, end: string,
                         location: string, highlights: StringOrList): ExperienceItem
  {
    ExperienceItem(role, org, location,
                   if start != "" then Some(start) else None,
                   if end != "" then Some(end) else None,
                   HighlightsOf(highlights))
  }

  /** The search fields after buildSearch has run on the document. */
  predicate SearchCurrent(doc: ConsultantDoc)
    reads doc
  {
    && "text" in doc.search && doc.search["text"] == Str(SearchText(DocSource(doc)))
    && "keywords" in doc.search && doc.search["keywords"] == Arr(StrAll(Keywords(DocSource(doc))))
  }

  /** POST /:id/experience: appends one entry and rebuilds the search fields. */
  method AddExperience(doc: ConsultantDoc, role: string, org: string, start: string, end: string,
                       location: string, highlights: StringOrList)
    modifies doc`experience, doc`search
    ensures doc.experience == old(doc.experience) + [NewExperience(role, org, start, end, location, highlights)]
    ensures SearchCurrent(doc)
  {
    doc.experience := doc.experience + [NewExperience(role, org, start, end, location, highlights)];
    BuildSearch(doc);
  }

  // ----- the index of an entry, as written -----

  /** `i < 0` on a JavaScript number: false for NaN. */
  predicate BelowZero(i: JsNumber) {
    match i
    case NaN => false
    case Finite(v) => v < 0.0
    case Infinite(negative) => negative
  }

  /** `i >= len` on a JavaScript number: false for NaN. */
  predicate AtLeast(i: JsNumber, len: nat) {
    match i
    case NaN => false
    case Finite(v) => v >= len as real
    case Infinite(negative) => !negative
  }

  /** The guard of both index routes: `i < 0 || i >= doc.experience.length`. */
  predicate GuardRejects(i: JsNumber, len: nat) {
    BelowZero(i) || AtLeast(i, len)
  }

  /** The position splice(i, 1) starts at: NaN counts as 0, a fraction is
      truncated, a negative start counts from the end, and the result is
      clamped to [0, len]. */
  function SpliceStart(i: JsNumber, len: nat): (k: nat)
    ensures k <= len
  {
    var t: int := match i
      case NaN => 0
      case Finite(v) => if v >= 0.0 then v.Floor else -((-v).Floor)
      case Infinite(negative) => if negative then -(len as int) else len;
    if t < 0 then (if len + t < 0 then 0 else len + t)
    else if t > len then len
    else t
  }

  /** DELETE /:id/experience/:idx as written: the list after the handler,
      or the "Bad index" error. An index that passes the guard is NaN or a
      number in [0, len); splice(i, 1) then removes the entry at the
      truncated index, or the first entry for NaN. */
  function DeleteExperienceAsWritten(list: seq<ExperienceItem>, idx: string): (r: Result<seq<ExperienceItem>, string>)
    ensures GuardRejects(ToNumber(idx), |list|) <==> r == Err("Bad index")
    ensures r.Ok? && list == [] ==> r.value == []
    ensures r.Ok? && list != [] ==>
              var n := ToNumber(idx);
              var k := SpliceStart(n, |list|);
              && k < |list|
              && (n.NaN? ==> k == 0)
              && (n.Finite? ==> k as real <= n.value < k as real + 1.0)
              && |r.value| == |list| - 1
              && (forall j :: 0 <= j < k ==> r.value[j] == list[j])
              && (forall j :: k <= j < |r.value| ==> r.value[j] == list[j + 1])
  {
    var i := ToNumber(idx);
    if GuardRejects(i, |list|) then Err("Bad index")
    else Ok(RemoveIndex(list, SpliceStart(i, |list|)))
  }

  lemma ToNumberOfWord()
    ensures ToNumber("abc") == NaN
  {
    assert IsTrimmed("abc");
    SplitNoSeparator("abc", '.');
    assert !AllDigits("abc");
  }

  /** As written, an index that is not a number (such as "abc", see
      ToNumberOfWord) passes the guard, and splice(NaN, 1) deletes the
      first entry. */
  lemma NaNIndexDeletesFirstEntry(list: seq<ExperienceItem>, idx: string)
    requires list != [] && ToNumber(idx) == NaN
    ensures DeleteExperienceAsWritten(list, idx) == Ok(list[1..])
  {
    assert SpliceStart(NaN, |list|) == 0;
    assert list[..0] + list[1..] == list[1..];
  }

  /** The record fields of a PUT body; None for a field the body leaves out. */
  datatype ExperiencePatch = ExperiencePatch(
    role: Option<string>,
    org: Option<string>,
    location: Option<string>,
    start: Option<Option<string>>,
    end: Option<Option<string>>,
    highlights: Option<seq<string>>)

  /** `{ ...item, ...body }`: the body's fields win. */
  function Overlay(item: ExperienceItem, patch: ExperiencePatch): (r: ExperienceItem)
    ensures patch.role.None? ==> r.role == item.role
    ensures patch.role.Some? ==> r.role == patch.role.value
    ensures patch.org.None? ==> r.org == item.org
    ensures patch.org.Some? ==> r.org == patch.org.value
    ensures patch.location.None? ==> r.location == item.location
    ensures patch.location.Some? ==> r.location == patch.location.value
    ensures patch.start.None? ==> r.start == item.start
    ensures patch.start.Some? ==> r.start == patch.start.value
    ensures patch.end.None? ==> r.end == item.end
    ensures patch.end.Some? ==> r.end == patch.end.value
    ensures patch.highlights.None? ==> r.highlights == item.highlights
    ensures patch.highlights.Some? ==> r.highlights == patch.highlights.value
  {
    ExperienceItem(
      if patch.role.Some? then patch.role.value else item.role,
      if patch.org.Some? then patch.org.value else item.org,
      if patch.location.Some? then patch.location.value else item.location,
      if patch.start.Some? then patch.start.value else item.start,
      if patch.end.Some? then patch.end.value else item.end,
      if patch.highlights.Some? then patch.highlights.value else item.highlights)
  }

  /** PUT /:id/experience/:idx as written: `doc.experience[i] = …` only
      replaces an entry when i is a whole number; for NaN or a fraction it
      sets a property that is not an element, and the list is unchanged. */
  function EditExperienceAsWritten(list: seq<ExperienceItem>, idx: string, patch: ExperiencePatch)
    : (r: Result<seq<ExperienceItem>, string>)
    ensures GuardRejects(ToNumber(idx), |list|) <==> r == Err("Bad index")
    ensures r.Ok? ==> |r.value| == |list|
    ensures r.Ok? && WholeIndex(ToNumber(idx), |list|) ==>
              var k := ToNumber(idx).value.Floor;
              && 0 <= k < |list|
              && r.value[k] == Overlay(list[k], patch)
              && (forall j :: 0 <= j < |list| && j != k ==> r.value[j] == list[j])
    ensures r.Ok? && !WholeIndex(ToNumber(idx), |list|) ==> r.value == list
  {
    var i := ToNumber(idx);
    if GuardRejects(i, |list|) then Err("Bad index")
    else if i.Finite? && i.value.Floor as real == i.value then
      var k := i.value.Floor;
      Ok(list[k := Overlay(list[k], patch)])
    else Ok(list)
  }

  /** As written, an index that is not a number is answered as a
      successful edit that changed nothing. */
  lemma NaNIndexEditsNothing(list: seq<ExperienceItem>, idx: string, patch: ExperiencePatch)
    requires ToNumber(idx) == NaN
    ensures EditExperienceAsWritten(list, idx, patch) == Ok(list)
  {
  }

  // ----- the index of an entry, corrected -----

  /** A whole number in [0, len). */
  predicate WholeIndex(i: JsNumber, len: nat) {
    i.Finite? && 0.0 <= i.value < len as real && i.value.Floor as real == i.value
  }

  /** The index the routes evidently mean: a whole number in [0, len). */
  function ParseIndex(idx: string, len: nat): (r: Option<nat>)
    ensures r.Some? <==> WholeIndex(ToNumber(idx), len)
    ensures r.Some? ==> r.value < len && ToNumber(idx) == Finite(r.value as real)
  {
    match ToNumber(idx)
    case Finite(v) =>
      if 0.0 <= v < len as real && v.Floor as real == v then Some(v.Floor as nat) else None
    case _ => None
  }

  /** DELETE /:id/experience/:idx with the index check corrected. */
  function DeleteExperienceAt(list: seq<ExperienceItem>, idx: string): (r: Result<seq<ExperienceItem>, string>)
    ensures ParseIndex(idx, |list|).None? <==> r == Err("Bad index")
    ensures ParseIndex(idx, |list|).Some? ==>
              var k := ParseIndex(idx, |list|).value;
              r.Ok? && |r.value| == |list| - 1 &&
              (forall j :: 0 <= j < k ==> r.value[j] == list[j]) &&
              (forall j :: k <= j < |r.value| ==> r.value[j] == list[j + 1])
  {
    match ParseIndex(idx, |list|)
    case None => Err("Bad index")
    case Some(k) => Ok(RemoveIndex(list, k))
  }

  /** PUT /:id/experience/:idx with the index check corrected: only entry k
      changes, and only in the fields the body gives. */
  function EditExperienceAt(list: seq<ExperienceItem>, idx: string, patch: ExperiencePatch)
    : (r: Result<seq<ExperienceItem>, string>)
    ensures ParseIndex(idx, |list|).None? <==> r == Err("Bad index")
    ensures ParseIndex(idx, |list|).Some? ==>
              var k := ParseIndex(idx, |list|).value;
              r.Ok? && |r.value| == |list| && r.value[k] == Overlay(list[k], patch) &&
              forall j :: 0 <= j < |list| && j != k ==> r.value[j] == list[j]
  {
    match ParseIndex(idx, |list|)
    case None => Err("Bad index")
    case Some(k) => Ok(list[k := Overlay(list[k], patch)])
  }

  /** On a whole index in range the delete handler as written removes the
      same entry as the corrected one. */
  lemma DeleteAgreesOnWholeIndex(list: seq<ExperienceItem>, idx: string)
    requires WholeIndex(ToNumber(idx), |list|)
    ensures DeleteExperienceAsWritten(list, idx) == DeleteExperienceAt(list, idx)
  {
    var n := ToNumber(idx);
    var k := n.value.Floor;
    assert !GuardRejects(n, |list|);
    assert SpliceStart(n, |list|) == k;
    assert ParseIndex(idx, |list|) == Some(k as nat);
  }

  /** The as-written delete handler and the corrected one differ only on an
      index that is NaN or a fraction. */
  lemma DeleteAsWrittenDiffersOnlyOffIntegers(list: seq<ExperienceItem>, idx: string)
    ensures DeleteExperienceAsWritten(list, idx) != DeleteExperienceAt(list, idx) ==>
              ToNumber(idx).NaN? || (ToNumber(idx).Finite? && ToNumber(idx).value.Floor as real != ToNumber(idx).value)
  {
    var n := ToNumber(idx);
    var len := |list|;
    if WholeIndex(n, len) {
      DeleteAgreesOnWholeIndex(list, idx);
    } else if n.Infinite? || (n.Finite? && n.value.Floor as real == n.value) {
      assert GuardRejects(n, len);
      assert ParseIndex(idx, len).None?;
    }
  }

  /** The as-written edit handler and the corrected one differ only on an
      index that is NaN or a fraction. */
  lemma EditAsWrittenDiffersOnlyOffIntegers(list: seq<ExperienceItem>, idx: string, patch: ExperiencePatch)
    ensures EditExperienceAsWritten(list, idx, patch) != EditExperienceAt(list, idx, patch) ==>
              ToNumber(idx).NaN? || (ToNumber(idx).Finite? && ToNumber(idx).value.Floor as real != ToNumber(idx).value)
  {
    var n := ToNumber(idx);
    var len := |list|;
    if n.Infinite? {
      assert GuardRejects(n, len);
      assert ParseIndex(idx, len).None?;
    } else if n.Finite? && n.value.Floor as real == n.value {
      if GuardRejects(n, len) {
        assert ParseIndex(idx, len).None?;
      } else {
        assert ParseIndex(idx, len) == Some(n.value.Floor as nat);
      }
    }
  }

  /** DELETE /:id/experience/:idx on a document, with the corrected index
      check: a bad index changes nothing; otherwise entry k goes and the
      search fields are rebuilt. */
  method DeleteExperience(doc: ConsultantDoc, idx: string) returns (err: Option<string>)
    modifies doc`experience, doc`search
    ensures match DeleteExperienceAt(old(doc.experience), idx)
            case Err(e) => err == Some(e) && doc.experience == old(doc.experience) && doc.search == old(doc.search)
            case Ok(list) => err == None && doc.experience == list && SearchCurrent(doc)
  {
    var k := ParseIndex(idx, |doc.experience|);
    if k.None? {
      return Some("Bad index");
    }
    doc.experience := RemoveIndex(doc.experience, k.value);
    BuildSearch(doc);
    return None;
  }

  /** PUT /:id/experience/:idx on a document, with the corrected index check. */
  method EditExperience(doc: ConsultantDoc, idx: string, patch: ExperiencePatch) returns (err: Option<string>)
    modifies doc`experience, doc`search
    ensures match EditExperienceAt(old(doc.experience), idx, patch)
            case Err(e) => err == Some(e) && doc.experience == old(doc.experience) && doc.search == old(doc.search)
            case Ok(list) => err == None && doc.experience == list && SearchCurrent(doc)
  {
    var k := ParseIndex(idx, |doc.experience|);
    if k.None? {
      return Some("Bad index");
    }
    doc.experience := doc.experience[k.value := Overlay(doc.experience[k.value], patch)];
    BuildSearch(doc);
    return None;
  }

  // ----- adding a review -----

  /** The review POST /:id/reviews pushes before it saves: only
      `rating: Number(rating)` (None stands for a rating that is not a
      finite number); answers and overallRating are not read from the
      body. */
  function PostedReview(rating: Option<real>): Review {
    Review(None, Absent, if rating.Some? then Number(rating.value) else NotNumber)
  }

  /** `b.rating || 0`: NaN, 0 and a missing rating all count 0. */
  function LegacyRating(r: Review): real {
    if r.rating.Number? then r.rating.x else 0.0
  }

  function LegacyTotal(reviews: seq<Review>): real {
    if reviews == [] then 0.0
    else LegacyTotal(reviews[..|reviews| - 1]) + LegacyRating(reviews[|reviews| - 1])
  }

  /** The ratingAvg the review route stores: the rounded mean of the legacy ratings. */
  function LegacyAverage(reviews: seq<Review>): real {
    if |reviews| == 0 then 0.0 else RoundTenth(LegacyTotal(reviews) / |reviews| as real)
  }

  /** POST /:id/reviews: appends one review, counts the reviews and averages
      their legacy ratings (it does not call recomputeRatings). */
  method AddReview(doc: ConsultantDoc, rating: Option<real>)
    modifies doc`reviews, doc`ratingCount, doc`ratingAvg
    ensures doc.reviews == old(doc.reviews) + [PostedReview(rating)]
    ensures doc.ratingCount == |doc.reviews|
    ensures doc.ratingAvg == LegacyAverage(doc.reviews)
  {
    doc.reviews := doc.reviews + [PostedReview(rating)];
    doc.ratingCount := |doc.reviews|;
    var sum := LegacyTotal(doc.reviews);
    doc.ratingAvg := if doc.ratingCount != 0 then RoundTenth(sum / doc.ratingCount as real) else 0.0;
  }

  /** A review scored from its answers alone counts 0 in the route's
      average: one 5-point structured review followed by a posted 5 gives
      2.5, where recomputeRatings would give 5. */
  lemma AddReviewIgnoresWeightedScores()
    ensures var rs := [Review(Some(map["technical_expertise" := Number(5.0)]), Absent, Absent), PostedReview(Some(5.0))];
            LegacyAverage(rs) == 2.5 && AverageRating(rs) == 5.0
  {
    var answers := map["technical_expertise" := Number(5.0)];
    var rs := [Review(Some(answers), Absent, Absent), PostedReview(Some(5.0))];
    assert rs[..1] == [rs[0]] && [rs[0]][..0] == [];
    assert LegacyTotal(rs[..1]) == 0.0;
    assert LegacyTotal(rs) == 5.0;
    assert (5.0 / 2.0 * 10.0 + 0.5).Floor == 25;
    assert HasCountedAnswer(answers, ReviewWeights) by {
      assert IsPositive(AnswerAt(answers, ReviewWeights[0].0));
    }
    StructuredScoreWithin(rs[0], 5.0, 5.0);
    FallbackChain(rs[1]);
    assert TotalScore(rs[..1]) == 5.0;
    assert TotalScore(rs) == 10.0;
    assert (10.0 / 2.0 * 10.0 + 0.5).Floor == 50;
  }

  /** A review carrying only a legacy rating in [1, 5]. */
  predicate LegacyOnly(r: Review) {
    && (r.answers.Some? ==> !HasCountedAnswer(r.answers.value, ReviewWeights))
    && !IsPositive(r.overallRating)
    && r.rating.Number? && 1.0 <= r.rating.x <= 5.0
  }

  lemma {:induction false} LegacyTotalMatches(reviews: seq<Review>)
    requires forall i :: 0 <= i < |reviews| ==> LegacyOnly(reviews[i])
    ensures LegacyTotal(reviews) == TotalScore(reviews)
  {
    if reviews != [] {
      var n := |reviews| - 1;
      LegacyTotalMatches(reviews[..n]);
      FallbackChain(reviews[n]);
    }
  }

  /** When every review carries only a legacy rating, the route's average
      and recomputeRatings agree. */
  lemma LegacyAverageMatchesRecompute(reviews: seq<Review>)
    requires forall i :: 0 <= i < |reviews| ==> LegacyOnly(reviews[i])
    ensures LegacyAverage(reviews) == AverageRating(reviews)
  {
    LegacyTotalMatches(reviews);
  }
  // ----- the review body, as the detail page sends it -----

  /** `Number(v)` on a value of a JSON body: undefined (a missing member)
      is NaN, null and false are 0, true is 1, a string is parsed. */
  function NumberOf(v: Json): (r: JsNumber)
    ensures v.Undefined? || v.Hole? ==> r == NaN
    ensures v.Num? ==> r == Finite(v.n)
    ensures v.Str? ==> r == ToNumber(v.s)
  {
    match v
    case Num(n) => Finite(n)
    case Str(s) => ToNumber(s)
    case Null => Finite(0.0)
    case Bool(b) => Finite(if b then 1.0 else 0.0)
    case _ => NaN
  }

  /** A review field as Mongoose's Number cast leaves it: absent when the
      value is undefined, a number, or a value the cast refuses. */
  function CastEntry(v: Json): (r: Entry)
    ensures r.Absent? <==> v.Undefined? || v.Hole?
    ensures r.Number? <==> NumberOf(v).Finite? && !v.Undefined? && !v.Hole?
  {
    if v.Undefined? || v.Hole? then Absent
    else if NumberOf(v).Finite? then Number(NumberOf(v).value)
    else NotNumber
  }

  /** A field the save accepts: absent, or a number in [lo, hi]. */
  predicate Storable(e: Entry, lo: real, hi: real) {
    e.Absent? || (e.Number? && lo <= e.x <= hi)
  }

  /** doc.save() validates the pushed review: every number within the
      schema's bounds and nothing the Number cast refuses. */
  predicate ReviewSaves(rv: Review) {
    && (rv.answers.Some? ==> forall q :: q in rv.answers.value ==> Storable(rv.answers.value[q], 1.0, 5.0))
    && Storable(rv.overallRating, 0.0, 5.0)
    && Storable(rv.rating, 1.0, 5.0)
  }

  /** A review that saves is within the schema's bounds. */
  lemma SavedWithinSchema(rv: Review)
    requires ReviewSaves(rv)
    ensures WithinSchema(rv)
  {
  }

  /** POST /:id/reviews as written, through the save: the stored list, or
      None when the save fails and the route answers 400. `Number(rating)`
      of a body without a rating is NaN, which the save refuses. */
  function AddReviewAsWritten(reviews: seq<Review>, body: seq<Member>): (r: Option<seq<Review>>)
    ensures var n := NumberOf(Field(body, "rating"));
            r.Some? <==> n.Finite? && 1.0 <= n.value <= 5.0
    ensures r.Some? ==>
              && |r.value| == |reviews| + 1 && r.value[..|reviews|] == reviews
              && r.value[|reviews|] == PostedReview(Some(NumberOf(Field(body, "rating")).value))
              && WithinSchema(r.value[|reviews|])
  {
    var n := NumberOf(Field(body, "rating"));
    var rv := PostedReview(if n.Finite? then Some(n.value) else None);
    if ReviewSaves(rv) then
      SavedWithinSchema(rv);
      assert (reviews + [rv])[..|reviews|] == reviews;
      Some(reviews + [rv])
    else None
  }

  /** postReview on the detail page: the answers object and the project
      fields, each of those only when it is not empty (`x || undefined`,
      which JSON leaves out). */
  function DetailPageReviewBody(answers: seq<Member>, projectName: string, projectDate: string, note: string)
    : (r: seq<Member>)
    ensures Field(r, "answers") == Obj(answers)
    ensures Field(r, "rating") == Undefined
  {
    var meta := (if projectName != "" then [Member("projectName", Str(projectName))] else [])
              + (if projectDate != "" then [Member("projectDate", Str(projectDate))] else [])
              + (if note != "" then [Member("note", Str(note))] else []);
    FieldSkip([Member("answers", Obj(answers))], meta, "answers");
    FieldSkip([Member("answers", Obj(answers))], meta, "rating");
    [Member("answers", Obj(answers))] + meta
  }

  /** As written, every review the detail page posts is refused: its body
      has no rating, Number(undefined) is NaN, and the save fails. */
  lemma DetailPageReviewRefused(reviews: seq<Review>, answers: seq<Member>, projectName: string,
                                projectDate: string, note: string)
    ensures AddReviewAsWritten(reviews, DetailPageReviewBody(answers, projectName, projectDate, note)) == None
  {
  }

  // ----- adding a review, corrected -----

  /** The question ids of the evaluation matrix. */
  function QuestionIds(): (r: set<string>)
    ensures forall i :: 0 <= i < |ReviewWeights| ==> ReviewWeights[i].0 in r
  {
    set i | 0 <= i < |ReviewWeights| :: ReviewWeights[i].0
  }

  /** The answers the schema keeps from an `answers` value: one entry per
      question id, cast as Mongoose casts it; other keys are dropped. */
  function AnswersOf(v: Json): (r: map<string, Entry>)
    ensures r.Keys == QuestionIds()
    ensures forall q :: q in r ==> r[q] == CastEntry(if v.Obj? then Field(v.members, q) else Undefined)
  {
    map q | q in QuestionIds() :: CastEntry(if v.Obj? then Field(v.members, q) else Undefined)
  }

  /** The review the route evidently means to store: the structured
      answers of the body, and the legacy rating only when one is sent. */
  function BodyReview(body: seq<Member>): (r: Review)
    ensures r.answers == Some(AnswersOf(Field(body, "answers")))
    ensures r.overallRating.Absent?
    ensures r.rating.Absent? <==> Field(body, "rating").Undefined? || Field(body, "rating").Hole?
  {
    Review(Some(AnswersOf(Field(body, "answers"))), Absent, CastEntry(Field(body, "rating")))
  }

  /** POST /:id/reviews corrected: stores the body's review when it saves. */
  function AddReviewCorrected(reviews: seq<Review>, body: seq<Member>): (r: Option<seq<Review>>)
    ensures r.Some? <==> ReviewSaves(BodyReview(body))
    ensures r.Some? ==>
              && |r.value| == |reviews| + 1 && r.value[..|reviews|] == reviews
              && r.value[|reviews|] == BodyReview(body)
              && WithinSchema(r.value[|reviews|])
  {
    var rv := BodyReview(body);
    if ReviewSaves(rv) then
      SavedWithinSchema(rv);
      assert (reviews + [rv])[..|reviews|] == reviews;
      Some(reviews + [rv])
    else None
  }

  /** Corrected, the review the detail page posts with every question
      answered 1 to 5 is stored, and its weighted score lies in [1, 5]. */
  lemma DetailPageReviewStored(reviews: seq<Review>, answers: seq<Member>, projectName: string,
                               projectDate: string, note: string)
    requires forall i :: 0 <= i < |ReviewWeights| ==>
               Field(answers, ReviewWeights[i].0).Num? && 1.0 <= Field(answers, ReviewWeights[i].0).n <= 5.0
    ensures var r := AddReviewCorrected(reviews, DetailPageReviewBody(answers, projectName, projectDate, note));
            r.Some? && 1.0 <= ReviewScore(Some(r.value[|reviews|])) <= 5.0
  {
    var body := DetailPageReviewBody(answers, projectName, projectDate, note);
    var rv := BodyReview(body);
    var a := AnswersOf(Obj(answers));
    assert rv.answers == Some(a);
    forall q | q in a
      ensures Storable(a[q], 1.0, 5.0)
    {
      var i :| 0 <= i < |ReviewWeights| && ReviewWeights[i].0 == q;
      assert a[q] == CastEntry(Field(answers, q));
    }
    assert ReviewSaves(rv);
    assert HasCountedAnswer(a, ReviewWeights) by {
      assert a[ReviewWeights[0].0] == CastEntry(Field(answers, ReviewWeights[0].0));
      assert IsPositive(AnswerAt(a, ReviewWeights[0].0));
    }
    forall key | IsPositive(AnswerAt(a, key))
      ensures 1.0 <= AnswerAt(a, key).x <= 5.0
    {
    }
    StructuredScoreWithin(rv, 1.0, 5.0);
  }
}

=== FILE: consultants_list.dfy ===
/** The consultant list page (ConsultantsList.js): the dropdown options, the
    five-part filter, the sort of the filtered rows and the URL parameters
    that mirror the page's state. */
module ConsultantsList {
  import opened Wrappers
  import opened Text
  import opened Lists
  import opened JsNumbers
  import opened ConsultantModel
  import opened ConsultantDetails

  /** One consultant as the list page receives it. nameRank is the place of
      the name in the locale's collation order and updatedTime the time of
      updatedAt (or createdAt, or 0) in milliseconds: both are what the
      page's sort compares. */
  datatype Row = Row(
    name: string,
    expertise: StringOrList,
    contacts: ContactFields,
    tags: StringOrList,
    experience: seq<ExperienceItem>,
    qualifications: StringOrList,
    ratingAvg: real,
    nameRank: real,
    updatedTime: real)

  /** The page state the URL carries. */
  datatype Filters = Filters(
    nameQ: string,
    expQ: string,
    expertise: string,
    qual: string,
    ratingMin: string,
    sort: string,
    view: string)

  const DefaultFilters := Filters("", "", "All", "All", "All", "name-asc", "list")

  // ----- dropdown options -----

  /** flatMap over the rows: the truthy values of the chosen field of each row. */
  function Flatten<T>(rows: seq<T>, field: T -> StringOrList): (r: seq<string>)
    ensures forall x :: x in r <==> exists i :: 0 <= i < |rows| && x in AsList(field(rows[i]))
  {
    if rows == [] then []
    else
      var rest := Flatten(rows[1..], field);
      assert forall x :: x in rest <==> exists i :: 1 <= i < |rows| && x in AsList(field(rows[i])) by {
        forall x | x in rest ensures exists i :: 1 <= i < |rows| && x in AsList(field(rows[i])) {
          var i :| 0 <= i < |rows[1..]| && x in AsList(field(rows[1..][i]));
          assert rows[1..][i] == rows[i + 1];
        }
        forall x | exists i :: 1 <= i < |rows| && x in AsList(field(rows[i])) ensures x in rest {
          var i :| 1 <= i < |rows| && x in AsList(field(rows[i]));
          assert rows[1..][i - 1] == rows[i];
        }
      }
      AsList(field(rows[0])) + rest
  }

  /** expertiseOptions and qualOptions: 'All' followed by the distinct
      values of the field, sorted. */
  function OptionsOf(rows: seq<Row>, field: Row -> StringOrList): (r: seq<string>)
    ensures |r| >= 1 && r[0] == "All"
    ensures StrictlySorted(r[1..])
    ensures forall x :: x in r[1..] <==> x != "" && exists i :: 0 <= i < |rows| && x in AsList(field(rows[i]))
  {
    var r := ["All"] + SortedSet(NonEmpty(Flatten(rows, field)));
    assert r[1..] == SortedSet(NonEmpty(Flatten(rows, field)));
    r
  }

  function ExpertiseOptions(rows: seq<Row>): seq<string> {
    OptionsOf(rows, (c: Row) => c.expertise)
  }

  function QualificationOptions(rows: seq<Row>): seq<string> {
    OptionsOf(rows, (c: Row) => c.qualifications)
  }

  // ----- filtering -----

  /** A query as the filter uses it: trimmed and lower-cased. */
  function Query(s: string): string {
    ToLower(Trim(s))
  }

  /** Some value of xs, lower-cased, includes q. */
  predicate AnyContains(xs: seq<string>, q: string) {
    exists i :: 0 <= i < |xs| && Contains(ToLower(xs[i]), q)
  }

  /** basicsMatch: the name query against name, expertise, emails, phones and tags. */
  predicate BasicsMatch(c: Row, q: string) {
    q == "" || Contains(ToLower(c.name), q) || AnyContains(AsList(c.expertise), q) ||
    AnyContains(Emails(c.contacts), q) || AnyContains(Phones(c.contacts), q) ||
    AnyContains(AsList(c.tags), q)
  }

  predicate ExperienceMatches(e: ExperienceItem, q: string) {
    Contains(ToLower(e.role), q) || Contains(ToLower(e.org), q) || Contains(ToLower(e.location), q) ||
    AnyContains(AsList(Many(e.highlights)), q)
  }

  /** expMatch: the experience query against every experience entry. */
  predicate ExpMatch(c: Row, q: string) {
    q == "" || exists i :: 0 <= i < |c.experience| && ExperienceMatches(c.experience[i], q)
  }

  /** A dropdown selection: 'All' or one of the row's values. */
  predicate Selected(sel: string, values: StringOrList) {
    sel == "All" || sel in AsList(values)
  }

  /** rmin: 'All' means 0, anything else goes through Number(). */
  function RatingMinimum(ratingMin: string): JsNumber {
    if ratingMin == "All" then Finite(0.0) else ToNumber(ratingMin)
  }

  /** `ravg >= rmin`, which is false for NaN. */
  predicate AtLeast(ravg: real, rmin: JsNumber) {
    match rmin
    case Finite(m) => ravg >= m
    case Infinite(negative) => negative
    case NaN => false
  }

  /** The filter callback: all five tests. */
  predicate Passes(c: Row, f: Filters) {
    BasicsMatch(c, Query(f.nameQ)) &&
    ExpMatch(c, Query(f.expQ)) &&
    Selected(f.expertise, c.expertise) &&
    Selected(f.qual, c.qualifications) &&
    AtLeast(c.ratingAvg, RatingMinimum(f.ratingMin))
  }

  /** filtered: the rows that pass every test, in their original order. */
  function Filtered(rows: seq<Row>, f: Filters): (r: seq<Row>)
    ensures forall c :: c in r <==> c in rows && Passes(c, f)
    ensures forall c :: multiset(r)[c] == if Passes(c, f) then multiset(rows)[c] else 0
    ensures IsSubsequence(r, rows)
  {
    Filter(rows, (c: Row) => Passes(c, f))
  }

  /** With empty queries and every selector on 'All', each row with a
      non-negative average is shown, in the order received. */
  lemma DefaultsShowEveryRow(rows: seq<Row>, sort: string, view: string)
    requires forall i :: 0 <= i < |rows| ==> rows[i].ratingAvg >= 0.0
    ensures Filtered(rows, Filters("", "", "All", "All", "All", sort, view)) == rows
  {
    var f := Filters("", "", "All", "All", "All", sort, view);
    forall i | 0 <= i < |rows| ensures Passes(rows[i], f) {
      DefaultsPass(rows[i], sort, view);
    }
    FilterKeepsAll(rows, (c: Row) => Passes(c, f));
  }

  lemma DefaultsPass(c: Row, sort: string, view: string)
    requires c.ratingAvg >= 0.0
    ensures Passes(c, Filters("", "", "All", "All", "All", sort, view))
  {
    assert Query("") == "";
  }

  /** A space typed in front of the name query does not change the rows shown. */
  lemma NameQueryTrimmed(rows: seq<Row>, f: Filters)
    ensures Filtered(rows, f.(nameQ := " " + f.nameQ)) == Filtered(rows, f)
  {
    TrimLeadingSpace(f.nameQ);
    assert " " + f.nameQ == [' '] + f.nameQ;
    assert Query(" " + f.nameQ) == Query(f.nameQ);
    var g := f.(nameQ := " " + f.nameQ);
    FilterAgree(rows, (c: Row) => Passes(c, g), (c: Row) => Passes(c, f));
  }

  /** A minimum that Number() cannot read (an 'r' parameter such as "abc")
      hides every row. */
  lemma UnreadableMinimumHidesAll(rows: seq<Row>, f: Filters)
    requires f.ratingMin != "All" && ToNumber(f.ratingMin) == NaN
    ensures Filtered(rows, f) == []
  {
    FilterKeepsNone(rows, (c: Row) => Passes(c, f));
  }

  /** The rating test alone: a row with every other test passed is shown
      exactly when its average is at least the chosen minimum. */
  lemma RatingTest(c: Row, f: Filters, m: real)
    requires RatingMinimum(f.ratingMin) == Finite(m)
    requires BasicsMatch(c, Query(f.nameQ)) && ExpMatch(c, Query(f.expQ))
    requires Selected(f.expertise, c.expertise) && Selected(f.qual, c.qualifications)
    ensures Passes(c, f) <==> c.ratingAvg >= m
  {
  }

  // ----- sorting -----

  datatype SortField = ByName | ByUpdated | ByRating | Unsorted

  function FieldOf(s: string): SortField {
    if s == "name" then ByName
    else if s == "updated" then ByUpdated
    else if s == "rating" then ByRating
    else Unsorted
  }

  /** `sort.split('-')`: the field, and whether the direction is 'desc'. */
  function ParseSort(sort: string): (SortField, bool) {
    var pieces := Split(sort, '-');
    (FieldOf(pieces[0]), |pieces| > 1 && pieces[1] == "desc")
  }

  /** "field-dir" reads back as that field and direction. */
  lemma ParseSortOf(field: string, dir: string)
    requires '-' !in field && '-' !in dir
    ensures ParseSort(field + "-" + dir) == (FieldOf(field), dir == "desc")
  {
    SplitJoin([field, dir], '-');
    assert Join([field, dir], "-") == field + "-" + dir;
  }

  /** The value the comparator subtracts; an unknown field compares every
      pair as equal. */
  function Key(c: Row, field: SortField): real {
    match field
    case ByName => c.nameRank
    case ByUpdated => c.updatedTime
    case ByRating => c.ratingAvg
    case Unsorted => 0.0
  }

  /** x may come before y: the comparator does not put y first. */
  predicate InOrder(x: Row, y: Row, field: SortField, desc: bool) {
    if desc then Key(x, field) >= Key(y, field) else Key(x, field) <= Key(y, field)
  }

  predicate SortedBy(s: seq<Row>, field: SortField, desc: bool) {
    forall i, j :: 0 <= i < j < |s| ==> InOrder(s[i], s[j], field, desc)
  }

  /** Exchanging two neighbours keeps the same rows. */
  lemma SwapKeepsRows(s: seq<Row>, j: int)
    requires 0 < j < |s|
    ensures multiset(s[j - 1 := s[j]][j := s[j - 1]]) == multiset(s)
  {
    var t := s[j - 1 := s[j]][j := s[j - 1]];
    assert s == s[..j - 1] + [s[j - 1], s[j]] + s[j + 1..];
    assert t == s[..j - 1] + [s[j], s[j - 1]] + s[j + 1..];
  }

  /** One pass of the insertion: moves a[i] left past every row the
      comparator puts after it. */
  method InsertAt(a: array<Row>, i: int, field: SortField, desc: bool)
    requires 0 <= i < a.Length
    requires forall k, m :: 0 <= k < m < i ==> InOrder(a[k], a[m], field, desc)
    modifies a
    ensures forall k, m :: 0 <= k < m <= i ==> InOrder(a[k], a[m], field, desc)
    ensures multiset(a[..]) == multiset(old(a[..]))
    ensures field == Unsorted ==> a[..] == old(a[..])
  {
    var j := i;
    while j > 0 && !InOrder(a[j - 1], a[j], field, desc)
      invariant 0 <= j <= i
      invariant forall k, m :: 0 <= k < m <= i && k != j && m != j ==> InOrder(a[k], a[m], field, desc)
      invariant forall m :: j < m <= i ==> InOrder(a[j], a[m], field, desc)
      invariant multiset(a[..]) == multiset(old(a[..]))
      invariant field == Unsorted ==> a[..] == old(a[..])
    {
      SwapKeepsRows(a[..], j);
      a[j - 1], a[j] := a[j], a[j - 1];
      j := j - 1;
    }
  }

  /** arr.sort(cmp) on the copy, as an insertion sort. */
  method SortInPlace(a: array<Row>, field: SortField, desc: bool)
    modifies a
    ensures SortedBy(a[..], field, desc)
    ensures multiset(a[..]) == multiset(old(a[..]))
    ensures field == Unsorted ==> a[..] == old(a[..])
  {
    var i := 0;
    while i < a.Length
      invariant 0 <= i <= a.Length
      invariant forall k, m :: 0 <= k < m < i ==> InOrder(a[k], a[m], field, desc)
      invariant multiset(a[..]) == multiset(old(a[..]))
      invariant field == Unsorted ==> a[..] == old(a[..])
    {
      InsertAt(a, i, field, desc);
      i := i + 1;
    }
  }

  /** sorted: a copy of the filtered rows, sorted by the chosen field and
      direction; an unknown field leaves the order as it was. */
  method SortRows(filtered: seq<Row>, sort: string) returns (sorted: seq<Row>)
    ensures multiset(sorted) == multiset(filtered)
    ensures SortedBy(sorted, ParseSort(sort).0, ParseSort(sort).1)
    ensures ParseSort(sort).0 == Unsorted ==> sorted == filtered
  {
    var (field, desc) := ParseSort(sort);
    var arr := new Row[|filtered|](i requires 0 <= i < |filtered| => filtered[i]);
    assert arr[..] == filtered;
    SortInPlace(arr, field, desc);
    sorted := arr[..];
  }

  // ----- URL parameters -----

  /** The seven parameter names the page uses. */
  datatype ParamKey = Q | Exp | ExpertiseKey | Qual | R | SortKey | ViewKey

  function KeyName(k: ParamKey): string {
    match k
    case Q => "q"
    case Exp => "exp"
    case ExpertiseKey => "expertise"
    case Qual => "qual"
    case R => "r"
    case SortKey => "sort"
    case ViewKey => "view"
  }

  /** Different parameters are written under different names. */
  lemma KeyNamesDistinct(k1: ParamKey, k2: ParamKey)
    requires k1 != k2
    ensures KeyName(k1) != KeyName(k2)
  {
  }

  /** URLSearchParams.get: the first value under key. */
  function Get(ps: seq<(ParamKey, string)>, key: ParamKey): Option<string> {
    if ps == [] then None
    else if ps[0].0 == key then Some(ps[0].1)
    else Get(ps[1..], key)
  }

  /** `params.get(key) || dflt`. */
  function GetOr(ps: seq<(ParamKey, string)>, key: ParamKey, dflt: string): string {
    match Get(ps, key)
    case Some(v) => if v != "" then v else dflt
    case None => dflt
  }

  /** The page state read from the URL when the page opens. */
  function ReadFilters(ps: seq<(ParamKey, string)>): Filters {
    Filters(GetOr(ps, Q, ""), GetOr(ps, Exp, ""), GetOr(ps, ExpertiseKey, "All"),
            GetOr(ps, Qual, "All"), GetOr(ps, R, "All"), GetOr(ps, SortKey, "name-asc"),
            GetOr(ps, ViewKey, "list"))
  }

  /** key is written, with value v, exactly when v differs from its default. */
  predicate Written(ps: seq<(ParamKey, string)>, key: ParamKey, v: string, dflt: string) {
    Get(ps, key) == if v != dflt then Some(v) else None
  }

  /** The parameters record f: each key holds its value when that value is
      not the default, and is absent otherwise. */
  predicate Encodes(ps: seq<(ParamKey, string)>, f: Filters) {
    Written(ps, Q, f.nameQ, "") && Written(ps, Exp, f.expQ, "") &&
    Written(ps, ExpertiseKey, f.expertise, "All") && Written(ps, Qual, f.qual, "All") &&
    Written(ps, R, f.ratingMin, "All") && Written(ps, SortKey, f.sort, "name-asc") &&
    Written(ps, ViewKey, f.view, "list")
  }

  lemma {:induction false} GetSnoc(ps: seq<(ParamKey, string)>, k: ParamKey, v: string, key: ParamKey)
    ensures Get(ps + [(k, v)], key) == if Get(ps, key).Some? then Get(ps, key) else if k == key then Some(v) else None
  {
    if ps != [] {
      assert (ps + [(k, v)])[1..] == ps[1..] + [(k, v)];
      GetSnoc(ps[1..], k, v, key);
    }
  }

  /** One `if (…) next.set(key, v)` step on parameters that do not hold key
      yet: appends (key, v) when v is not the default. */
  method SetIfChanged(ps: seq<(ParamKey, string)>, key: ParamKey, v: string, dflt: string)
    returns (next: seq<(ParamKey, string)>)
    requires Get(ps, key).None?
    ensures next == if v != dflt then ps + [(key, v)] else ps
    ensures Written(next, key, v, dflt)
    ensures forall other :: other != key ==> Get(next, other) == Get(ps, other)
  {
    next := ps;
    if v != dflt {
      next := ps + [(key, v)];
      GetSnoc(ps, key, v, key);
      forall other | other != key ensures Get(next, other) == Get(ps, other) {
        GetSnoc(ps, key, v, other);
      }
    }
  }

  /** The URL sync effect: the parameters written for the page state; the
      default state writes none. */
  method SyncParams(f: Filters) returns (next: seq<(ParamKey, string)>)
    ensures Encodes(next, f)
    ensures f == DefaultFilters ==> next == []
  {
    next := [];
    next := SetIfChanged(next, Q, f.nameQ, "");
    next := SetIfChanged(next, Exp, f.expQ, "");
    next := SetIfChanged(next, ExpertiseKey, f.expertise, "All");
    next := SetIfChanged(next, Qual, f.qual, "All");
    next := SetIfChanged(next, R, f.ratingMin, "All");
    next := SetIfChanged(next, SortKey, f.sort, "name-asc");
    next := SetIfChanged(next, ViewKey, f.view, "list");
  }

  /** The state the page opens with from those parameters: the same state,
      except that a selector left empty comes back as its default. */
  function Reloaded(f: Filters): Filters {
    Filters(f.nameQ, f.expQ,
            if f.expertise == "" then "All" else f.expertise,
            if f.qual == "" then "All" else f.qual,
            if f.ratingMin == "" then "All" else f.ratingMin,
            if f.sort == "" then "name-asc" else f.sort,
            if f.view == "" then "list" else f.view)
  }

  /** Reloading the page from the parameters the sync wrote restores the state. */
  lemma ReloadRestoresState(ps: seq<(ParamKey, string)>, f: Filters)
    requires Encodes(ps, f)
    ensures ReadFilters(ps) == Reloaded(f)
  {
  }
}

=== FILE: json.dfy ===
/** JSON-like values as the server handles them: request bodies and the
    plain objects it builds. */
module JsonValues {

  /** A value: `undefined`, the JSON scalars, an array or an object.
      Hole is an array slot that was never assigned (a sparse array);
      Object.entries skips it and reading it gives `undefined`. */
  datatype Json =
    | Undefined
    | Null
    | Bool(b: bool)
    | Num(n: real)
    | Str(s: string)
    | Arr(items: seq<Json>)
    | Obj(members: seq<Member>)
    | Hole

  /** One own property of an object, in enumeration order. */
  datatype Member = Member(key: string, value: Json)

  /** A sequence of n unassigned slots. */
  function Holes(n: nat): (r: seq<Json>)
    ensures |r| == n && forall i :: 0 <= i < n ==> r[i] == Hole
  {
    if n == 0 then [] else Holes(n - 1) + [Hole]
  }

  /** `out[k] = x` on an array: overwrites slot k, or extends the array with
      unassigned slots up to k and puts x last. */
  function Place(out: seq<Json>, k: nat, x: Json): (r: seq<Json>)
    ensures |r| == if k < |out| then |out| else k + 1
    ensures r[k] == x
    ensures forall i :: 0 <= i < |out| && i != k ==> r[i] == out[i]
    ensures forall i :: |out| <= i < k ==> r[i] == Hole
  {
    if k < |out| then out[k := x] else out + Holes(k - |out|) + [x]
  }
  /** `obj[key]` on an object parsed from JSON: the value of the last member
      with that key (a later duplicate wins), undefined when there is none. */
  function Field(members: seq<Member>, key: string): (r: Json)
    ensures (forall m :: m in members ==> m.key != key) ==> r == Undefined
    ensures r != Undefined ==> Member(key, r) in members
  {
    if members == [] then Undefined
    else if members[|members| - 1].key == key then members[|members| - 1].value
    else Field(members[..|members| - 1], key)
  }

  /** Members with other keys, added after the others, do not change what
      `obj[key]` reads. */
  lemma {:induction false} FieldSkip(members: seq<Member>, extra: seq<Member>, key: string)
    requires forall m :: m in extra ==> m.key != key
    ensures Field(members + extra, key) == Field(members, key)
  {
    if extra == [] {
      assert members + extra == members;
    } else {
      var n := |extra| - 1;
      var all := members + extra;
      assert extra[n] in extra;
      assert all[|all| - 1] == extra[n];
      assert all[..|all| - 1] == members + extra[..n];
      assert Field(all, key) == Field(members + extra[..n], key);
      FieldSkip(members, extra[..n], key);
    }
  }
}

=== FILE: lists.dfy ===
/** List operations the source builds from filter, Set and sort. */
module Lists {

  /** A request or record field that may hold one string or a list of
      strings; Single("") stands for every falsy value (missing, null, ""). */
  datatype StringOrList = Single(s: string) | Many(items: seq<string>)

  predicate Distinct<T(==)>(xs: seq<T>) {
    forall i, j :: 0 <= i < j < |xs| ==> xs[i] != xs[j]
  }

  /** a is b with some elements removed and the others kept in order. */
  predicate IsSubsequence<T(==)>(a: seq<T>, b: seq<T>)
    decreases |b|
  {
    if a == [] then true
    else if b == [] then false
    else if a[0] == b[0] then IsSubsequence(a[1..], b[1..])
    else IsSubsequence(a, b[1..])
  }

  lemma {:induction false} SubsequenceCons<T>(a: seq<T>, x: T, b: seq<T>)
    requires IsSubsequence(a, b)
    ensures IsSubsequence(a, [x] + b)
    decreases |a| + |b|, 1
  {
    assert ([x] + b)[1..] == b;
    if a != [] && a[0] == x {
      SubsequenceTail(a, b);
    }
  }

  lemma {:induction false} SubsequenceTail<T>(a: seq<T>, b: seq<T>)
    requires a != [] && IsSubsequence(a, b)
    ensures IsSubsequence(a[1..], b)
    decreases |a| + |b|, 0
  {
    assert [b[0]] + b[1..] == b;
    if a[0] == b[0] {
      SubsequenceCons(a[1..], b[0], b[1..]);
    } else {
      SubsequenceTail(a, b[1..]);
      SubsequenceCons(a[1..], b[0], b[1..]);
    }
  }

  /** Array.prototype.filter: the elements that pass, in their original order. */
  function Filter<T(!new)>(xs: seq<T>, keep: T -> bool): (r: seq<T>)
    ensures forall x :: x in r <==> x in xs && keep(x)
    ensures forall x :: multiset(r)[x] == if keep(x) then multiset(xs)[x] else 0
    ensures IsSubsequence(r, xs)
    ensures |r| <= |xs|
  {
    if xs == [] then []
    else
      assert multiset(xs) == multiset([xs[0]]) + multiset(xs[1..]) by {
        assert xs == [xs[0]] + xs[1..];
      }
      if keep(xs[0]) then
        assert ([xs[0]] + Filter(xs[1..], keep))[1..] == Filter(xs[1..], keep);
        [xs[0]] + Filter(xs[1..], keep)
      else
        assert IsSubsequence(Filter(xs[1..], keep), xs) by {
          SubsequenceCons(Filter(xs[1..], keep), xs[0], xs[1..]);
          assert [xs[0]] + xs[1..] == xs;
        }
        Filter(xs[1..], keep)
  }

  /** Filtering keeps the relative order of the kept values' first
      occurrences. */
  lemma {:induction false} FilterFirstIndex<T(!new)>(xs: seq<T>, keep: T -> bool, x: T, y: T)
    requires x in Filter(xs, keep) && y in Filter(xs, keep)
    ensures FirstIndex(Filter(xs, keep), x) < FirstIndex(Filter(xs, keep), y)
            <==> FirstIndex(xs, x) < FirstIndex(xs, y)
  {
    var f := Filter(xs, keep);
    var f1 := Filter(xs[1..], keep);
    if xs[0] == x || xs[0] == y {
      assert f[0] == xs[0];
    } else {
      assert x in f1 && y in f1;
      FilterFirstIndex(xs[1..], keep, x, y);
      if keep(xs[0]) {
        assert f[1..] == f1;
      }
    }
  }

  /** A filter every element passes keeps the whole list. */
  lemma {:induction false} FilterKeepsAll<T(!new)>(xs: seq<T>, keep: T -> bool)
    requires forall i :: 0 <= i < |xs| ==> keep(xs[i])
    ensures Filter(xs, keep) == xs
  {
    if xs != [] {
      FilterKeepsAll(xs[1..], keep);
      assert [xs[0]] + xs[1..] == xs;
    }
  }

  /** A filter no element passes keeps nothing. */
  lemma {:induction false} FilterKeepsNone<T(!new)>(xs: seq<T>, keep: T -> bool)
    requires forall i :: 0 <= i < |xs| ==> !keep(xs[i])
    ensures Filter(xs, keep) == []
  {
    if xs != [] {
      FilterKeepsNone(xs[1..], keep);
    }
  }

  /** Two tests that agree on every element filter alike. */
  lemma {:induction false} FilterAgree<T(!new)>(xs: seq<T>, p: T -> bool, q: T -> bool)
    requires forall i :: 0 <= i < |xs| ==> p(xs[i]) == q(xs[i])
    ensures Filter(xs, p) == Filter(xs, q)
  {
    if xs != [] {
      FilterAgree(xs[1..], p, q);
    }
  }

  /** filter(Boolean) on strings: drops the empty ones. */
  function NonEmpty(xs: seq<string>): (r: seq<string>)
    ensures forall x :: x in r <==> x in xs && x != ""
    ensures forall x :: multiset(r)[x] == if x != "" then multiset(xs)[x] else 0
    ensures IsSubsequence(r, xs)
  {
    Filter(xs, (x: string) => x != "")
  }

  /** filter(Boolean) keeps the order of first occurrences. */
  lemma NonEmptyFirstIndex(xs: seq<string>, x: string, y: string)
    requires x in NonEmpty(xs) && y in NonEmpty(xs)
    ensures FirstIndex(NonEmpty(xs), x) < FirstIndex(NonEmpty(xs), y)
            <==> FirstIndex(xs, x) < FirstIndex(xs, y)
  {
    FilterFirstIndex(xs, (x: string) => x != "", x, y);
  }

  /** A list without empty strings is its own filter(Boolean). */
  lemma {:induction false} NonEmptyKeepsAll(xs: seq<string>)
    requires forall x :: x in xs ==> x != ""
    ensures NonEmpty(xs) == xs
  {
    if xs != [] {
      forall x | x in xs[1..] ensures x != "" {
        assert x in xs;
      }
      NonEmptyKeepsAll(xs[1..]);
      assert xs[0] in xs;
      assert [xs[0]] + xs[1..] == xs;
    }
  }

  /** The position of the first occurrence of x in xs. */
  function FirstIndex<T(==)>(xs: seq<T>, x: T): (r: nat)
    requires x in xs
    ensures r < |xs| && xs[r] == x
  {
    if xs[0] == x then 0 else 1 + FirstIndex(xs[1..], x)
  }

  /** No x comes before the first occurrence of x. */
  lemma {:induction false} FirstIndexIsFirst<T>(xs: seq<T>, x: T, i: nat)
    requires x in xs && i < FirstIndex(xs, x)
    ensures xs[i] != x
  {
    if i > 0 {
      FirstIndexIsFirst(xs[1..], x, i - 1);
    }
  }

  /** A position holding x with no x before it is the first occurrence. */
  lemma FirstIndexUnique<T>(xs: seq<T>, x: T, k: nat)
    requires k < |xs| && xs[k] == x
    requires forall i :: 0 <= i < k ==> xs[i] != x
    ensures FirstIndex(xs, x) == k
  {
    var r := FirstIndex(xs, x);
    if k < r {
      FirstIndexIsFirst(xs, x, k);
    }
  }

  /** Appending a value moves no first occurrence, and a new value's first
      occurrence is the end of the old list. */
  lemma FirstIndexSnoc<T>(xs: seq<T>, v: T, y: T)
    requires y in xs + [v]
    ensures y in xs ==> FirstIndex(xs + [v], y) == FirstIndex(xs, y)
    ensures y !in xs ==> FirstIndex(xs + [v], y) == |xs|
  {
    var ys := xs + [v];
    if y in xs {
      var k := FirstIndex(xs, y);
      forall i | 0 <= i < k ensures ys[i] != y {
        FirstIndexIsFirst(xs, y, i);
      }
      FirstIndexUnique(ys, y, k);
    } else {
      forall i | 0 <= i < |xs| ensures ys[i] != y {
        assert xs[i] in xs;
      }
      FirstIndexUnique(ys, y, |xs|);
    }
  }

  /** Every value of d occurs in xs, and d lists them in the order of
      their first occurrences in xs. */
  predicate InFirstOrder<T(==)>(d: seq<T>, xs: seq<T>) {
    (forall x :: x in d ==> x in xs) &&
    forall i, j :: 0 <= i < j < |d| ==> FirstIndex(xs, d[i]) < FirstIndex(xs, d[j])
  }

  /** Values of xs listed by their first occurrence in xs stay so listed
      when xs grows at the end, and a new value may follow them. */
  lemma OrderedSnoc<T>(d: seq<T>, xs: seq<T>, v: T)
    requires InFirstOrder(d, xs)
    ensures InFirstOrder(d, xs + [v])
    ensures v !in xs ==> InFirstOrder(d + [v], xs + [v])
  {
    forall x | x in d ensures FirstIndex(xs + [v], x) == FirstIndex(xs, x) < |xs| {
      FirstIndexSnoc(xs, v, x);
    }
    if v !in xs {
      FirstIndexSnoc(xs, v, v);
      forall i, j | 0 <= i < j < |d + [v]|
        ensures FirstIndex(xs + [v], (d + [v])[i]) < FirstIndex(xs + [v], (d + [v])[j])
      {
        assert (d + [v])[i] == d[i];
        if j < |d| {
          assert (d + [v])[j] == d[j];
        } else {
          assert d[i] in d;
        }
      }
    }
  }

  /** Array.from(new Set(xs)): every value once, at the place of its first
      occurrence (a value is kept exactly when it does not occur earlier). */
  function Dedup<T(==,!new)>(xs: seq<T>): (r: seq<T>)
    ensures Distinct(r)
    ensures forall x :: x in r <==> x in xs
    ensures InFirstOrder(r, xs)
    ensures |r| <= |xs|
  {
    if xs == [] then []
    else
      var init := xs[..|xs| - 1];
      var last := xs[|xs| - 1];
      assert xs == init + [last];
      OrderedSnoc(Dedup(init), init, last);
      if last in Dedup(init) then Dedup(init) else Dedup(init) + [last]
  }

  /** Adding one value to a Set keeps the old order and appends the value
      only when it is new. */
  lemma DedupSnoc<T(!new)>(xs: seq<T>, v: T)
    ensures Dedup(xs + [v]) == if v in xs then Dedup(xs) else Dedup(xs) + [v]
  {
    assert (xs + [v])[..|xs|] == xs;
  }

  /** In a list without duplicates a member occurs exactly once. */
  lemma DistinctOnce<T>(xs: seq<T>, x: T)
    requires Distinct(xs) && x in xs
    ensures multiset(xs)[x] == 1
  {
    var k :| 0 <= k < |xs| && xs[k] == x;
    var before, after := xs[..k], xs[k + 1..];
    assert xs == before + [x] + after;
    forall i | 0 <= i < |before| ensures before[i] != x {
      assert before[i] == xs[i];
    }
    forall i | 0 <= i < |after| ensures after[i] != x {
      assert after[i] == xs[k + 1 + i];
    }
    assert multiset(xs) == multiset(before) + multiset([x]) + multiset(after);
  }

  /** A list without duplicates passes through a Set unchanged. */
  lemma {:induction false} DedupOfDistinct<T(!new)>(xs: seq<T>)
    requires Distinct(xs)
    ensures Dedup(xs) == xs
  {
    if xs != [] {
      var init := xs[..|xs| - 1];
      var last := xs[|xs| - 1];
      DistinctSnoc(xs);
      DedupOfDistinct(init);
      assert xs == init + [last];
      DedupSnoc(init, last);
    }
  }

  /** Without duplicates, the last element is new to the ones before it. */
  lemma DistinctSnoc<T>(xs: seq<T>)
    requires xs != [] && Distinct(xs)
    ensures Distinct(xs[..|xs| - 1]) && xs[|xs| - 1] !in xs[..|xs| - 1]
  {
    var init := xs[..|xs| - 1];
    forall i, j | 0 <= i < j < |init| ensures init[i] != init[j] {
      assert init[i] == xs[i] && init[j] == xs[j];
    }
    forall i | 0 <= i < |init| ensures init[i] != xs[|xs| - 1] {
      assert init[i] == xs[i];
    }
  }

  /** filter((_, idx) => idx !== i): exactly entry i goes and the others
      keep their order; an i that is no index changes nothing. */
  function RemoveIndex<T>(xs: seq<T>, i: int): (r: seq<T>)
    ensures 0 <= i < |xs| ==>
              |r| == |xs| - 1 &&
              (forall j :: 0 <= j < i ==> r[j] == xs[j]) &&
              (forall j :: i <= j < |r| ==> r[j] == xs[j + 1])
    ensures !(0 <= i < |xs|) ==> r == xs
  {
    if 0 <= i < |xs| then xs[..i] + xs[i + 1..] else xs
  }

  /** Removing an entry from a list without duplicates removes its value
      and keeps the list without duplicates. */
  lemma RemoveIndexDistinct<T>(xs: seq<T>, i: int)
    requires Distinct(xs) && 0 <= i < |xs|
    ensures Distinct(RemoveIndex(xs, i))
    ensures forall x :: x in RemoveIndex(xs, i) <==> x in xs && x != xs[i]
  {
    var r := RemoveIndex(xs, i);
    forall a, b | 0 <= a < b < |r| ensures r[a] != r[b] {
      var a' := if a < i then a else a + 1;
      var b' := if b < i then b else b + 1;
      assert r[a] == xs[a'] && r[b] == xs[b'];
    }
    forall x | x in xs && x != xs[i] ensures x in r {
      var k :| 0 <= k < |xs| && xs[k] == x;
      if k < i {
        assert r[k] == x;
      } else {
        assert r[k - 1] == x;
      }
    }
    forall x | x in r ensures x in xs && x != xs[i] {
      var k :| 0 <= k < |r| && r[k] == x;
      var k' := if k < i then k else k + 1;
      assert xs[k'] == x;
    }
  }

  /** The default string order of sort() and of localeCompare stand-in:
      lexicographic on characters, a proper prefix first. */
  predicate Less(a: string, b: string)
  {
    if b == [] then false
    else if a == [] then true
    else a[0] < b[0] || (a[0] == b[0] && Less(a[1..], b[1..]))
  }

  lemma {:induction false} LessIrreflexive(a: string)
    ensures !Less(a, a)
  {
    if a != [] {
      LessIrreflexive(a[1..]);
    }
  }

  lemma {:induction false} LessTransitive(a: string, b: string, c: string)
    requires Less(a, b) && Less(b, c)
    ensures Less(a, c)
  {
    if a != [] && a[0] == b[0] && b[0] == c[0] {
      LessTransitive(a[1..], b[1..], c[1..]);
    }
  }

  lemma {:induction false} LessTotal(a: string, b: string)
    ensures a == b || Less(a, b) || Less(b, a)
  {
    if a != [] && b != [] && a[0] == b[0] {
      LessTotal(a[1..], b[1..]);
      if a[1..] == b[1..] {
        assert a == [a[0]] + a[1..] && b == [b[0]] + b[1..];
      }
    }
  }

  lemma {:induction false} LessAsymmetric(a: string, b: string)
    requires Less(a, b)
    ensures !Less(b, a)
  {
    if a != [] && a[0] == b[0] {
      LessAsymmetric(a[1..], b[1..]);
    }
  }

  /** Each element strictly before the next. */
  predicate StrictlySorted(xs: seq<string>) {
    forall i :: 0 < i < |xs| ==> Less(xs[i - 1], xs[i])
  }

  /** Strictly sorted lists are ordered between any two positions, so they
      hold no duplicates. */
  lemma {:induction false} StrictlySortedOrdered(xs: seq<string>, i: int, j: int)
    requires StrictlySorted(xs) && 0 <= i < j < |xs|
    ensures Less(xs[i], xs[j])
    decreases j - i
  {
    if i + 1 < j {
      StrictlySortedOrdered(xs, i + 1, j);
      LessTransitive(xs[i], xs[i + 1], xs[j]);
    }
  }

  lemma StrictlySortedDistinct(xs: seq<string>)
    requires StrictlySorted(xs)
    ensures Distinct(xs)
  {
    forall i, j | 0 <= i < j < |xs| ensures xs[i] != xs[j] {
      StrictlySortedOrdered(xs, i, j);
      LessIrreflexive(xs[i]);
    }
  }

  /** Inserts x into a strictly sorted list, keeping it strictly sorted. */
  function Insert(xs: seq<string>, x: string): (r: seq<string>)
    requires StrictlySorted(xs)
    ensures StrictlySorted(r)
    ensures forall y :: y in r <==> y in xs || y == x
    ensures |r| > 0 && (r[0] == x || (xs != [] && r[0] == xs[0]))
  {
    if xs == [] then [x]
    else if x == xs[0] then xs
    else if Less(x, xs[0]) then [x] + xs
    else
      assert Less(xs[0], x) by { LessTotal(x, xs[0]); }
      var rest := Insert(xs[1..], x);
      assert xs == [xs[0]] + xs[1..];
      [xs[0]] + rest
  }

  /** Array.from(new Set(xs)).sort(): the distinct values of xs in
      increasing order. */
  function SortedSet(xs: seq<string>): (r: seq<string>)
    ensures StrictlySorted(r)
    ensures forall y :: y in r <==> y in xs
  {
    if xs == [] then []
    else
      assert xs == [xs[0]] + xs[1..];
      Insert(SortedSet(xs[1..]), xs[0])
  }

  /** A strictly sorted list is determined by its elements: whatever order
      the values came in, sorting their Set gives the same list. */
  lemma {:induction false} SortedUnique(a: seq<string>, b: seq<string>)
    requires StrictlySorted(a) && StrictlySorted(b)
    requires forall y :: y in a <==> y in b
    ensures a == b
  {
    if a != [] {
      assert a[0] in b;
    }
    if b != [] {
      assert b[0] in a;
    }
    if a != [] && b != [] {
      assert a[0] in b && b[0] in a;
      if a[0] != b[0] {
        var k :| 0 <= k < |b| && b[k] == a[0];
        var m :| 0 <= m < |a| && a[m] == b[0];
        StrictlySortedOrdered(b, 0, k);
        StrictlySortedOrdered(a, 0, m);
        LessAsymmetric(a[0], b[0]);
      }
      StrictlySortedDistinct(a);
      StrictlySortedDistinct(b);
      forall y ensures y in a[1..] <==> y in b[1..] {
        if y in a[1..] {
          var i :| 1 <= i < |a| && a[i] == y;
          assert y != a[0];
          assert y in b;
        }
        if y in b[1..] {
          var i :| 1 <= i < |b| && b[i] == y;
          assert y != b[0];
          assert y in a;
        }
      }
      SortedUnique(a[1..], b[1..]);
      assert a == [a[0]] + a[1..] && b == [b[0]] + b[1..];
    }
  }
}

=== FILE: numbers.dfy ===
/** JavaScript number values and the Number() conversion of strings. */
module JsNumbers {
  import opened Wrappers
  import opened Text

  /** A JavaScript number: NaN, a finite value or one of the two infinities. */
  datatype JsNumber = NaN | Finite(value: real) | Infinite(negative: bool)

  function Pow10(n: nat): (r: nat)
    ensures r >= 1
  {
    if n == 0 then 1 else 10 * Pow10(n - 1)
  }

  /** An unsigned decimal literal: digits, digits with a fraction, or a bare
      fraction, with at least one digit. None when b is not of that form. */
  function DecimalValue(b: string): Option<real>
  {
    var parts := Split(b, '.');
    if |parts| == 1 then
      if b != "" && AllDigits(b) then Some(DigitsValue(b) as real) else None
    else if |parts| == 2 && AllDigits(parts[0]) && AllDigits(parts[1]) && |parts[0]| + |parts[1]| >= 1 then
      Some(DigitsValue(parts[0]) as real + DigitsValue(parts[1]) as real / Pow10(|parts[1]|) as real)
    else
      None
  }

  /** Number(s) on a string: white space around the text is ignored, the
      blank string is 0, a signed decimal literal or Infinity is its value,
      anything else is NaN. */
  function ToNumber(s: string): JsNumber
  {
    var t := Trim(s);
    if t == "" then Finite(0.0)
    else
      var negative := t[0] == '-';
      var body := if t[0] == '-' || t[0] == '+' then t[1..] else t;
      if body == "Infinity" then Infinite(negative)
      else
        match DecimalValue(body)
        case Some(v) => Finite(if negative then -v else v)
        case None => NaN
  }

  /** A non-empty string of decimal digits converts to its value. */
  lemma ToNumberDigits(s: string)
    requires s != [] && AllDigits(s)
    ensures ToNumber(s) == Finite(DigitsValue(s) as real)
  {
    assert IsTrimmed(s);
    assert s != "Infinity" by { assert !('0' <= 'I' <= '9'); }
    assert '.' !in s by {
      forall i | 0 <= i < |s| ensures s[i] != '.' {}
    }
    SplitNoSeparator(s, '.');
  }
}

=== FILE: review_scoring.dfy ===
/** Weighted scoring of one review (models/Consultant.js): the structured
    answers first, then the cached overall rating, then the legacy rating. */
module ReviewScoring {
  import opened Wrappers

  /** What a review field holds: nothing, a JavaScript number, or a value of
      another type. NaN is not among the numbers: the reviews arrive as JSON,
      which has no NaN, and the schema's Number fields refuse it. */
  datatype Entry = Absent | Number(x: real) | NotNumber

  /** A review as scoring sees it: the optional answers object, keyed by
      question id, and the two legacy fields. */
  datatype Review = Review(answers: Option<map<string, Entry>>, overallRating: Entry, rating: Entry)

  /** REVIEW_WEIGHTS in declaration order, which Object.entries keeps. */
  const ReviewWeights: seq<(string, real)> := [
    ("technical_expertise", 0.25),
    ("relevant_experience", 0.15),
    ("proposed_methodology", 0.15),
    ("communication_skills", 0.10),
    ("involvement_tasks", 0.15),
    ("timeliness", 0.10),
    ("cost_effectiveness", 0.10)
  ]

  predicate PositiveWeights(ws: seq<(string, real)>) {
    forall i :: 0 <= i < |ws| ==> ws[i].1 > 0.0
  }

  /** `typeof v === "number" && v > 0`. */
  predicate IsPositive(e: Entry) {
    e.Number? && e.x > 0.0
  }

  /** `answers[key]`: undefined when the key is missing. */
  function AnswerAt(answers: map<string, Entry>, key: string): Entry {
    if key in answers then answers[key] else Absent
  }

  /** The running `sum` of the loop over the weight table: answer times
      weight, over the questions whose answer is a number > 0. */
  function WeightedSum(answers: map<string, Entry>, ws: seq<(string, real)>): real
    requires PositiveWeights(ws)
  {
    if ws == [] then 0.0
    else
      var last := ws[|ws| - 1];
      var v := AnswerAt(answers, last.0);
      WeightedSum(answers, ws[..|ws| - 1]) + (if IsPositive(v) then v.x * last.1 else 0.0)
  }

  /** The running `totalW`: the weights of the questions whose answer is a number > 0. */
  function WeightTotal(answers: map<string, Entry>, ws: seq<(string, real)>): real
    requires PositiveWeights(ws)
  {
    if ws == [] then 0.0
    else
      var last := ws[|ws| - 1];
      WeightTotal(answers, ws[..|ws| - 1]) + (if IsPositive(AnswerAt(answers, last.0)) then last.1 else 0.0)
  }

  /** The score of a review, as computeWeightedReviewScore defines it. */
  function ReviewScore(review: Option<Review>): (r: real)
    ensures r >= 0.0
  {
    match review
    case None => 0.0
    case Some(rv) =>
      if rv.answers.Some? && WeightTotal(rv.answers.value, ReviewWeights) > 0.0 then
        SumsNonNegative(rv.answers.value, ReviewWeights);
        WeightedSum(rv.answers.value, ReviewWeights) / WeightTotal(rv.answers.value, ReviewWeights)
      else if IsPositive(rv.overallRating) then rv.overallRating.x
      else if IsPositive(rv.rating) then rv.rating.x
      else 0.0
  }

  /** computeWeightedReviewScore: the loop over the weight table, then the fallbacks. */
  method ComputeWeightedReviewScore(review: Option<Review>) returns (score: real)
    ensures score == ReviewScore(review)
  {
    if review.None? {
      return 0.0;
    }
    var rv := review.value;
    if rv.answers.Some? {
      var answers := rv.answers.value;
      var sum, totalW := 0.0, 0.0;
      var i := 0;
      while i < |ReviewWeights|
        invariant 0 <= i <= |ReviewWeights|
        invariant sum == WeightedSum(answers, ReviewWeights[..i])
        invariant totalW == WeightTotal(answers, ReviewWeights[..i])
      {
        var (key, weight) := ReviewWeights[i];
        var v := AnswerAt(answers, key);
        if v.Number? && v.x > 0.0 {
          sum := sum + v.x * weight;
          totalW := totalW + weight;
        }
        assert ReviewWeights[..i + 1][..i] == ReviewWeights[..i];
        i := i + 1;
      }
      assert ReviewWeights[..i] == ReviewWeights;
      if totalW > 0.0 {
        return sum / totalW;
      }
    }
    if rv.overallRating.Number? && rv.overallRating.x > 0.0 {
      return rv.overallRating.x;
    }
    if rv.rating.Number? && rv.rating.x > 0.0 {
      return rv.rating.x;
    }
    return 0.0;
  }

  /** Both running sums only ever grow. */
  lemma {:induction false} SumsNonNegative(answers: map<string, Entry>, ws: seq<(string, real)>)
    requires PositiveWeights(ws)
    ensures WeightedSum(answers, ws) >= 0.0 && WeightTotal(answers, ws) >= 0.0
  {
    if ws != [] {
      SumsNonNegative(answers, ws[..|ws| - 1]);
      var last := ws[|ws| - 1];
      var v := AnswerAt(answers, last.0);
      if IsPositive(v) {
        assert v.x * last.1 > 0.0;
      }
    }
  }

  /** Some weighted question has a number > 0 as its answer. */
  predicate HasCountedAnswer(answers: map<string, Entry>, ws: seq<(string, real)>) {
    exists i :: 0 <= i < |ws| && IsPositive(AnswerAt(answers, ws[i].0))
  }

  /** The total weight is positive exactly when some weighted question has a
      positive numeric answer. */
  lemma {:induction false} WeightTotalPositiveIff(answers: map<string, Entry>, ws: seq<(string, real)>)
    requires PositiveWeights(ws)
    ensures WeightTotal(answers, ws) > 0.0 <==> HasCountedAnswer(answers, ws)
  {
    if ws != [] {
      var init := ws[..|ws| - 1];
      WeightTotalPositiveIff(answers, init);
      SumsNonNegative(answers, init);
      if HasCountedAnswer(answers, init) {
        var i :| 0 <= i < |init| && IsPositive(AnswerAt(answers, init[i].0));
        assert ws[i] == init[i];
      }
      if HasCountedAnswer(answers, ws) {
        var i :| 0 <= i < |ws| && IsPositive(AnswerAt(answers, ws[i].0));
        if i < |init| {
          assert init[i] == ws[i];
        }
      }
    }
  }

  /** How far the counted answers lie above c, weighted: the sum of
      (answer - c) * weight over the counted questions. */
  function Excess(answers: map<string, Entry>, ws: seq<(string, real)>, c: real): real
    requires PositiveWeights(ws)
  {
    if ws == [] then 0.0
    else
      var last := ws[|ws| - 1];
      var v := AnswerAt(answers, last.0);
      Excess(answers, ws[..|ws| - 1], c) + (if IsPositive(v) then (v.x - c) * last.1 else 0.0)
  }

  /** Dropping the last weight keeps the weights positive. */
  lemma InitPositive(ws: seq<(string, real)>)
    requires ws != [] && PositiveWeights(ws)
    ensures PositiveWeights(ws[..|ws| - 1])
  {
    var init := ws[..|ws| - 1];
    forall i | 0 <= i < |init| ensures init[i].1 > 0.0 {
      assert init[i] == ws[i];
    }
  }

  /** The excess over c is the weighted sum less c times the total weight. */
  lemma {:induction false} ExcessIdentity(answers: map<string, Entry>, ws: seq<(string, real)>, c: real)
    requires PositiveWeights(ws)
    ensures Excess(answers, ws, c) == WeightedSum(answers, ws) - c * WeightTotal(answers, ws)
  {
    if ws != [] {
      var init := ws[..|ws| - 1];
      var last := ws[|ws| - 1];
      var v := AnswerAt(answers, last.0);
      InitPositive(ws);
      ExcessIdentity(answers, init, c);
      var t0 := WeightTotal(answers, init);
      if IsPositive(v) {
        assert (v.x - c) * last.1 == v.x * last.1 - c * last.1;
        assert c * (t0 + last.1) == c * t0 + c * last.1;
      }
    }
  }

  /** With every counted answer at least lo, the excess over lo is not negative. */
  lemma {:induction false} ExcessAboveLow(answers: map<string, Entry>, ws: seq<(string, real)>, lo: real)
    requires PositiveWeights(ws)
    requires forall key :: IsPositive(AnswerAt(answers, key)) ==> lo <= AnswerAt(answers, key).x
    ensures Excess(answers, ws, lo) >= 0.0
  {
    if ws != [] {
      var last := ws[|ws| - 1];
      var v := AnswerAt(answers, last.0);
      InitPositive(ws);
      ExcessAboveLow(answers, ws[..|ws| - 1], lo);
      if IsPositive(v) {
        ProductSign(v.x - lo, last.1);
      }
    }
  }

  /** With every counted answer at most hi, the excess over hi is not positive. */
  lemma {:induction false} ExcessBelowHigh(answers: map<string, Entry>, ws: seq<(string, real)>, hi: real)
    requires PositiveWeights(ws)
    requires forall key :: IsPositive(AnswerAt(answers, key)) ==> AnswerAt(answers, key).x <= hi
    ensures Excess(answers, ws, hi) <= 0.0
  {
    if ws != [] {
      var last := ws[|ws| - 1];
      var v := AnswerAt(answers, last.0);
      InitPositive(ws);
      ExcessBelowHigh(answers, ws[..|ws| - 1], hi);
      if IsPositive(v) {
        ProductSign(hi - v.x, last.1);
      }
    }
  }

  lemma ProductSign(a: real, b: real)
    requires a >= 0.0 && b > 0.0
    ensures a * b >= 0.0
  {
  }

  /** Each counted answer lies in [lo, hi], so the weighted sum lies between
      lo and hi times the total weight. */
  lemma WeightedSumBounds(answers: map<string, Entry>, ws: seq<(string, real)>, lo: real, hi: real)
    requires PositiveWeights(ws)
    requires forall key :: IsPositive(AnswerAt(answers, key)) ==> lo <= AnswerAt(answers, key).x <= hi
    ensures lo * WeightTotal(answers, ws) <= WeightedSum(answers, ws) <= hi * WeightTotal(answers, ws)
  {
    ExcessAboveLow(answers, ws, lo);
    ExcessBelowHigh(answers, ws, hi);
    ExcessIdentity(answers, ws, lo);
    ExcessIdentity(answers, ws, hi);
  }

  /** Dividing by a positive total keeps the bounds. */
  lemma DivideBounds(s: real, t: real, lo: real, hi: real)
    requires t > 0.0 && lo * t <= s <= hi * t
    ensures lo <= s / t <= hi
  {
    assert s / t * t == s;
  }

  /** When a weighted question holds a number > 0, the score is the weighted
      mean over exactly the counted questions, whatever the legacy fields say. */
  lemma StructuredAnswersTakePriority(answers: map<string, Entry>, overall1: Entry, rating1: Entry,
                                      overall2: Entry, rating2: Entry)
    requires HasCountedAnswer(answers, ReviewWeights)
    ensures WeightTotal(answers, ReviewWeights) > 0.0
         && ReviewScore(Some(Review(Some(answers), overall1, rating1)))
         == WeightedSum(answers, ReviewWeights) / WeightTotal(answers, ReviewWeights)
    ensures ReviewScore(Some(Review(Some(answers), overall1, rating1)))
         == ReviewScore(Some(Review(Some(answers), overall2, rating2)))
  {
    WeightTotalPositiveIff(answers, ReviewWeights);
  }

  /** Without a positive numeric answer to a weighted question (or without
      answers at all) the score is the overall rating if it is a number > 0,
      else the legacy rating if it is a number > 0, else 0. */
  lemma FallbackChain(review: Review)
    requires review.answers.Some? ==> !HasCountedAnswer(review.answers.value, ReviewWeights)
    ensures ReviewScore(Some(review))
         == if IsPositive(review.overallRating) then review.overallRating.x
            else if IsPositive(review.rating) then review.rating.x
            else 0.0
  {
    if review.answers.Some? {
      WeightTotalPositiveIff(review.answers.value, ReviewWeights);
    }
  }

  /** Only the weighted questions with a number > 0 matter: two answer
      objects that agree on those give the same score (extra keys, absent,
      non-numeric, zero and negative values all count for nothing). */
  lemma {:induction false} CountedAnswersDecide(a: map<string, Entry>, b: map<string, Entry>, ws: seq<(string, real)>)
    requires PositiveWeights(ws)
    requires forall i :: 0 <= i < |ws| ==>
               (IsPositive(AnswerAt(a, ws[i].0)) || IsPositive(AnswerAt(b, ws[i].0))) ==>
               AnswerAt(a, ws[i].0) == AnswerAt(b, ws[i].0)
    ensures WeightedSum(a, ws) == WeightedSum(b, ws)
    ensures WeightTotal(a, ws) == WeightTotal(b, ws)
  {
    if ws != [] {
      var init := ws[..|ws| - 1];
      forall i | 0 <= i < |init| && (IsPositive(AnswerAt(a, init[i].0)) || IsPositive(AnswerAt(b, init[i].0)))
        ensures AnswerAt(a, init[i].0) == AnswerAt(b, init[i].0)
      {
        assert init[i] == ws[i];
      }
      CountedAnswersDecide(a, b, init);
    }
  }

  lemma UncountedAnswersIgnored(a: map<string, Entry>, b: map<string, Entry>, overall: Entry, rating: Entry)
    requires forall i :: 0 <= i < |ReviewWeights| ==>
               (IsPositive(AnswerAt(a, ReviewWeights[i].0)) || IsPositive(AnswerAt(b, ReviewWeights[i].0))) ==>
               AnswerAt(a, ReviewWeights[i].0) == AnswerAt(b, ReviewWeights[i].0)
    ensures ReviewScore(Some(Review(Some(a), overall, rating))) == ReviewScore(Some(Review(Some(b), overall, rating)))
  {
    CountedAnswersDecide(a, b, ReviewWeights);
  }

  /** If every counted answer lies in [lo, hi] and at least one is counted,
      the score lies in [lo, hi]: answers on the 1-5 scale give a 1-5 score. */
  lemma StructuredScoreWithin(review: Review, lo: real, hi: real)
    requires review.answers.Some? && HasCountedAnswer(review.answers.value, ReviewWeights)
    requires forall key :: IsPositive(AnswerAt(review.answers.value, key)) ==>
               lo <= AnswerAt(review.answers.value, key).x <= hi
    ensures lo <= ReviewScore(Some(review)) <= hi
  {
    var answers := review.answers.value;
    WeightTotalPositiveIff(answers, ReviewWeights);
    WeightedSumBounds(answers, ReviewWeights, lo, hi);
    DivideBounds(WeightedSum(answers, ReviewWeights), WeightTotal(answers, ReviewWeights), lo, hi);
  }

  /** The schema keeps answers in [1, 5], overallRating in [0, 5] and rating
      in [1, 5]; under those bounds every score lies in [0, 5]. */
  predicate WithinSchema(review: Review) {
    && (review.answers.Some? ==> forall key :: key in review.answers.value && review.answers.value[key].Number? ==>
          1.0 <= review.answers.value[key].x <= 5.0)
    && (review.overallRating.Number? ==> 0.0 <= review.overallRating.x <= 5.0)
    && (review.rating.Number? ==> 1.0 <= review.rating.x <= 5.0)
  }

  lemma ScoreWithinScale(review: Review)
    requires WithinSchema(review)
    ensures 0.0 <= ReviewScore(Some(review)) <= 5.0
  {
    if review.answers.Some? && HasCountedAnswer(review.answers.value, ReviewWeights) {
      StructuredScoreWithin(review, 1.0, 5.0);
    } else {
      FallbackChain(review);
    }
  }

  /** Two answers of 5 (technical expertise and timeliness) score 5: the
      mean is re-normalised over the answered questions only. */
  lemma PartialRubricScoresOnScale()
    ensures ReviewScore(Some(Review(Some(map["technical_expertise" := Number(5.0), "timeliness" := Number(5.0)]),
                                    Absent, Absent))) == 5.0
  {
    var answers := map["technical_expertise" := Number(5.0), "timeliness" := Number(5.0)];
    assert IsPositive(AnswerAt(answers, ReviewWeights[0].0));
    StructuredScoreWithin(Review(Some(answers), Absent, Absent), 5.0, 5.0);
  }
}

=== FILE: search_index.dfy ===
/** buildSearch (routes/consultants.js): the lower-cased search text and the
    keyword list stored with every consultant. */
module SearchIndex {
  import opened Text
  import opened Lists
  import opened JsonValues
  import opened ConsultantModel

  /** A project entry of a request body; "" stands for a missing field. */
  datatype Project = Project(title: string, client: string, funders: seq<string>)

  /** The fields buildSearch reads; a missing list is []. */
  datatype SearchSource = SearchSource(
    name: string,
    expertise: seq<string>,
    tags: seq<string>,
    sectors: seq<string>,
    qualifications: seq<string>,
    projects: seq<Project>,
    experience: seq<ExperienceItem>)

  /** projects.flatMap(p => [p.title, p.client, ...(p.funders || [])]). */
  function ProjectParts(ps: seq<Project>): seq<string> {
    if ps == [] then [] else [ps[0].title, ps[0].client] + ps[0].funders + ProjectParts(ps[1..])
  }

  /** experience.flatMap(e => [e.role, e.org, e.location, ...(e.highlights || [])]). */
  function ExperienceParts(es: seq<ExperienceItem>): seq<string> {
    if es == [] then [] else [es[0].role, es[0].org, es[0].location] + es[0].highlights + ExperienceParts(es[1..])
  }

  /** The candidate parts in their fixed order, before the filter. */
  function RawParts(src: SearchSource): seq<string> {
    [src.name] + src.expertise + src.tags + src.sectors + src.qualifications
    + ProjectParts(src.projects) + ExperienceParts(src.experience)
  }

  /** `.filter(Boolean)`: the non-empty parts, in order and with their
      repetitions. */
  function Parts(src: SearchSource): (r: seq<string>)
    ensures forall p :: p in r <==> p in RawParts(src) && p != ""
    ensures forall p :: multiset(r)[p] == if p != "" then multiset(RawParts(src))[p] else 0
    ensures IsSubsequence(r, RawParts(src))
  {
    NonEmpty(RawParts(src))
  }

  function LowerAll(xs: seq<string>): (r: seq<string>)
    ensures |r| == |xs| && forall i :: 0 <= i < |xs| ==> r[i] == ToLower(xs[i])
  {
    seq(|xs|, i requires 0 <= i < |xs| => ToLower(xs[i]))
  }

  /** search.text: the parts joined by spaces, lower-cased. */
  function SearchText(src: SearchSource): string {
    ToLower(Join(Parts(src), " "))
  }

  /** search.keywords: the lower-cased parts, each once, in the order of
      its first occurrence. */
  function Keywords(src: SearchSource): (r: seq<string>)
    ensures Distinct(r)
    ensures forall k :: k in r <==> k in LowerAll(Parts(src))
    ensures InFirstOrder(r, LowerAll(Parts(src)))
  {
    Dedup(LowerAll(Parts(src)))
  }

  /** The keywords are exactly the non-empty parts, lower-cased. */
  lemma KeywordsAreLoweredParts(src: SearchSource)
    ensures forall k :: k in Keywords(src) <==> exists p :: p in RawParts(src) && p != "" && k == ToLower(p)
  {
    var ps := Parts(src);
    var r := Keywords(src);
    forall k | k in r ensures exists p :: p in RawParts(src) && p != "" && k == ToLower(p) {
      var i :| 0 <= i < |ps| && LowerAll(ps)[i] == k;
      assert ps[i] in ps;
    }
    forall p | p in RawParts(src) && p != "" ensures ToLower(p) in r {
      var i :| 0 <= i < |ps| && ps[i] == p;
      assert LowerAll(ps)[i] == ToLower(p);
    }
  }

  /** Every non-empty part, lower-cased, occurs in the search text. */
  lemma PartInText(src: SearchSource, p: string)
    requires p in RawParts(src) && p != ""
    ensures Contains(SearchText(src), ToLower(p))
  {
    var ps := Parts(src);
    var i :| 0 <= i < |ps| && ps[i] == p;
    var before, after := JoinContainsElement(ps, " ", i);
    ToLowerAppend(before + p, after);
    ToLowerAppend(before, p);
    ContainsInfix(ToLower(before), ToLower(p), ToLower(after));
  }

  /** Every keyword occurs as a substring of the search text. */
  lemma KeywordsInText(src: SearchSource)
    ensures forall k :: k in Keywords(src) ==> Contains(SearchText(src), k)
  {
    KeywordsAreLoweredParts(src);
    forall k | k in Keywords(src) ensures Contains(SearchText(src), k) {
      var p :| p in RawParts(src) && p != "" && k == ToLower(p);
      PartInText(src, p);
    }
  }

  /** The stored keyword list as a JSON array of strings. */
  function StrAll(xs: seq<string>): (r: seq<Json>)
    ensures |r| == |xs| && forall i :: 0 <= i < |xs| ==> r[i] == Str(xs[i])
  {
    seq(|xs|, i requires 0 <= i < |xs| => Str(xs[i]))
  }

  /** What buildSearch reads from a stored document: the schema has no
      sectors or projects path, so on a document those lists are empty. */
  function DocSource(doc: ConsultantDoc): SearchSource
    reads doc
  {
    SearchSource(doc.name, doc.expertise, doc.tags, [], doc.qualifications, [], doc.experience)
  }

  /** buildSearch on a document: sets search.text and search.keywords and
      keeps every other field of doc.search. */
  method BuildSearch(doc: ConsultantDoc)
    modifies doc`search
    ensures "text" in doc.search && doc.search["text"] == Str(SearchText(DocSource(doc)))
    ensures "keywords" in doc.search && doc.search["keywords"] == Arr(StrAll(Keywords(DocSource(doc))))
    ensures forall k :: k != "text" && k != "keywords" ==>
              (k in doc.search <==> k in old(doc.search)) &&
              (k in old(doc.search) ==> doc.search[k] == old(doc.search)[k])
  {
    var src := DocSource(doc);
    var text := SearchText(src);
    var keywords := Keywords(src);
    doc.search := doc.search["text" := Str(text)];
    doc.search := doc.search["keywords" := Arr(StrAll(keywords))];
  }
}

=== FILE: strip_undefined.dfy ===
/** stripUndefinedDeep (routes/consultants.js): the copy of a request body
    that an update sends to the database, with every `undefined` removed. */
module StripUndefined {
  import opened Wrappers
  import opened JsonValues

  /** The values `v && typeof v === 'object'` accepts: arrays and objects
      (null is falsy). */
  predicate IsObjectLike(v: Json) {
    v.Arr? || v.Obj?
  }

  /** The stripped copy: null and non-objects are returned as they are, an
      array stays an array and an object stays an object. */
  function Strip(j: Json): (r: Json)
    ensures !IsObjectLike(j) ==> r == j
    ensures j.Arr? <==> r.Arr?
    ensures j.Obj? <==> r.Obj?
    decreases j, 1
  {
    match j
    case Arr(items) => Arr(StripItems(items))
    case Obj(ms) => Obj(StripMembers(ms))
    case _ => j
  }

  /** What one loop step assigns to `out[k]` for the entry value v (None: no
      assignment). An undefined value is skipped, a nested object that
      strips to {} is dropped, a nested array is always kept and any other
      value, null included, is copied. Whatever is assigned is the stripped
      value itself. */
  function Slot(v: Json): (r: Option<Json>)
    ensures r.None? <==> v.Undefined? || v.Hole? || Strip(v) == Obj([])
    ensures v.Arr? ==> r.Some?
    ensures r.Some? ==> r.value == Strip(v)
    decreases v, 2
  {
    if v.Undefined? || v.Hole? then None
    else if IsObjectLike(v) then
      var nested := Strip(v);
      if nested.Arr? then Some(nested)
      else if |nested.members| > 0 then Some(nested)
      else if v.Arr? then Some(Arr([]))
      else None
    else Some(v)
  }

  /** The array the loop builds: slot i holds what entry i assigns, slots
      that got nothing are holes, and the array ends at the last assigned
      slot. */
  function StripItems(items: seq<Json>): (r: seq<Json>)
    ensures |r| <= |items|
    ensures forall i :: 0 <= i < |r| ==> r[i] == if Slot(items[i]).Some? then Slot(items[i]).value else Hole
    ensures forall i :: 0 <= i < |items| && Slot(items[i]).Some? ==> i < |r|
    ensures r == [] || r[|r| - 1] != Hole
    decreases items, 0
  {
    if items == [] then []
    else
      var k := |items| - 1;
      var prev := StripItems(items[..k]);
      assert forall i :: 0 <= i < k ==> items[..k][i] == items[i];
      match Slot(items[k])
      case None => prev
      case Some(x) => Place(prev, k, x)
  }

  /** The object the loop builds, one member per entry that assigns something. */
  function StripMembers(ms: seq<Member>): (r: seq<Member>)
    ensures |r| <= |ms|
    decreases ms, 0
  {
    if ms == [] then []
    else
      var k := |ms| - 1;
      match Slot(ms[k].value)
      case None => StripMembers(ms[..k])
      case Some(x) => StripMembers(ms[..k]) + [Member(ms[k].key, x)]
  }

  /** The stripped object keeps exactly the members whose value assigns
      something, under the same key and with the stripped value. */
  lemma {:induction false} StripMembersKeeps(ms: seq<Member>)
    ensures forall m :: m in StripMembers(ms) <==>
              exists j :: 0 <= j < |ms| && ms[j].key == m.key && Slot(ms[j].value) == Some(m.value)
  {
    if ms != [] {
      var k := |ms| - 1;
      var init := ms[..k];
      StripMembersKeeps(init);
      forall m ensures m in StripMembers(ms) <==>
                       exists j :: 0 <= j < |ms| && ms[j].key == m.key && Slot(ms[j].value) == Some(m.value)
      {
        if m in StripMembers(ms) {
          if m in StripMembers(init) {
            var j :| 0 <= j < |init| && init[j].key == m.key && Slot(init[j].value) == Some(m.value);
            assert ms[j] == init[j];
          } else {
            assert ms[k].key == m.key && Slot(ms[k].value) == Some(m.value);
          }
        }
        if exists j :: 0 <= j < |ms| && ms[j].key == m.key && Slot(ms[j].value) == Some(m.value) {
          var j :| 0 <= j < |ms| && ms[j].key == m.key && Slot(ms[j].value) == Some(m.value);
          if j < k {
            assert init[j] == ms[j];
          } else {
            assert m == Member(ms[k].key, Slot(ms[k].value).value);
          }
        }
      }
    }
  }

  /** stripUndefinedDeep: one loop over the entries of an array or an object. */
  method StripUndefinedDeep(obj: Json) returns (out: Json)
    ensures out == Strip(obj)
    decreases obj, 0
  {
    if !IsObjectLike(obj) {
      return obj;
    }
    if obj.Arr? {
      var items := obj.items;
      var acc: seq<Json> := [];
      var k := 0;
      while k < |items|
        invariant 0 <= k <= |items|
        invariant acc == StripItems(items[..k])
      {
        var slot := StripEntry(items[k]);
        if slot.Some? {
          acc := Place(acc, k, slot.value);
        }
        assert items[..k + 1][..k] == items[..k];
        k := k + 1;
      }
      assert items[..k] == items;
      return Arr(acc);
    } else {
      var ms := obj.members;
      var acc: seq<Member> := [];
      var k := 0;
      while k < |ms|
        invariant 0 <= k <= |ms|
        invariant acc == StripMembers(ms[..k])
      {
        var slot := StripEntry(ms[k].value);
        if slot.Some? {
          acc := acc + [Member(ms[k].key, slot.value)];
        }
        assert ms[..k + 1][..k] == ms[..k];
        k := k + 1;
      }
      assert ms[..k] == ms;
      return Obj(acc);
    }
  }

  /** The body of the loop for one entry value. */
  method StripEntry(v: Json) returns (slot: Option<Json>)
    ensures slot == Slot(v)
    decreases v, 1
  {
    if v == Undefined || v == Hole {
      return None;
    }
    if IsObjectLike(v) {
      var nested := StripUndefinedDeep(v);
      if nested.Arr? {
        return Some(nested);
      } else if |nested.members| > 0 {
        return Some(nested);
      } else if v.Arr? {
        return Some(Arr([]));
      }
      return None;
    }
    return Some(v);
  }

  /** No `undefined` at any depth below the top, and no object member
      that is an unassigned slot. */
  predicate Clean(j: Json)
    decreases j
  {
    match j
    case Arr(items) => forall i :: 0 <= i < |items| ==> items[i] != Undefined && Clean(items[i])
    case Obj(ms) => forall i :: 0 <= i < |ms| ==> ms[i].value != Undefined && ms[i].value != Hole && Clean(ms[i].value)
    case _ => true
  }

  /** The stripped copy holds no `undefined` anywhere inside it. */
  lemma {:induction false} StripLeavesNoUndefined(j: Json)
    ensures Clean(Strip(j))
    decreases j
  {
    match j
    case Arr(items) =>
      var r := StripItems(items);
      forall i | 0 <= i < |r| ensures r[i] != Undefined && Clean(r[i]) {
        if Slot(items[i]).Some? {
          StripLeavesNoUndefined(items[i]);
        }
      }
    case Obj(ms) =>
      var r := StripMembers(ms);
      StripMembersKeeps(ms);
      forall i | 0 <= i < |r| ensures r[i].value != Undefined && r[i].value != Hole && Clean(r[i].value) {
        assert r[i] in r;
        var j :| 0 <= j < |ms| && ms[j].key == r[i].key && Slot(ms[j].value) == Some(r[i].value);
        StripLeavesNoUndefined(ms[j].value);
      }
    case _ =>
  }

  /** A value that assigned something assigns the same thing once stripped. */
  lemma {:induction false} SlotStable(v: Json)
    requires Slot(v).Some?
    ensures Slot(Strip(v)) == Some(Strip(v))
    decreases v, 1
  {
    if IsObjectLike(v) {
      StripIdempotent(v);
    }
  }

  /** Every member value is its own stripped copy. */
  predicate MembersFixed(ms: seq<Member>) {
    forall i :: 0 <= i < |ms| ==> Slot(ms[i].value) == Some(ms[i].value)
  }

  /** A member list whose every value is its own stripped copy is unchanged. */
  lemma {:induction false} StripMembersFixed(ms: seq<Member>)
    requires MembersFixed(ms)
    ensures StripMembers(ms) == ms
  {
    if ms != [] {
      var k := |ms| - 1;
      var init := ms[..k];
      assert MembersFixed(init) by {
        forall i | 0 <= i < |init| ensures Slot(init[i].value) == Some(init[i].value) {
          assert init[i] == ms[i];
        }
      }
      StripMembersFixed(init);
      assert Slot(ms[k].value) == Some(ms[k].value);
      assert ms == init + [Member(ms[k].key, ms[k].value)];
    }
  }

  /** Stripping twice is stripping once. */
  lemma {:induction false} StripIdempotent(j: Json)
    ensures Strip(Strip(j)) == Strip(j)
    decreases j, 0
  {
    match j
    case Arr(items) =>
      var r := StripItems(items);
      var rr := StripItems(r);
      forall i | 0 <= i < |r| && r[i] != Hole ensures Slot(r[i]) == Some(r[i]) {
        SlotStable(items[i]);
      }
      if r != [] {
        assert Slot(r[|r| - 1]).Some?;
      }
      assert |rr| == |r|;
      forall i | 0 <= i < |r| ensures rr[i] == r[i] {
        if r[i] == Hole {
          assert Slot(r[i]).None?;
        }
      }
      assert rr == r;
    case Obj(ms) =>
      var r := StripMembers(ms);
      StripMembersKeeps(ms);
      assert MembersFixed(r) by {
        forall i | 0 <= i < |r| ensures Slot(r[i].value) == Some(r[i].value) {
          assert r[i] in r;
          var j :| 0 <= j < |ms| && ms[j].key == r[i].key && Slot(ms[j].value) == Some(r[i].value);
          SlotStable(ms[j].value);
        }
      }
      StripMembersFixed(r);
    case _ =>
  }
}

=== FILE: text.dfy ===
/** The JavaScript string operations the source relies on: trim, toLowerCase,
    startsWith, includes, split on one character and join. */
module Text {

  /** The characters String.prototype.trim removes: the ASCII white space,
      the byte-order mark, the line and paragraph separators and the space
      separators of Unicode category Zs (the no-break space, the Ogham space
      mark, the en quad through the hair space, the narrow no-break space,
      the medium mathematical space and the ideographic space). */
  predicate IsSpace(c: char) {
    || c == ' ' || c == '\t' || c == '\n' || c == '\r' || c == '\U{0B}' || c == '\U{0C}'
    || c == '\U{FEFF}' || c == '\U{2028}' || c == '\U{2029}'
    || c == '\U{A0}' || c == '\U{1680}' || '\U{2000}' <= c <= '\U{200A}'
    || c == '\U{202F}' || c == '\U{205F}' || c == '\U{3000}'
  }

  /** Neither starts nor ends with white space. */
  predicate IsTrimmed(s: string) {
    s == [] || (!IsSpace(s[0]) && !IsSpace(s[|s| - 1]))
  }

  /** Drops the leading white space: what is left is a suffix of s and the
      dropped prefix is all white space. */
  function TrimStart(s: string): (r: string)
    ensures |r| <= |s| && r == s[|s| - |r|..]
    ensures r == [] || !IsSpace(r[0])
    ensures forall i :: 0 <= i < |s| - |r| ==> IsSpace(s[i])
  {
    if |s| > 0 && IsSpace(s[0]) then TrimStart(s[1..]) else s
  }

  /** Drops the trailing white space: what is left is a prefix of s and the
      dropped suffix is all white space. */
  function TrimEnd(s: string): (r: string)
    ensures |r| <= |s| && r == s[..|r|]
    ensures r == [] || !IsSpace(r[|r| - 1])
    ensures forall i :: |r| <= i < |s| ==> IsSpace(s[i])
  {
    if |s| > 0 && IsSpace(s[|s| - 1]) then TrimEnd(s[..|s| - 1]) else s
  }

  /** String.prototype.trim: the result is trimmed, and a trimmed string is its own trim. */
  function Trim(s: string): (r: string)
    ensures IsTrimmed(r)
    ensures IsTrimmed(s) ==> r == s
    ensures |r| <= |s|
  {
    TrimEnd(TrimStart(s))
  }

  /** Trimming only removes characters: every character of the result is
      one of the input's. */
  lemma TrimKeepsChars(s: string, c: char)
    requires c in Trim(s)
    ensures c in s
  {
    var t := TrimStart(s);
    var r := Trim(s);
    var i :| 0 <= i < |r| && r[i] == c;
    assert t[i] == c;
    assert s[|s| - |t| + i] == c;
  }

  /** map(s => s.trim()). */
  function TrimAll(xs: seq<string>): (r: seq<string>)
    ensures |r| == |xs| && forall i :: 0 <= i < |xs| ==> r[i] == Trim(xs[i])
  {
    seq(|xs|, i requires 0 <= i < |xs| => Trim(xs[i]))
  }

  /** Trimmed pieces are trimmed, and a character none of the pieces held
      is in none of them after trimming. */
  lemma TrimAllKeepsOut(xs: seq<string>, c: char)
    requires forall p :: p in xs ==> c !in p
    ensures forall x :: x in TrimAll(xs) ==> IsTrimmed(x) && c !in x
  {
    var t := TrimAll(xs);
    forall x | x in t ensures IsTrimmed(x) && c !in x {
      var i :| 0 <= i < |t| && t[i] == x;
      assert xs[i] in xs;
      if c in x {
        TrimKeepsChars(xs[i], c);
      }
    }
  }

  /** A space in front of a string does not change its trim. */
  lemma TrimLeadingSpace(p: string)
    ensures Trim([' '] + p) == Trim(p)
  {
    assert ([' '] + p)[1..] == p;
  }

  function LowerChar(c: char): char {
    if 'A' <= c <= 'Z' then (c as int + 32) as char else c
  }

  /** String.prototype.toLowerCase on ASCII letters; other characters are kept. */
  function ToLower(s: string): (r: string)
    ensures |r| == |s|
  {
    seq(|s|, i requires 0 <= i < |s| => LowerChar(s[i]))
  }

  lemma ToLowerAppend(a: string, b: string)
    ensures ToLower(a + b) == ToLower(a) + ToLower(b)
  {
  }

  /** String.prototype.startsWith. */
  predicate StartsWith(s: string, prefix: string) {
    |prefix| <= |s| && s[..|prefix|] == prefix
  }

  /** String.prototype.includes: sub occurs at some position of s. */
  predicate Contains(s: string, sub: string)
    decreases |s|
  {
    StartsWith(s, sub) || (|s| > 0 && Contains(s[1..], sub))
  }

  /** sub occurs in s starting at position i. */
  predicate OccursAt(s: string, sub: string, i: int) {
    0 <= i && i + |sub| <= |s| && s[i..i + |sub|] == sub
  }

  /** includes is exactly "occurs at some position". */
  lemma {:induction false} ContainsIff(s: string, sub: string)
    ensures Contains(s, sub) <==> exists i :: OccursAt(s, sub, i)
    decreases |s|
  {
    if StartsWith(s, sub) {
      assert OccursAt(s, sub, 0);
    }
    if |s| > 0 {
      ContainsIff(s[1..], sub);
      if Contains(s[1..], sub) {
        var i :| OccursAt(s[1..], sub, i);
        assert OccursAt(s, sub, i + 1);
      }
      if exists i :: OccursAt(s, sub, i) {
        var i :| OccursAt(s, sub, i);
        if i > 0 {
          assert OccursAt(s[1..], sub, i - 1);
        }
      }
    } else if exists i :: OccursAt(s, sub, i) {
      var i :| OccursAt(s, sub, i);
      assert StartsWith(s, sub);
    }
  }

  /** A string occurs in any string built around it. */
  lemma ContainsInfix(a: string, sub: string, b: string)
    ensures Contains(a + sub + b, sub)
  {
    var s := a + sub + b;
    assert OccursAt(s, sub, |a|);
    ContainsIff(s, sub);
  }

  /** Array.prototype.join with the separator sep. */
  function Join(xs: seq<string>, sep: string): string
  {
    if |xs| == 0 then "" else if |xs| == 1 then xs[0] else xs[0] + sep + Join(xs[1..], sep)
  }

  /** Each element of a joined list sits somewhere inside the joined string. */
  lemma {:induction false} JoinContainsElement(xs: seq<string>, sep: string, i: nat) returns (before: string, after: string)
    requires i < |xs|
    ensures Join(xs, sep) == before + xs[i] + after
  {
    if |xs| == 1 {
      before, after := "", "";
    } else if i == 0 {
      before, after := "", sep + Join(xs[1..], sep);
    } else {
      var b, a := JoinContainsElement(xs[1..], sep, i - 1);
      before, after := xs[0] + sep + b, a;
    }
  }

  /** String.prototype.split on the one-character separator sep: the pieces
      contain no separator, there is always at least one, and joining them
      back with the separator gives s again. */
  function Split(s: string, sep: char): (r: seq<string>)
    ensures |r| >= 1
    ensures forall p :: p in r ==> sep !in p
    ensures Join(r, [sep]) == s
    decreases |s|
  {
    if |s| == 0 then [""]
    else
      var rest := Split(s[1..], sep);
      if s[0] == sep then
        assert [sep] + s[1..] == s;
        [""] + rest
      else
        assert [s[0]] + s[1..] == s;
        assert ([[s[0]] + rest[0]] + rest[1..])[1..] == rest[1..];
        [[s[0]] + rest[0]] + rest[1..]
  }

  lemma {:induction false} SplitNoSeparator(a: string, sep: char)
    requires sep !in a
    ensures Split(a, sep) == [a]
    decreases |a|
  {
    if |a| > 0 {
      SplitNoSeparator(a[1..], sep);
      assert [a[0]] + a[1..] == a;
    }
  }

  lemma {:induction false} SplitAtSeparator(a: string, sep: char, b: string)
    requires sep !in a
    ensures Split(a + [sep] + b, sep) == [a] + Split(b, sep)
    decreases |a|
  {
    var s := a + [sep] + b;
    if |a| == 0 {
      assert s[1..] == b;
    } else {
      assert s[1..] == a[1..] + [sep] + b;
      SplitAtSeparator(a[1..], sep, b);
      assert [a[0]] + a[1..] == a;
    }
  }

  /** Splitting undoes joining when no piece contains the separator. */
  lemma {:induction false} SplitJoin(xs: seq<string>, sep: char)
    requires |xs| >= 1
    requires forall x :: x in xs ==> sep !in x
    ensures Split(Join(xs, [sep]), sep) == xs
  {
    if |xs| == 1 {
      SplitNoSeparator(xs[0], sep);
    } else {
      SplitJoin(xs[1..], sep);
      SplitAtSeparator(xs[0], sep, Join(xs[1..], [sep]));
      assert [xs[0]] + xs[1..] == xs;
    }
  }

  /** The value of a string of decimal digits. */
  predicate AllDigits(s: string) {
    forall i :: 0 <= i < |s| ==> '0' <= s[i] <= '9'
  }

  function DigitsValue(s: string): nat
    requires AllDigits(s)
  {
    if |s| == 0 then 0 else 10 * DigitsValue(s[..|s| - 1]) + (s[|s| - 1] as int - '0' as int)
  }
}

=== FILE: wrappers.dfy ===
/** Optional values and results, used wherever the source returns a value or an error. */
module Wrappers {

  datatype Option<+T> = None | Some(value: T)

  datatype Result<+T, +E> = Ok(value: T) | Err(error: E)
}
